=== FILE: README.md ===
# Bookshelf: a Dafny model of the ownership-scoped book and tag API

Bookshelf is a personal book-tracking application. Users register and log in
with an email and password and receive a session cookie holding a signed
token. They keep books on a shelf, tag and rate them, filter their collection
and look books up in the Open Library catalogue. Two back ends implement the
API:

- an Express server over an embedded SQLite database (`server/src/...`);
- serverless functions over PostgreSQL (`api/...`).

This project models the core of both back ends:

- **The store.** The four tables (users, books, tags, book_tags) form one
  value, `Schema.Tables`. Its keys, the uniqueness of emails and of tag names
  per user, the foreign keys and their `ON DELETE CASCADE` are predicates and
  functions over that value. The database connection is the class
  `Engine.Bookshelf`. Its `RunQuery` runs one statement with the engine's
  constraint checks, and `Rows` models the cursor helpers `getOne` and
  `getAll`. The engine keeps foreign keys on throughout, as the schema
  intends. Findings shows what the running server loses once its connection
  is reopened without the pragma.
- **The handlers.** Each handler that changes the store has a specification
  function, `...Spec`, which gives the tables afterwards and the reply (and,
  for account requests, the cookie) as a function of the tables before. The
  method that follows the source statement by statement, loops included, is
  proved to produce exactly that state and reply.
- **Ownership.** All server handlers keep `Schema.Consistent`: the schema's
  constraints plus "every link joins a book and a tag of the same owner".
  The serverless book handler keeps only the schema's constraints, and
  `ServerlessBooks.ForeignTagIsLinked` shows a request that breaks the
  ownership part.
- **The session gates.** `authMiddleware` and `withAuth` (with its
  hand-written Cookie parser), the secret fallback, and the Set-Cookie
  strings.
- **The rest.** The error middleware, the fixed-window rate limiter (with
  the clock as a parameter) and the Open Library mapper and searches (with
  the HTTP request as a parameter).

bcrypt, jsonwebtoken and validator.js's `isEmail` and `normalizeEmail` are
treated as foreign functions, the fields of `Credentials.Primitives`. What
the model needs of them is stated as two hypotheses that lemmas take as
preconditions:

- `HashAgrees`: a password matches its own hash.
- `TokensAgree`: a signed token is cookie-safe text and verifies back to its
  payload.

The model follows the code as written, including where it behaves
differently from what a reader might expect:

- The serverless `addBook` links every given tag id, including another
  user's tags, and an id that names no tag stops the loop with 500 after the
  book is stored.
- The serverless `Set-Cookie` gives Max-Age in milliseconds, although the
  option is commented "7 days" (`api/lib/auth.ts:37`). The handlers send
  this header as written; Findings gives the corrected one.
- The server's error handler echoes the error message for codes other
  than 500.
- The serverless book handlers give 500 for an integer the PostgreSQL
  INTEGER columns cannot hold: a `tag` filter, a `publication_year` or a
  `rating` outside -2^31 .. 2^31 - 1.

## Model

| member | source | states |
|---|---|---|
| Schema.WithUser | server/src/config/db.ts:33-38 | inserting a user with a free email keeps the schema's constraints and owner agreement, and adds the row under the next id |
| Schema.WithBook | server/src/config/db.ts:42-57 | inserting a book for an existing owner keeps every constraint, and adds the row under the next id |
| Schema.ReplacedBook | server/src/config/db.ts:42-57 | rewriting a book row with an existing owner keeps the constraints; owner agreement is kept when the owner is unchanged |
| Schema.WithLink | server/src/config/db.ts:72-78 | a link between an existing book and tag keeps the constraints; owner agreement is kept when the two share an owner |
| Schema.WithoutLinksOf | server/src/config/db.ts:72-78 | deleting the links of a book keeps every invariant and changes nothing when the book has none |
| Schema.WithTag | server/src/config/db.ts:61-68 | inserting a tag whose name its owner does not use yet keeps UNIQUE(user_id, name) and the other invariants |
| Schema.ReplacedTag | server/src/config/db.ts:61-68 | rewriting a tag keeps the constraints when no other tag of the owner has the new name |
| Schema.OwnNameFree | server/src/config/db.ts:66 | a tag's own name is never taken by another tag of its owner |
| Schema.WithoutBook | server/src/config/db.ts:76 | deleting a book cascades exactly to its links, and keeps every invariant |
| Schema.WithoutTag | server/src/config/db.ts:77 | deleting a tag cascades exactly to its links, and keeps every invariant |
| Schema.WithoutTagNoCascade | server/src/config/db.ts:92-97 | as written, once the pragma is gone: deleting a linked tag leaves its links dangling |
| Schema.WithoutUser | server/src/config/db.ts:56-67 | deleting a user cascades to exactly their books and tags, and to every link naming one of them |
| Schema.LinkedTags | server/src/routes/books.ts:59-65 | the tag join yields exactly the id, name and colour of each linked tag |
| Engine.Execute | server/src/config/db.ts:108-116 | a statement throws iff it violates a key, uniqueness or foreign-key rule; otherwise the constraints hold afterwards, owner agreement is kept by owner-preserving statements, 0 changes means an unchanged store, and inserts report 1 change |
| Engine.ExecuteOnBooks | server/src/config/db.ts:108-116 | the same, for user and book statements |
| Engine.ExecuteOnLinks | server/src/config/db.ts:108-116 | the same, for `INSERT OR IGNORE` links and link deletion; a duplicate link is skipped with 0 changes |
| Engine.ExecuteOnTags | server/src/config/db.ts:108-116 | the same, for tag statements |
| Engine.RanBookInsert | server/src/config/db.ts:108-116 | a book insert adds the row under the next id and reports it, or fails on a missing owner and changes nothing |
| Engine.RanUserInsert | server/src/config/db.ts:108-116 | a user insert with a free email adds the row under the next id |
| Engine.RanLinkInsert | server/src/config/db.ts:108-116 | inserting a link between existing rows leaves exactly that link added |
| Engine.RanBookUpdate | server/src/config/db.ts:108-116 | an UPDATE of an existing book row rewrites that row |
| Engine.RanTagUpdate | server/src/config/db.ts:108-116 | an UPDATE of a tag that keeps the constraints rewrites that row |
| Engine.Bookshelf.constructor | server/src/config/db.ts:17-90 | a new database has empty tables and counters at 1 |
| Engine.Bookshelf.RunQuery | server/src/config/db.ts:108-116 | runs one statement in place, exactly as Execute says, and keeps the store valid |
| Engine.Bookshelf.RunInsertUser | server/src/config/db.ts:33-38 | the users table part of RunQuery |
| Engine.Bookshelf.RunInsertBook | server/src/config/db.ts:42-57 | the books insert part of RunQuery |
| Engine.Bookshelf.RunInsertLink | server/src/config/db.ts:72-78 | the link insert part of RunQuery |
| Engine.Bookshelf.RunDeleteLinksOfBook | server/src/routes/books.ts:282 | the link deletion part of RunQuery |
| Engine.Bookshelf.RunUpdateBook | server/src/config/db.ts:42-57 | the book update part of RunQuery |
| Engine.Bookshelf.RunDeleteOwnedBook | server/src/routes/books.ts:338-341 | an owner-scoped book delete, with its cascade |
| Engine.Bookshelf.RunInsertTag | server/src/config/db.ts:61-68 | the tag insert part of RunQuery |
| Engine.Bookshelf.RunUpdateTag | server/src/config/db.ts:61-68 | the tag update part of RunQuery |
| Engine.Bookshelf.RunDeleteOwnedTag | server/src/routes/tags.ts:154-157 | an owner-scoped tag delete, with its cascade |
| Rows.RowOf | server/src/config/db.ts:128-131 | the object built column by column has exactly the column names as its keys |
| Rows.RowOfLastWins | server/src/config/db.ts:149-152 | a column that does not occur again later keeps its own value |
| Rows.GetAll | server/src/config/db.ts:139-158 | one object per cursor row, in cursor order |
| Rows.GetOne | server/src/config/db.ts:118-137 | the first row as an object, or nothing for an empty result |
| Rows.OrderBy | server/src/routes/tags.ts:18 | `ORDER BY`: every row exactly once, in the given total preorder |
| BookRoutes.ListErrors | server/src/routes/books.ts:15-19 | no errors iff status is one of the three states and tag is an integer text |
| BookRoutes.ViewsOf | server/src/routes/books.ts:58-73 | the per-book loop turns ordered ids into a complete, repetition-free, newest-first listing |
| BookRoutes.ListBooks | server/src/routes/books.ts:13-81 | 400 with the failed checks, else exactly the caller's books that pass every given filter, each once, newest first, with their tags |
| BookRoutes.DeletedTagStillListsAsWritten | server/src/routes/books.ts:34-37 | as written: after deleting tag 5 without the cascade, `GET /?tag=5` still lists the book that was filed under it |
| BookRoutes.DeletedTagListsNothing | server/src/routes/books.ts:34-37 | with the cascade, no book is listed under a deleted tag |
| BookRoutes.SearchIsContainment | server/src/routes/books.ts:45-49 | for a query without `%` or `_`, `LIKE '%q%'` on title or authors means ASCII-case-insensitive containment |
| BookRoutes.GetBook | server/src/routes/books.ts:84-125 | 400 for a non-integer id, 404 for a book the caller does not own (missing and foreign look alike), else the book with its tags |
| BookRoutes.OwnedTagIds | server/src/routes/books.ts:189-193 | exactly the numeric items that name a tag of the owner |
| BookRoutes.AddedLinks | server/src/routes/books.ts:195-202 | adding links to existing tags keeps the constraints, and keeps owner agreement when the tags are the book owner's |
| BookRoutes.LinkOwnedTags | server/src/routes/books.ts:195-202 | the loop links the book to exactly the given ids the owner owns, keeping the store valid |
| BookRoutes.OwnedTagIdsStep | server/src/routes/books.ts:195-196 | one more item adds its id exactly when it names an owned tag |
| BookRoutes.CreateErrors | server/src/routes/books.ts:130-142 | no errors iff every declared chain passes: title not empty, and each optional field of its declared type and range |
| BookRoutes.StatusOrDefault | server/src/routes/books.ts:179 | a new row's status is `unread` without a status, and the given status when it is one of the allowed values |
| BookRoutes.NewBook | server/src/routes/books.ts:165-183 | the inserted row: the trimmed title, status defaulting to unread, and the arrays decoding back to what was sent |
| BookRoutes.TagsToLink | server/src/routes/books.ts:188-203 | an id is linked exactly when the body's `tags` array holds it and the caller owns that tag |
| BookRoutes.CreateBookSpec | server/src/routes/books.ts:128-225 | 400 changes nothing, and so does the 500 for a caller whose user row is gone; else the new book is stored, the links become exactly the old ones plus one to each given id the caller owns (foreign ids dropped), and the book is returned with 201; owner agreement is preserved |
| BookRoutes.LinkGivenTags | server/src/routes/books.ts:188-203 | the tag step runs only for a non-empty array, and its effect is the owned-id links |
| BookRoutes.CreateBook | server/src/routes/books.ts:143-224 | the handler's new state and reply are CreateBookSpec's |
| BookRoutes.UpdateErrors | server/src/routes/books.ts:230-238 | no errors iff the id is an integer and each given field passes its chain |
| BookRoutes.PatchStep | server/src/routes/books.ts:263-268 | visiting field i applies that column exactly when the body has it |
| BookRoutes.Patched | server/src/routes/books.ts:259-273 | a true partial update: each given column takes the body's value and every other column keeps its own |
| BookRoutes.PatchedAuthors | server/src/routes/books.ts:270-273 | a given `authors` array is stored so that it decodes back to itself |
| BookRoutes.PatchedColumns | server/src/routes/books.ts:262-268 | the title, status, rating and notes columns, each set from the body when given and kept otherwise, with every other column kept |
| BookRoutes.UpdateBookSpec | server/src/routes/books.ts:228-322 | 400 or 404 change nothing; else only the given columns change, and with `tags` (even []) the book's links become exactly the owned given ids, other books' links untouched; owner agreement is preserved |
| BookRoutes.PatchRow | server/src/routes/books.ts:259-273 | the SET-list loop computes Patched and whether any column was given |
| BookRoutes.ReplaceTags | server/src/routes/books.ts:281-300 | delete-then-insert leaves exactly the owned given ids linked |
| BookRoutes.RewriteBook | server/src/routes/books.ts:275-278 | the UPDATE runs only when a column was given, and leaves the patched row |
| BookRoutes.UpdateBook | server/src/routes/books.ts:239-321 | the handler's new state and reply are UpdateBookSpec's |
| BookRoutes.DeleteBookSpec | server/src/routes/books.ts:325-353 | 400 for a non-integer id; deletes only an owned book, cascading exactly its links; otherwise 404 and nothing changes |
| BookRoutes.DeleteBook | server/src/routes/books.ts:328-352 | the handler's new state and reply are DeleteBookSpec's |
| TagRoutes.NameOrderTotal | server/src/routes/tags.ts:18 | ordering by name is a total preorder |
| TagRoutes.RecordsOf | server/src/routes/tags.ts:17-22 | each of the owner's tags once, as its full row, in the given order |
| TagRoutes.ListTags | server/src/routes/tags.ts:13-27 | exactly the caller's tags, each once, ordered by name |
| TagRoutes.CreateTagErrors | server/src/routes/tags.ts:32-35 | no errors iff the name is non-empty and at most 50 long after trim, and a given colour is `#` plus six hex digits |
| TagRoutes.UpdateTagErrors | server/src/routes/tags.ts:74-78 | no errors iff the id is an integer and each given field passes its chain |
| TagRoutes.ColorOf | server/src/routes/tags.ts:58 | an absent colour becomes the default; a valid given one is kept |
| TagRoutes.InsertTagSpec | server/src/routes/tags.ts:46-63 | a name the caller already uses gives 400 and changes nothing, as does the 500 for a caller whose user row is gone; else the tag is stored under the next id and returned with 201 |
| TagRoutes.InsertNewTag | server/src/routes/tags.ts:46-63 | the existence check, insert and re-read give InsertTagSpec's state and reply |
| TagRoutes.CreateTagSpec | server/src/routes/tags.ts:30-69 | a rejected body changes nothing; otherwise InsertTagSpec on the trimmed name and colour |
| TagRoutes.CreateTag | server/src/routes/tags.ts:36-68 | the handler's new state and reply are CreateTagSpec's |
| TagRoutes.Renamed | server/src/routes/tags.ts:112-123 | the given name and colour replace the old ones; the owner never changes |
| TagRoutes.RewriteTagSpec | server/src/routes/tags.ts:89-132 | 404 for a tag the caller does not own, 400 when another of their tags has the new name, else the renamed row |
| TagRoutes.RewriteTag | server/src/routes/tags.ts:89-132 | the ownership check, the conflict check and the UPDATE give RewriteTagSpec's state and reply |
| TagRoutes.UpdateTagSpec | server/src/routes/tags.ts:72-138 | a rejected request changes nothing; otherwise RewriteTagSpec |
| TagRoutes.KeepingNameIsAllowed | server/src/routes/tags.ts:101-110 | renaming a tag to its own name is never a conflict |
| TagRoutes.UpdateTag | server/src/routes/tags.ts:79-137 | the handler's new state and reply are UpdateTagSpec's |
| TagRoutes.DeleteTagSpec | server/src/routes/tags.ts:141-169 | 400 for a non-integer id; deletes only an owned tag, cascading exactly its links; otherwise 404 and nothing changes |
| TagRoutes.DeleteTag | server/src/routes/tags.ts:144-168 | the handler's new state and reply are DeleteTagSpec's |
| Credentials.GetJwtSecret | server/src/services/auth.ts:6-13 | the configured secret; without one, an error exactly in production and the built-in literal elsewhere |
| Credentials.GenerateToken | server/src/services/auth.ts:25-31 | signing fails exactly when the secret lookup throws |
| Credentials.VerifyToken | server/src/services/auth.ts:33-39 | without a secret nothing verifies |
| Credentials.TokenRoundTrip | server/src/services/auth.ts:25-39 | a token the service issues verifies back to its id and email |
| Credentials.CookieOptionsOf | server/src/services/auth.ts:41-47 | http-only, strict, path `/`, secure exactly in production, seven days in milliseconds |
| Session.Decide | server/src/middleware/auth.ts:5-19 | admits iff a non-empty token verifies, with the payload as the user; a missing token and a bad token get different messages |
| Session.CookieToken | server/src/middleware/auth.ts:6 | the `auth_token` cookie, if any |
| Session.AuthMiddleware | server/src/middleware/auth.ts:5-19 | either a 401 with `next` not called, or the payload recorded and `next` called once |
| Session.NoSecretAdmitsNobody | server/src/services/auth.ts:9-11 | in production without JWT_SECRET no request passes the gate |
| Session.IssuedTokenAdmits | server/src/middleware/auth.ts:12-18 | a cookie holding an issued token admits the user it was issued for |
| AuthRoutes.Joined | server/src/routes/auth.ts:20-21 | the messages of the failed checks, joined with ", " |
| AuthRoutes.RegisterErrors | server/src/routes/auth.ts:13-16 | no errors iff the email passes isEmail and the password has at least 8 characters |
| AuthRoutes.LoginErrors | server/src/routes/auth.ts:56-59 | no errors iff the email passes isEmail and the password is not empty |
| AuthRoutes.RegisterSpec | server/src/routes/auth.ts:11-51 | 400 for a bad body or a registered email and 500 for a password bcrypt refuses, all changing nothing; else the user is stored with the password's hash and gets 201 and a session cookie, but still 500 when no token can be signed |
| AuthRoutes.Register | server/src/routes/auth.ts:17-50 | the handler's new state, reply and cookie are RegisterSpec's |
| AuthRoutes.UserWithEmail | server/src/routes/auth.ts:70 | finds the one user with that email exactly when there is one |
| AuthRoutes.LoginSpec | server/src/routes/auth.ts:54-92 | never changes the store; the same 401 for an unknown email and a wrong password; 500 "Login failed" for a known email with a password that is not text, and for a match whose token cannot be signed; 200 and a cookie exactly when the email is known, the password matches its hash and a token can be signed |
| AuthRoutes.Login | server/src/routes/auth.ts:60-91 | the handler's reply and cookie are LoginSpec's |
| AuthRoutes.Logout | server/src/routes/auth.ts:95-98 | always 200, and the cookie is cleared at path `/` |
| AuthRoutes.Me | server/src/routes/auth.ts:101-103 | the gate's 401, or the verified payload |
| AuthRoutes.RegisteredUserCanLogIn | server/src/routes/auth.ts:33-45 | after a successful registration, logging in with the same body succeeds with the id registration reported |
| AuthRoutes.EmailRegisteredOnce | server/src/routes/auth.ts:28-31 | registering an email a second time is refused and changes nothing |
| AuthRoutes.LoginCookieAdmits | server/src/routes/auth.ts:81-86 | the cookie a login sets passes the gate, and `/me` then names the logged-in account |
| AuthRoutes.RegistrationWithoutSecret | server/src/routes/auth.ts:35-48 | in production without JWT_SECRET, registration answers 500 yet stores the user, and that user cannot log in |
| ServerlessAuth.Secret | api/lib/auth.ts:6 | the secret falls back to the literal whenever JWT_SECRET is unset or empty, production included |
| ServerlessAuth.GenerateToken | api/lib/auth.ts:17-23 | the token is the one the server's generateToken issues whenever JWT_SECRET is set, and is cookie-safe text |
| ServerlessAuth.VerifyToken | api/lib/auth.ts:25-31 | any token signed with this variant's secret verifies back to its payload, whatever its lifetime |
| ServerlessAuth.Admission | api/lib/auth.ts:56-68 | no Cookie header means 401 "Authentication required"; admission needs an `auth_token` cookie whose token verifies to the admitted user |
| ServerlessAuth.TokenRoundTrip | api/lib/auth.ts:17-31 | a token this variant issues verifies back to its id and email in every environment |
| ServerlessAuth.CookiesOf | api/lib/auth.ts:47-54 | an absent or empty Cookie header gives no cookies |
| ServerlessAuth.LastPieceWins | api/lib/auth.ts:50-53 | a piece whose name does not come again later sets that cookie |
| ServerlessAuth.ParseCookies | api/lib/auth.ts:47-54 | the parsing loop builds CookiesOf |
| ServerlessAuth.AssignPieces | api/lib/auth.ts:50-53 | the forEach body, piece by piece |
| ServerlessAuth.WithAuth | api/lib/auth.ts:42-70 | either a 401 without calling the handler, or the verified payload recorded and the handler called once |
| ServerlessAuth.Guard | api/lib/auth.ts:56-68 | the token checks of withAuth |
| ServerlessAuth.PairPiece | api/lib/auth.ts:51 | the piece `name=value` names `name` and carries `value` |
| ServerlessAuth.SinglePair | api/lib/auth.ts:47-54 | a header of one pair of cookie-safe texts sets exactly that cookie |
| ServerlessAuth.SessionCookieAdmits | api/lib/auth.ts:42-70 | the session cookie a browser sends back admits the user the token was issued for |
| ServerlessAuth.SetCookieText | api/lib/auth.ts:73-77 | the header starts with `name=value;` |
| ServerlessAuth.SetCookieAsWritten | api/lib/auth.ts:73-77 | as written: the header starts with `name=value;` and its Max-Age is a thousand times the token's lifetime |
| ServerlessAuth.AsWrittenMaxAgeIsMilliseconds | api/lib/auth.ts:75 | as written, Max-Age is 604800000, a thousand times the token's lifetime in seconds |
| ServerlessAuth.SetCookie | api/lib/auth.ts:73-77 | the corrected header: Max-Age equals the token's seven-day lifetime in seconds |
| ServerlessAuth.ClearCookie | api/lib/auth.ts:80-82 | the cleared cookie has an empty value |
| ServerlessAuth.ClearedCookieDenies | api/lib/auth.ts:56-60 | a session cookie emptied by clearCookie no longer passes withAuth |
| ServerlessAccounts.SessionHeader | api/auth/register.ts:40 | the Set-Cookie header of a new session, as setCookie writes it: it starts with `auth_token=`, the token and `;`, and its Max-Age is the token's lifetime in milliseconds |
| ServerlessAccounts.RegisterSpec | api/auth/register.ts:5-49 | 405; 400 "Email and password required", the short-password 400 and 400 "Email already registered"; 500 "Registration failed" for a password bcrypt refuses (not text); each of these changes nothing; the store changes iff the reply is 201, which happens exactly for a POST with a truthy email, a long-enough text password and a free email, storing the hashed password and issuing SessionHeader, the as-written header |
| ServerlessAccounts.Register | api/auth/register.ts:5-49 | the handler's new state, reply and header are RegisterSpec's |
| ServerlessAccounts.Login | api/auth/login.ts:6-41 | 405 and 400 as for registration; the same 401 for an unknown email and for a wrong password; 500 "Login failed" for a known email with a truthy password that is not text; 200 with SessionHeader, the as-written header, exactly when the email is known and the password matches its hash |
| ServerlessAccounts.EmailRegisteredOnce | api/auth/register.ts:23-26 | registering the same body again after a success gives 400 "Email already registered" and changes nothing |
| ServerlessAccounts.RegisteredUserCanLogIn | api/auth/login.ts:18-36 | after a successful registration, logging in with the same body succeeds with the reported id |
| ServerlessAccounts.LoginSessionAdmits | api/auth/login.ts:31-32 | the cookie set by a login gets through withAuth as the logged-in account |
| ServerlessBooks.BookRecordOf | api/books/index.ts:52-66 | a book as stored, with exactly its linked tags |
| ServerlessBooks.WithTags | api/books/index.ts:52-66 | the per-book loop gives a complete, repetition-free, newest-first listing |
| ServerlessBooks.GetBooks | api/books/index.ts:6-73 | a tag that is not an integer, or lies outside the INTEGER range, makes the query fail with 500; otherwise exactly the caller's books that pass every given filter, newest first |
| ServerlessBooks.SearchIsContainment | api/books/index.ts:45 | for a query without `%`, `_` or `\`, ILIKE on title or the jsonb authors text means case-insensitive containment |
| ServerlessBooks.TextOrNull | api/books/index.ts:101-103 | `x \|\| null`: an empty text is stored as NULL |
| ServerlessBooks.IntOrNull | api/books/index.ts:101-103 | `x \|\| null`: 0 is stored as NULL |
| ServerlessBooks.NewRow | api/books/index.ts:96-106 | the inserted row: the arrays default to [], the status defaults to unread, falsy values become NULL |
| ServerlessBooks.LinkablePrefix | api/books/index.ts:111-119 | the loop's inserts succeed exactly for the leading ids that name a tag |
| ServerlessBooks.AddBookSpec | api/books/index.ts:75-137 | 400 without a title; 500 with nothing stored when the caller's row is gone or a publication year or rating lies outside the INTEGER range; else the book is stored and linked to the leading existing ids whoever owns them; 201 when every id exists, else 500 with the book kept |
| ServerlessBooks.AddBook | api/books/index.ts:75-137 | the handler's new state and reply are AddBookSpec's |
| ServerlessBooks.LinkEach | api/books/index.ts:111-119 | the link loop stops at the first missing tag, and reports success iff every id was linked |
| ServerlessBooks.PrefixEndsAt | api/books/index.ts:111-119 | the linkable prefix ends at the first id that names no tag |
| ServerlessBooks.ForeignTagIsLinked | api/books/index.ts:111-119 | a book linked to another user's tag is created with 201, breaking owner agreement |
| ServerlessBooks.MissingTagLeavesBook | api/books/index.ts:111-136 | an id naming no tag answers 500 yet leaves the new book stored |
| ServerlessBooks.Handle | api/books/index.ts:139-147 | withAuth first; GET lists, POST adds, any other method gets 405; only an admitted POST changes the store |
| ServerlessTags.GetTags | api/tags/index.ts:6-19 | exactly the caller's tags, each once, in the database's collation order |
| ServerlessTags.ColorOr | api/tags/index.ts:41 | a non-empty colour is kept, else the default |
| ServerlessTags.CreateTagSpec | api/tags/index.ts:21-50 | a missing or empty name gives 400; otherwise the name is used untrimmed and unchecked, with the server's existence check and insert |
| ServerlessTags.CreateTag | api/tags/index.ts:21-50 | the handler's new state and reply are CreateTagSpec's |
| ServerlessTags.Handle | api/tags/index.ts:52-60 | withAuth first; GET lists, POST creates, any other method gets 405; only an admitted POST changes the store |
| ServerlessTags.CreateTwiceRefused | api/tags/index.ts:31-37 | creating the same name twice: the second request is refused and changes nothing |
| RateLimit.ClientKey | api/lib/rateLimit.ts:19-23 | the first X-Forwarded-For entry, trimmed and comma-free, and the whole header trimmed when it has a single entry; otherwise X-Real-IP, or "unknown" when it is missing or empty |
| RateLimit.FirstForwardedEntryWins | api/lib/rateLimit.ts:21 | with a proxy chain the key is the trimmed client entry, whatever follows and whatever X-Real-IP says |
| RateLimit.Swept | api/lib/rateLimit.ts:30-34 | the sweep keeps exactly the entries whose window has not ended |
| RateLimit.Decide | api/lib/rateLimit.ts:25-51 | a fresh key opens a one-request window and passes; otherwise the request is counted and turned away iff the count exceeds 10; no other key's entry changes, and the sweep drops only ended windows |
| RateLimit.RateLimiter.constructor | api/lib/rateLimit.ts:14 | the store starts empty |
| RateLimit.RateLimiter.Sweep | api/lib/rateLimit.ts:31-33 | the deletion loop leaves exactly Swept |
| RateLimit.RateLimiter.CheckRateLimit | api/lib/rateLimit.ts:25-51 | the new store and the verdict are Decide's; a turned-away request gets 429 |
| RateLimit.RateLimiter.Count | api/lib/rateLimit.ts:29-50 | the sweep and the update of the key's entry, as Decide says |
| RateLimit.Run | api/lib/rateLimit.ts:25-51 | one verdict per request of a run |
| RateLimit.CountsWithinWindow | api/lib/rateLimit.ts:43-48 | inside an open window every request adds one, and the i-th is turned away iff the count then exceeds the maximum |
| RateLimit.AtMostMaxPerWindow | api/lib/rateLimit.ts:16-17 | a window admits exactly its first ten requests: the i-th is turned away iff i >= 10 |
| OpenLibrary.CoverUrl | api/lib/openLibrary.ts:16-18 | a cover URL exactly for a truthy cover id, in the medium size |
| OpenLibrary.FirstIsbn | api/lib/openLibrary.ts:25 | the first ISBN unless it is missing or empty |
| OpenLibrary.MapWork | api/lib/openLibrary.ts:15-29 | key and title copied; missing authors become []; a falsy year becomes null; at most the first five subjects, as a prefix |
| OpenLibrary.CleanIsbn | api/lib/openLibrary.ts:45 | no hyphen or white space remains, and an ISBN without them is unchanged |
| OpenLibrary.CleanIsbnAppend | api/lib/openLibrary.ts:45 | cleaning works piece by piece |
| OpenLibrary.SeparatorsOnly | api/lib/openLibrary.ts:45 | a text made only of separators cleans to nothing |
| OpenLibrary.SearchBooks | api/lib/openLibrary.ts:31-42 | fails with the API error exactly on a non-2xx response; else one mapped result per document, in order |
| OpenLibrary.SearchWithDefaultLimit | api/lib/openLibrary.ts:31-33 | the one-argument call asks for `&limit=20`; it fails with the API error exactly when that request does, and otherwise returns each document mapped, in order |
| OpenLibrary.SearchByIsbn | api/lib/openLibrary.ts:44-59 | fails exactly on a non-2xx response; nothing exactly when no document came back; else the first document mapped |
| OpenLibrary.SeparatorsIgnored | api/lib/openLibrary.ts:45-46 | separators inserted anywhere in an ISBN give the same request and the same answer |
| Errors.StatusOf | server/src/middleware/errorHandler.ts:15 | the error's code, or 500 when it is missing or 0 |
| Errors.ErrorHandler | server/src/middleware/errorHandler.ts:7-19 | at 500 the fixed text replaces the message, so it never leaks; at any other code the message is sent |
| Errors.NotFoundHandler | server/src/middleware/errorHandler.ts:21-23 | 404 "Not found" |
| Errors.MessageHiddenAtServerError | server/src/middleware/errorHandler.ts:16 | two errors with the same code that means 500 get the same reply, whatever their messages |
| Text.Trim | server/src/routes/books.ts:131 | `trim()`: the slice left once white space at both ends is removed |
| Text.Split | api/lib/auth.ts:50-51 | `split` with one separator character, with Join as its inverse |
| Text.IntToStringRoundTrip | server/src/routes/books.ts:94 | reading back the decimal text of an integer gives the integer |
| Like.SearchTermMeansContains | server/src/routes/books.ts:45-48 | for a plain query, matching `%q%` is case-insensitive containment |
| Validate.Check | server/src/routes/books.ts:130-142 | one validation chain: no error iff the value passes, and an optional chain ignores a missing field |
| Validate.IdErrors | server/src/routes/books.ts:86 | no error iff the id is an integer text |

## Left out

- Database engines and I/O. The SQLite file, the neon driver, connection
  setup and saving the file after each statement are not part of this model.
  The engine is `Engine.Execute`.
- neon result shapes. `api/books` and the account handlers read `.rows`
  (api/auth/register.ts:24, 37; api/auth/login.ts:20, 24;
  api/books/index.ts:49, 63, 108), while `api/tags` uses the result itself
  as the row array (api/tags/index.ts:14, 35, 45). No single driver setting
  serves both: with `neon()`'s default of rows only, every serverless
  register, login and books request would answer 500. The model takes every
  query to yield its rows as intended; this discrepancy is not verified.
- Engine.Execute, BookRoutes.DeleteBookSpec, TagRoutes.DeleteTagSpec:
  foreign keys and ON DELETE CASCADE are enforced for the server's whole
  life. As written (see Findings), the pragma is lost at the first save.
  After that, deleted books and tags leave their book_tags rows behind,
  and a book insert for a deleted user is not refused. Only the tag case is
  worked out (`BookRoutes.DeletedTagStillListsAsWritten`).
- Engine.RunResult: `lastInsertRowid` is 0 after a statement that adds no
  row. SQLite's `last_insert_rowid()` keeps the last insert's id on its
  connection; no handler reads it after such a statement.
- Engine details. Id gaps after a failed PostgreSQL insert are not modelled;
  ids come from one counter per table.
- bcrypt, jsonwebtoken and validator.js internals. They are the foreign
  functions of `Credentials.Primitives`. The bcrypt salt, the token expiry
  and the clock it depends on are not modelled, so an expired token is one
  `verify` rejects.
- Array values in scalar fields. express-validator checks and sanitises an
  array element by element and leaves the array in the body, and the
  drivers then store it (a BLOB in sql.js, an array literal in neon).
  BookRoutes.NewBook, BookRoutes.StatusOrDefault, BookRoutes.CreateErrors,
  the email of AuthRoutes.RegisterSpec and ServerlessAccounts.RegisterSpec
  (ServerlessAccounts.EmailText) read such a field through its text, so
  `{"title":["Dune"]}` is stored as "Dune" in the model. A repeated query
  parameter (`?q=a&q=b`), which `isString()` refuses with 400, cannot be
  expressed either: BookRoutes.ListQuery holds texts only.
- JSON bodies. Numbers are integers (no fractions), and objects as field
  values are not modelled. Non-object bodies are not modelled either.
  Bodies of the serverless book and tag handlers have the declared field
  types.
- ServerlessBooks.GetBooks: `Number(tag)` also accepts hexadecimal, padded
  or `+`-signed texts and fractions. The model gives 500 for every text
  that is not a plain integer.
- ServerlessBooks.AddBookSpec: a tag id outside the INTEGER range also
  makes its link INSERT fail in the source. In the model such an id names no
  tag, which stops the loop with the same 500. Ids come from unbounded
  counters, while SERIAL ids stop at 2^31 - 1.
- Server integers. SQLite's 64-bit integers and JavaScript's number
  precision are not modelled on the server; its integers are unbounded.
- ServerlessBooks.SearchIsContainment: case folding is ASCII-only, and
  Unicode case folding in ILIKE is not modelled.
- ServerlessTags.GetTags: the database collation is only assumed to be a
  total preorder.
- ServerlessAuth.CookiesOf: a cookie value holding `=` keeps only the text
  up to its second `=`, as in the source. Unnamed pieces are kept under the
  empty name.
- `withAuth` and the server routes run in one process with no concurrency.
  The update's delete-then-insert of links is modelled as one sequence
  without interleaving.
- The Open Library HTTP request and `encodeURIComponent` are parameters of
  the searches, and the JSON decoding of the response is taken as given.
  The search routes themselves are not part of this model;
  `OpenLibrary.SearchWithDefaultLimit` is the one-argument call they make.
- The serverless `logout.ts` and `me.ts`, the server bootstrap
  (`server/src/index.ts`) and `client/` are not part of this model.
- The first query built in `getBooks` (`api/books/index.ts:11-37`) is never
  sent and is not modelled.
- Errors.ErrorHandler: a `statusCode` of NaN also falls back to 500 in the
  source. Codes are integers in the model.
- RateLimit.RateLimiter.CheckRateLimit: the clock is the parameter `now`,
  and the limiter is per instance as in the source.
- Logging (`console.error`) is left out.

## Findings

| source | as written | input that shows it | evidently intended | confidence | as-written member | corrected member |
|---|---|---|---|---|---|---|
| api/lib/auth.ts:75 | `setCookie` writes `Max-Age=${options.maxAge}`, and `maxAge` is 604800000 milliseconds | any successful serverless login or registration: the cookie asks to be kept for 604800000 seconds, so it outlives its seven-day token up to the browser's own cap on Max-Age (400 days in browsers following the current cookie draft) | Max-Age in seconds, 604800, the token's seven-day lifetime, as Express's `res.cookie` writes the same options on the server | not executed | ServerlessAuth.AsWrittenMaxAgeIsMilliseconds | ServerlessAuth.SetCookie |
| server/src/config/db.ts:94 | `PRAGMA foreign_keys = ON` runs once, but `saveDatabase` runs `db.export()` at the end of init and after every statement, and sql.js's export closes and reopens the connection; the pragma is per connection, so foreign keys and cascades are off from then on | link tag 5 to book 1, `DELETE /api/tags/5`, then `GET /api/books?tag=5`: book 1 is still listed through the leftover book_tags row | the cascade declared at server/src/config/db.ts:76-77 removes the links, for instance by setting the pragma again after each export | not executed; rests on the behaviour of sql.js's `export()` | BookRoutes.DeletedTagStillListsAsWritten | BookRoutes.DeletedTagListsNothing |

=== FILE: auth_routes.dfy ===
/**
  The account routes of the Express server (server/src/routes/auth.ts):
  register, login, logout and the current user. Each handler that touches
  the store has a specification function giving the tables afterwards, the
  reply and what happens to the session cookie, and a method that runs it.
 */
module AuthRoutes {
  import opened Common
  import opened Text
  import opened Json
  import opened Schema
  import opened Engine
  import opened Http
  import opened Validate
  import opened Credentials
  import opened Session

  /** `{ user: { id, email } }`. */
  datatype Account = Account(id: Id, email: string)

  /** What a handler does to the `auth_token` cookie. */
  datatype CookieAction =
    | KeepCookie
    | IssueCookie(token: string, options: CookieOptions)
    | ClearCookie(path: string)

  /** One account request: the tables afterwards, the reply and the cookie. */
  datatype AccountStep = AccountStep(after: Tables, reply: Reply<Account>, cookie: CookieAction)

  const PasswordMessage: string := "Password must be at least 8 characters"
  const EmailRegistered: string := "Email already registered"
  const RegistrationFailed: string := "Registration failed"
  const InvalidCredentials: string := "Invalid credentials"
  const LoginFailed: string := "Login failed"
  const MinPasswordLength: nat := 8

  // ----------------------------------------------------------------- checks

  /** `isEmail()`, element by element for an array. */
  predicate ValidEmail(p: Primitives, v: Json) {
    Each(v, p.isEmail)
  }

  /** `isLength({ min: 8 })`. */
  predicate LongPassword(v: Json) {
    Each(v, LongText)
  }

  predicate LongText(s: string) {
    Length(s) >= MinPasswordLength
  }

  /** The messages of the failed checks joined with ", ", as the `error`
      field of a 400 from the account routes. */
  function Joined(errors: seq<FieldError>): (r: string)
    ensures errors == [] ==> r == ""
    ensures |errors| == 1 ==> r == errors[0].msg
    ensures |errors| > 1 ==> r == errors[0].msg + ", " + Joined(errors[1..])
  {
    if |errors| == 0 then ""
    else if |errors| == 1 then errors[0].msg
    else errors[0].msg + ", " + Joined(errors[1..])
  }

  /** The chains of `POST /register`. */
  function RegisterErrors(p: Primitives, body: map<string, Json>): (r: seq<FieldError>)
    ensures r == [] <==> ValidEmail(p, Field(body, "email")) && LongPassword(Field(body, "password"))
  {
    Check(body, "email", false, v => ValidEmail(p, v), DefaultMessage)
    + Check(body, "password", false, LongPassword, PasswordMessage)
  }

  /** The chains of `POST /login`. */
  function LoginErrors(p: Primitives, body: map<string, Json>): (r: seq<FieldError>)
    ensures r == [] <==> ValidEmail(p, Field(body, "email")) && NotEmpty(Field(body, "password"))
  {
    Check(body, "email", false, v => ValidEmail(p, v), DefaultMessage)
    + Check(body, "password", false, NotEmpty, DefaultMessage)
  }

  /** The email after `normalizeEmail()`. */
  function EmailOf(p: Primitives, body: map<string, Json>): string {
    p.normalizeEmail(ToText(Field(body, "email")))
  }

  /** The 400 reply of a failed validation. */
  function Rejected(errors: seq<FieldError>): Reply<Account> {
    Reply(BadRequest, Summary(Joined(errors), errors))
  }

  // --------------------------------------------------------------- register

  /** `POST /register`: a rejected body or a registered email changes
      nothing. Otherwise the user is stored with the hash of the password;
      a password that is not a text makes hashing throw (500, nothing
      stored). The new user gets a session cookie and 201 — unless no token
      can be signed, which answers 500 although the user is already stored. */
  function RegisterSpec(p: Primitives, env: Env, t: Tables, body: map<string, Json>): (s: AccountStep)
    requires Wellformed(t)
    ensures Wellformed(s.after) && (OwnersAgree(t) ==> OwnersAgree(s.after))
    ensures RegisterErrors(p, body) != [] ==> s == AccountStep(t, Rejected(RegisterErrors(p, body)), KeepCookie)
    ensures RegisterErrors(p, body) == [] && EmailTaken(t, EmailOf(p, body)) ==>
      s == AccountStep(t, Failed(BadRequest, EmailRegistered), KeepCookie)
    ensures RegisterErrors(p, body) == [] && !EmailTaken(t, EmailOf(p, body)) && !Field(body, "password").JStr? ==>
      s == AccountStep(t, Failed(ServerError, RegistrationFailed), KeepCookie)
    ensures RegisterErrors(p, body) == [] && !EmailTaken(t, EmailOf(p, body)) && Field(body, "password").JStr? ==>
      var id := t.nextUser;
      && id !in t.users
      && s.after == t.(users := t.users[id := User(EmailOf(p, body), p.hash(Field(body, "password").s))], nextUser := id + 1)
      && (GenerateToken(p, env, id, EmailOf(p, body)).Success? ==>
            s.reply == Reply(Created, Ok(Account(id, EmailOf(p, body))))
            && s.cookie == IssueCookie(GenerateToken(p, env, id, EmailOf(p, body)).value, CookieOptionsOf(env)))
      && (GenerateToken(p, env, id, EmailOf(p, body)).Failure? ==>
            s.reply == Failed(ServerError, RegistrationFailed) && s.cookie == KeepCookie)
  {
    var errors := RegisterErrors(p, body);
    if errors != [] then AccountStep(t, Rejected(errors), KeepCookie)
    else
      var email := EmailOf(p, body);
      if EmailTaken(t, email) then AccountStep(t, Failed(BadRequest, EmailRegistered), KeepCookie)
      else if !Field(body, "password").JStr? then AccountStep(t, Failed(ServerError, RegistrationFailed), KeepCookie)
      else
        var id := t.nextUser;
        var after := WithUser(t, User(email, p.hash(Field(body, "password").s)));
        match GenerateToken(p, env, id, email)
        case Success(token) => AccountStep(after, Reply(Created, Ok(Account(id, email))), IssueCookie(token, CookieOptionsOf(env)))
        case Failure(_) => AccountStep(after, Failed(ServerError, RegistrationFailed), KeepCookie)
  }

  method Register(p: Primitives, env: Env, db: Bookshelf, body: map<string, Json>) returns (reply: Reply<Account>, cookie: CookieAction)
    requires db.Valid()
    modifies db
    ensures db.Valid()
    ensures db.State() == RegisterSpec(p, env, old(db.State()), body).after
    ensures reply == RegisterSpec(p, env, old(db.State()), body).reply
    ensures cookie == RegisterSpec(p, env, old(db.State()), body).cookie
  {
    var errors := RegisterErrors(p, body);
    if errors != [] {
      return Rejected(errors), KeepCookie;
    }
    var email := EmailOf(p, body);
    var password := Field(body, "password");
    if exists id :: id in db.users && db.users[id].email == email {
      return Failed(BadRequest, EmailRegistered), KeepCookie;
    }
    if !password.JStr? {
      return Failed(ServerError, RegistrationFailed), KeepCookie;
    }
    var passwordHash := p.hash(password.s);
    ghost var t := db.State();
    var result := db.RunQuery(InsertUser(User(email, passwordHash)));
    RanUserInsert(t, User(email, passwordHash), db.State(), result);
    var token := GenerateToken(p, env, result.value.lastInsertRowid, email);
    if token.Failure? {
      return Failed(ServerError, RegistrationFailed), KeepCookie;
    }
    cookie := IssueCookie(token.value, CookieOptionsOf(env));
    reply := Reply(Created, Ok(Account(result.value.lastInsertRowid, email)));
  }

  // ------------------------------------------------------------------ login

  /** The user row `SELECT * FROM users WHERE email = ?` finds; emails are
      unique, so there is at most one. */
  function UserWithEmail(t: Tables, email: string): (r: Option<Id>)
    requires Wellformed(t)
    ensures r.Some? <==> EmailTaken(t, email)
    ensures r.Some? ==> r.value in t.users && t.users[r.value].email == email
  {
    if EmailTaken(t, email) then
      var id :| id in t.users && t.users[id].email == email;
      Some(id)
    else None
  }

  /** `POST /login`: a rejected body gives 400, an unknown email or a wrong
      password the same 401, a password that is not a text 500. A match gets
      the stored id and email with a session cookie; no token, 500. Login
      never changes the tables. */
  function LoginSpec(p: Primitives, env: Env, t: Tables, body: map<string, Json>): (s: AccountStep)
    requires Wellformed(t)
    ensures s.after == t
    ensures s.cookie != KeepCookie <==> s.reply.status == OK
    ensures LoginErrors(p, body) != [] ==> s.reply == Rejected(LoginErrors(p, body))
    ensures LoginErrors(p, body) == [] && !EmailTaken(t, EmailOf(p, body)) ==> s.reply == Failed(Unauthorized, InvalidCredentials)
    ensures (LoginErrors(p, body) == [] && EmailTaken(t, EmailOf(p, body)) && Field(body, "password").JStr?
      && !p.compare(Field(body, "password").s, t.users[UserWithEmail(t, EmailOf(p, body)).value].passwordHash)) ==>
      s.reply == Failed(Unauthorized, InvalidCredentials)
    ensures LoginErrors(p, body) == [] && EmailTaken(t, EmailOf(p, body)) && !Field(body, "password").JStr? ==>
      s.reply == Failed(ServerError, LoginFailed)
    ensures (LoginErrors(p, body) == [] && EmailTaken(t, EmailOf(p, body)) && Field(body, "password").JStr?
      && p.compare(Field(body, "password").s, t.users[UserWithEmail(t, EmailOf(p, body)).value].passwordHash)
      && GenerateToken(p, env, UserWithEmail(t, EmailOf(p, body)).value, EmailOf(p, body)).Failure?) ==>
      s.reply == Failed(ServerError, LoginFailed)
    ensures s.reply.status == OK <==>
      && LoginErrors(p, body) == []
      && UserWithEmail(t, EmailOf(p, body)).Some?
      && Field(body, "password").JStr?
      && p.compare(Field(body, "password").s, t.users[UserWithEmail(t, EmailOf(p, body)).value].passwordHash)
      && GenerateToken(p, env, UserWithEmail(t, EmailOf(p, body)).value, EmailOf(p, body)).Success?
    ensures s.reply.status == OK ==>
      var id := UserWithEmail(t, EmailOf(p, body)).value;
      && s.reply == Reply(OK, Ok(Account(id, t.users[id].email)))
      && s.cookie == IssueCookie(GenerateToken(p, env, id, t.users[id].email).value, CookieOptionsOf(env))
  {
    var errors := LoginErrors(p, body);
    if errors != [] then AccountStep(t, Rejected(errors), KeepCookie)
    else
      match UserWithEmail(t, EmailOf(p, body))
      case None => AccountStep(t, Failed(Unauthorized, InvalidCredentials), KeepCookie)
      case Some(id) =>
        var password := Field(body, "password");
        if !password.JStr? then AccountStep(t, Failed(ServerError, LoginFailed), KeepCookie)
        else if !p.compare(password.s, t.users[id].passwordHash) then AccountStep(t, Failed(Unauthorized, InvalidCredentials), KeepCookie)
        else match GenerateToken(p, env, id, t.users[id].email)
          case Success(token) => AccountStep(t, Reply(OK, Ok(Account(id, t.users[id].email))), IssueCookie(token, CookieOptionsOf(env)))
          case Failure(_) => AccountStep(t, Failed(ServerError, LoginFailed), KeepCookie)
  }

  method Login(p: Primitives, env: Env, db: Bookshelf, body: map<string, Json>) returns (reply: Reply<Account>, cookie: CookieAction)
    requires db.Valid()
    ensures reply == LoginSpec(p, env, db.State(), body).reply
    ensures cookie == LoginSpec(p, env, db.State(), body).cookie
  {
    var errors := LoginErrors(p, body);
    if errors != [] {
      return Rejected(errors), KeepCookie;
    }
    var user := UserWithEmail(db.State(), EmailOf(p, body));
    if user.None? {
      return Failed(Unauthorized, InvalidCredentials), KeepCookie;
    }
    var row := db.users[user.value];
    var password := Field(body, "password");
    if !password.JStr? {
      return Failed(ServerError, LoginFailed), KeepCookie;
    }
    var valid := p.compare(password.s, row.passwordHash);
    if !valid {
      return Failed(Unauthorized, InvalidCredentials), KeepCookie;
    }
    var token := GenerateToken(p, env, user.value, row.email);
    if token.Failure? {
      return Failed(ServerError, LoginFailed), KeepCookie;
    }
    cookie := IssueCookie(token.value, CookieOptionsOf(env));
    reply := Reply(OK, Ok(Account(user.value, row.email)));
  }

  // ------------------------------------------------------------ logout, me

  /** `POST /logout`: clears the cookie at path `/` and always answers 200. */
  function Logout(): (r: (Reply<()>, CookieAction))
    ensures r.0 == Reply(OK, Message("Logged out")) && r.1 == ClearCookie("/")
  {
    (Reply(OK, Message("Logged out")), ClearCookie("/"))
  }

  /** `GET /me` behind `authMiddleware`: the gate's 401, or the payload of
      the verified token. */
  function Me(g: Gate): (r: Reply<Claims>)
    ensures g.Deny? ==> r == Failed(Unauthorized, g.error)
    ensures g.Admit? ==> r == Reply(OK, Ok(g.user))
  {
    match g
    case Deny(msg) => Failed(Unauthorized, msg)
    case Admit(c) => Reply(OK, Ok(c))
  }

  // ---------------------------------------------------------------- lemmas

  /** Someone who has just registered can log in with the same email text
      and password, and is given the id registration reported. */
  lemma RegisteredUserCanLogIn(p: Primitives, env: Env, t: Tables, body: map<string, Json>)
    requires HashAgrees(p) && Wellformed(t)
    requires RegisterSpec(p, env, t, body).reply.status == Created
    ensures LoginSpec(p, env, RegisterSpec(p, env, t, body).after, body).reply
      == Reply(OK, Ok(Account(t.nextUser, EmailOf(p, body))))
  {
    var after := RegisterSpec(p, env, t, body).after;
    var email := EmailOf(p, body);
    var pw := Field(body, "password").s;
    assert after.users[t.nextUser] == User(email, p.hash(pw));
    assert UserWithEmail(after, email) == Some(t.nextUser) by {
      assert EmailsUnique(after);
    }
    assert p.compare(pw, p.hash(pw));
    assert NotEmpty(Field(body, "password")) by {
      assert LongText(pw);
    }
  }

  /** An email can be registered once: registering it again is refused and
      changes nothing. */
  lemma EmailRegisteredOnce(p: Primitives, env: Env, t: Tables, body: map<string, Json>)
    requires Wellformed(t)
    requires RegisterSpec(p, env, t, body).reply.status == Created
    ensures var again := RegisterSpec(p, env, RegisterSpec(p, env, t, body).after, body);
      again.reply == Failed(BadRequest, EmailRegistered) && again.after == RegisterSpec(p, env, t, body).after
  {
    var after := RegisterSpec(p, env, t, body).after;
    assert after.users[t.nextUser].email == EmailOf(p, body);
  }

  /** The cookie a login sets lets the caller through the session gate, and
      `GET /me` then answers with the logged-in account. */
  lemma LoginCookieAdmits(p: Primitives, env: Env, t: Tables, body: map<string, Json>)
    requires TokensAgree(p) && Wellformed(t)
    requires LoginSpec(p, env, t, body).reply.status == OK
    ensures var s := LoginSpec(p, env, t, body);
      && s.cookie.IssueCookie? && s.reply.body.Ok?
      && Me(Decide(Some(s.cookie.token), tok => VerifyToken(p, env, tok)))
         == Reply(OK, Ok(Claims(s.reply.body.value.id, s.reply.body.value.email)))
  {
    var id := UserWithEmail(t, EmailOf(p, body)).value;
    TokenRoundTrip(p, env, id, t.users[id].email);
    var token := GenerateToken(p, env, id, t.users[id].email).value;
    assert CookieSafe(token);
  }

  /** In production without JWT_SECRET a registration stores the user and
      still answers 500, so the email cannot be registered again, while no
      one can log in either. */
  lemma RegistrationWithoutSecret(p: Primitives, env: Env, t: Tables, body: map<string, Json>)
    requires Wellformed(t) && IsProduction(env) && !SecretSet(env)
    requires RegisterErrors(p, body) == [] && !EmailTaken(t, EmailOf(p, body)) && Field(body, "password").JStr?
    ensures var s := RegisterSpec(p, env, t, body);
      && s.reply == Failed(ServerError, RegistrationFailed)
      && EmailTaken(s.after, EmailOf(p, body))
      && LoginSpec(p, env, s.after, body).reply.status != OK
  {
    var s := RegisterSpec(p, env, t, body);
    assert s.after.users[t.nextUser].email == EmailOf(p, body);
  }
}

=== FILE: book_routes.dfy ===
/**
  The book handlers of the Express server (server/src/routes/books.ts). Each
  runs after the session gate with the caller's user id, validates its
  input, checks ownership with `user_id = caller`, changes the tables and
  answers with a status and a JSON body.

  Every handler has a specification function `...Spec` that gives the
  tables afterwards and the reply as a function of the tables before; the
  method that follows the source statement by statement is proved to agree
  with it.
 */
module BookRoutes {
  import opened Common
  import opened Text
  import opened Json
  import opened Like
  import opened Schema
  import opened Engine
  import opened Rows
  import opened Http
  import opened Validate

  /** A book as the routes return it: every column, the JSON columns parsed
      (a NULL column reads as []), and the tags linked to it. */
  datatype BookView = BookView(id: Id, book: Book, authors: seq<Json>, genres: seq<Json>, tags: set<TagView>)

  /** `column ? JSON.parse(column) : []`. */
  function Parsed(c: Option<JsonColumn>): seq<Json> {
    if c.Some? then Decode(c.value) else []
  }

  function ViewOf(t: Tables, id: Id): (v: BookView)
    requires id in t.books
    ensures v.id == id && v.book == t.books[id]
    ensures forall g :: g in v.tags <==> Link(id, g.id) in t.links && g.id in t.tags && g == TagView(g.id, t.tags[g.id].name, t.tags[g.id].color)
  {
    var b := t.books[id];
    BookView(id, b, Parsed(b.authors), Parsed(b.genres), LinkedTags(t, id))
  }

  // ---------------------------------------------------------------- listing

  /** The query string of `GET /`: each parameter is absent or one text. */
  datatype ListQuery = ListQuery(status: Option<string>, tag: Option<string>, q: Option<string>)

  /** `status` must be one of the three states and `tag` an integer; `q`,
      a single text in this model, always passes `isString()`. */
  function ListErrors(query: ListQuery): (r: seq<FieldError>)
    ensures r == [] <==> (query.status.Some? ==> query.status.value in Statuses) && (query.tag.Some? ==> IsIntText(query.tag.value))
  {
    (if query.status.Some? && query.status.value !in Statuses then [FieldError("status", DefaultMessage)] else [])
    + (if query.tag.Some? && !IsIntText(query.tag.value) then [FieldError("tag", DefaultMessage)] else [])
  }

  /** `LIKE '%q%'` against the title or the authors column's JSON text; a
      NULL authors column matches nothing. */
  predicate MatchesQuery(b: Book, q: string) {
    || Matches(SearchTerm(q), b.title, EscapeOf(SqliteLike))
    || (b.authors.Some? && Matches(SearchTerm(q), ColumnText(b.authors.value, Compact), EscapeOf(SqliteLike)))
  }

  /** The WHERE clause of the listing: the caller's book, linked to the tag,
      in the status and matching the search text, each when given. */
  predicate Listed(t: Tables, caller: Id, query: ListQuery, id: Id)
    requires ListErrors(query) == []
  {
    && OwnsBook(t, caller, id)
    && (query.tag.Some? ==> Link(id, IntValue(query.tag.value)) in t.links)
    && (query.status.Some? ==> t.books[id].status == query.status.value)
    && (query.q.Some? && query.q.value != "" ==> MatchesQuery(t.books[id], query.q.value))
  }

  /** `views` holds each listed book once, as ViewOf shows it, newest first. */
  ghost predicate Listing(t: Tables, caller: Id, query: ListQuery, views: seq<BookView>)
    requires ListErrors(query) == []
  {
    && (forall k :: 0 <= k < |views| ==> views[k].id in t.books && Listed(t, caller, query, views[k].id) && views[k] == ViewOf(t, views[k].id))
    && (forall id :: id in t.books && Listed(t, caller, query, id) ==> exists k :: 0 <= k < |views| && views[k].id == id)
    && (forall i, j :: 0 <= i < j < |views| ==> views[i].id != views[j].id)
    && (forall i, j :: 0 <= i < j < |views| ==> views[i].book.addedAt >= views[j].book.addedAt)
  }

  /** The listed books as views, in the order `ids` gives. */
  method ViewsOf(t: Tables, caller: Id, query: ListQuery, ids: seq<Id>, keys: map<Id, int>, leq: (int, int) -> bool) returns (views: seq<BookView>)
    requires ListErrors(query) == []
    requires keys == map id | id in t.books && Listed(t, caller, query, id) :: t.books[id].addedAt
    requires OrderedBy(ids, keys, leq) && forall a, b :: leq(a, b) <==> a >= b
    ensures Listing(t, caller, query, views)
  {
    views := [];
    var i := 0;
    while i < |ids|
      invariant 0 <= i <= |ids| && |views| == i
      invariant forall k :: 0 <= k < i ==> views[k].id == ids[k] && ids[k] in keys && views[k] == ViewOf(t, ids[k])
    {
      views := views + [ViewOf(t, ids[i])];
      i := i + 1;
    }
    forall id | id in t.books && Listed(t, caller, query, id)
      ensures exists k :: 0 <= k < |views| && views[k].id == id
    {
      assert id in keys;
      var k :| 0 <= k < |ids| && ids[k] == id;
      assert views[k].id == id;
    }
    forall i, j | 0 <= i < j < |views|
      ensures views[i].book.addedAt >= views[j].book.addedAt
    {
      assert leq(keys[ids[i]], keys[ids[j]]);
    }
  }

  /** `GET /`: 400 with the failed checks, otherwise the caller's books that
      pass every given filter, each once, newest first. */
  method ListBooks(db: Bookshelf, caller: Id, query: ListQuery) returns (reply: Reply<seq<BookView>>)
    requires db.Valid()
    ensures ListErrors(query) != [] ==> reply == Reply(BadRequest, Invalid(ListErrors(query)))
    ensures ListErrors(query) == [] ==> reply.status == OK && reply.body.Ok? && Listing(db.State(), caller, query, reply.body.value)
  {
    var errors := ListErrors(query);
    if errors != [] {
      return Reply(BadRequest, Invalid(errors));
    }
    var t := db.State();
    var keys := map id | id in t.books && Listed(t, caller, query, id) :: t.books[id].addedAt;
    var newestFirst := (a: int, b: int) => a >= b;
    var ids := OrderBy(keys, newestFirst);
    var views := ViewsOf(t, caller, query, ids, keys, newestFirst);
    reply := Reply(OK, Ok(views));
  }

  /** One user (1) with one book (1) filed under one tag (5). */
  function OneTaggedBook(): (t: Tables)
    ensures Wellformed(t) && Link(1, 5) in t.links && OwnsTag(t, 1, 5)
  {
    var book := Book(1, None, "Dune", None, None, None, None, None, DefaultStatus, None, None, 0);
    Tables(map[1 := User("a@b.c", "hash")], map[1 := book], map[5 := Tag(1, "sci-fi", DefaultColor)], {Link(1, 5)}, 2, 2, 6)
  }

  /** As written, the `foreign_keys` pragma (server/src/config/db.ts:29) is
      set once, and the export in every `saveDatabase` reopens the
      connection without it. Deleting tag 5 then keeps its link, and
      `GET /?tag=5` still lists book 1 under a tag that no longer exists. */
  lemma DeletedTagStillListsAsWritten()
    ensures var after := WithoutTagNoCascade(OneTaggedBook(), 5);
      var query := ListQuery(None, Some("5"), None);
      && 5 !in after.tags && !LinksResolve(after)
      && ListErrors(query) == [] && Listed(after, 1, query, 1)
  {
    var t := OneTaggedBook();
    assert Link(1, 5) in t.links && Link(1, 5).tag == 5;
    assert IsIntText("5") && IntValue("5") == 5 by {
      IntToStringRoundTrip(5);
      assert IntToString(5) == "5";
    }
  }

  /** With the cascade `foreign_keys = ON` gives, as the tag delete of this
      model runs it, a deleted tag's filter lists no book at all. */
  lemma DeletedTagListsNothing(t: Tables, caller: Id, id: Id, query: ListQuery)
    requires Wellformed(t) && ListErrors(query) == [] && query.tag.Some? && IntValue(query.tag.value) == id
    ensures forall b :: !Listed(WithoutTag(t, id), caller, query, b)
  {
    forall b
      ensures !Listed(WithoutTag(t, id), caller, query, b)
    {
      assert Link(b, id) !in WithoutTag(t, id).links;
    }
  }

  /** For a search text without `%` or `_`, the `q` filter keeps exactly the
      books whose title or authors text contains it, ignoring ASCII case. */
  lemma SearchIsContainment(b: Book, q: string)
    requires Plain(q, SqliteLike)
    ensures MatchesQuery(b, q) <==> ContainsFold(b.title, q) || (b.authors.Some? && ContainsFold(ColumnText(b.authors.value, Compact), q))
  {
    SearchTermMeansContains(q, b.title, SqliteLike);
    if b.authors.Some? {
      SearchTermMeansContains(q, ColumnText(b.authors.value, Compact), SqliteLike);
    }
  }

  // ------------------------------------------------------------ single book

  /** `GET /:id`: 404 unless the caller owns the book, so another user's book
      and a missing one look alike. */
  method GetBook(db: Bookshelf, caller: Id, idText: string) returns (reply: Reply<BookView>)
    requires db.Valid()
    ensures !IsIntText(idText) ==> reply == Reply(BadRequest, Invalid(IdErrors(idText)))
    ensures IsIntText(idText) && !OwnsBook(db.State(), caller, IntValue(idText)) ==> reply == Failed(NotFound, "Book not found")
    ensures IsIntText(idText) && OwnsBook(db.State(), caller, IntValue(idText)) ==>
      reply.status == OK && reply.body == Ok(ViewOf(db.State(), IntValue(idText)))
  {
    if !IsIntText(idText) {
      return Reply(BadRequest, Invalid(IdErrors(idText)));
    }
    var id := IntValue(idText);
    if !(id in db.books && db.books[id].userId == caller) {
      return Failed(NotFound, "Book not found");
    }
    reply := Reply(OK, Ok(ViewOf(db.State(), id)));
  }

  // ---------------------------------------------------------------- linking

  /** The ids in a `tags` array that name a tag of `owner`. Only numbers can
      pass `ownedTagIds.has`, whatever else the IN query matched. */
  function OwnedTagIds(t: Tables, owner: Id, items: seq<Json>): (r: set<Id>)
    ensures forall n :: n in r <==> JNum(n) in items && OwnsTag(t, owner, n)
  {
    set x | x in items && x.JNum? && OwnsTag(t, owner, x.n) :: x.n
  }

  function LinksTo(book: Id, ids: set<Id>): (r: set<Link>)
    ensures forall l :: l in r <==> l.book == book && l.tag in ids
  {
    set n | n in ids :: Link(book, n)
  }

  /** The tables with `book` linked to every tag in `ids`. */
  function AddedLinks(t: Tables, book: Id, ids: set<Id>): (r: Tables)
    requires Wellformed(t) && book in t.books && forall n :: n in ids ==> n in t.tags
    ensures Wellformed(r)
    ensures OwnersAgree(t) && (forall n :: n in ids ==> t.tags[n].userId == t.books[book].userId) ==> OwnersAgree(r)
    ensures r == t.(links := t.links + LinksTo(book, ids))
  {
    t.(links := t.links + LinksTo(book, ids))
  }

  /** The tag loop of create and update: for each item, in order, a link
      `INSERT OR IGNORE` when the item is the id of one of `owner`'s tags. */
  method LinkOwnedTags(db: Bookshelf, book: Id, owner: Id, items: seq<Json>)
    requires db.Valid() && OwnsBook(db.State(), owner, book)
    modifies db
    ensures db.Valid()
    ensures db.State() == AddedLinks(old(db.State()), book, OwnedTagIds(old(db.State()), owner, items))
  {
    ghost var t := db.State();
    var owned := OwnedTagIds(db.State(), owner, items);
    var i := 0;
    while i < |items|
      invariant 0 <= i <= |items| && db.Valid()
      invariant db.State() == t.(links := t.links + LinksTo(book, OwnedTagIds(t, owner, items[..i])))
    {
      OwnedTagIdsStep(t, owner, items, i);
      if items[i].JNum? && items[i].n in owned {
        ghost var before := db.State();
        var ignored := db.RunQuery(InsertLink(Link(book, items[i].n)));
        RanLinkInsert(before, Link(book, items[i].n), db.State(), ignored);
      }
      i := i + 1;
    }
    assert items[..i] == items;
  }

  /** One more item adds its id to the owned ids when it names an owned tag. */
  lemma OwnedTagIdsStep(t: Tables, owner: Id, items: seq<Json>, i: int)
    requires 0 <= i < |items|
    ensures OwnedTagIds(t, owner, items[..i + 1]) ==
      OwnedTagIds(t, owner, items[..i]) + (if items[i].JNum? && OwnsTag(t, owner, items[i].n) then {items[i].n} else {})
  {
    assert items[..i + 1] == items[..i] + [items[i]];
  }

  // ----------------------------------------------------------------- create

  /** The validation chains of `POST /`, in their declared order. */
  function CreateErrors(body: map<string, Json>): (r: seq<FieldError>)
    ensures r == [] <==>
      && NotEmpty(Field(body, "title"))
      && ("authors" in body ==> body["authors"].JArr?)
      && ("open_library_key" in body ==> body["open_library_key"].JStr?)
      && ("publication_year" in body ==> IsInt(body["publication_year"]))
      && ("isbn_13" in body ==> body["isbn_13"].JStr?)
      && ("genres" in body ==> body["genres"].JArr?)
      && ("cover_url" in body ==> body["cover_url"].JStr?)
      && ("status" in body ==> IsIn(body["status"], Statuses))
      && ("rating" in body ==> IsIntIn(body["rating"], 1, 5))
      && ("notes" in body ==> body["notes"].JStr?)
      && ("tags" in body ==> body["tags"].JArr?)
  {
    Check(body, "title", false, NotEmpty, DefaultMessage)
    + Check(body, "authors", true, IsArray, DefaultMessage)
    + Check(body, "open_library_key", true, IsString, DefaultMessage)
    + Check(body, "publication_year", true, IsInt, DefaultMessage)
    + Check(body, "isbn_13", true, IsString, DefaultMessage)
    + Check(body, "genres", true, IsArray, DefaultMessage)
    + Check(body, "cover_url", true, IsString, DefaultMessage)
    + Check(body, "status", true, v => IsIn(v, Statuses), DefaultMessage)
    + Check(body, "rating", true, v => IsIntIn(v, 1, 5), DefaultMessage)
    + Check(body, "notes", true, IsString, DefaultMessage)
    + Check(body, "tags", true, IsArray, DefaultMessage)
  }

  /** The row `POST /` inserts for an accepted body. */
  function NewBook(caller: Id, body: map<string, Json>, now: int): (b: Book)
    ensures b.userId == caller && b.addedAt == now
    ensures b.title == Trimmed(Field(body, "title"))
    ensures "status" !in body ==> b.status == DefaultStatus
    ensures "status" in body && body["status"].JStr? && body["status"].s in Statuses ==> b.status == body["status"].s
    ensures "rating" !in body ==> b.rating.None?
    ensures Parsed(b.authors) == (if "authors" in body && body["authors"].JArr? then body["authors"].items else [])
    ensures Parsed(b.genres) == (if "genres" in body && body["genres"].JArr? then body["genres"].items else [])
  {
    Book(
      userId := caller,
      openLibraryKey := TextOrNull(body, "open_library_key"),
      title := Trimmed(Field(body, "title")),
      authors := ArrayOrNull(body, "authors"),
      publicationYear := IntOrNull(body, "publication_year"),
      isbn13 := TextOrNull(body, "isbn_13"),
      genres := ArrayOrNull(body, "genres"),
      coverUrl := TextOrNull(body, "cover_url"),
      status := StatusOrDefault(body),
      rating := IntOrNull(body, "rating"),
      notes := TextOrNull(body, "notes"),
      addedAt := now)
  }

  /** The `status` of a new row: the body's when it is truthy, `unread`
      otherwise. */
  function StatusOrDefault(body: map<string, Json>): (r: string)
    ensures "status" !in body ==> r == DefaultStatus
    ensures "status" in body && body["status"].JStr? && body["status"].s in Statuses ==> r == body["status"].s
  {
    if "status" in body && Truthy(body["status"]) then ToText(body["status"]) else DefaultStatus
  }

  /** The tag ids of the body that get linked: the caller's own. */
  function TagsToLink(t: Tables, caller: Id, body: map<string, Json>): (r: set<Id>)
    ensures forall n :: n in r ==> OwnsTag(t, caller, n)
    ensures forall n :: n in r <==> "tags" in body && body["tags"].JArr? && JNum(n) in body["tags"].items && OwnsTag(t, caller, n)
  {
    if "tags" in body && body["tags"].JArr? then OwnedTagIds(t, caller, body["tags"].items) else {}
  }

  /** `POST /`: a rejected body changes nothing; otherwise the book is added
      for the caller, linked to exactly those given tag ids the caller owns,
      and returned with 201. A caller whose user row is gone gets 500. */
  function CreateBookSpec(t: Tables, caller: Id, body: map<string, Json>, now: int): (s: Step<BookView>)
    requires Wellformed(t)
    ensures Wellformed(s.after) && (OwnersAgree(t) ==> OwnersAgree(s.after))
    ensures CreateErrors(body) != [] ==> s == Step(t, Reply(BadRequest, Invalid(CreateErrors(body))))
    ensures CreateErrors(body) == [] && caller !in t.users ==> s == Step(t, Failed(ServerError, "Failed to add book"))
    ensures CreateErrors(body) == [] && caller in t.users ==>
      var id := t.nextBook;
      && id !in t.books
      && s.after.users == t.users && s.after.tags == t.tags
      && s.after.books == t.books[id := NewBook(caller, body, now)]
      && s.after.links == t.links + LinksTo(id, TagsToLink(t, caller, body))
      && s.after.nextBook == id + 1 && s.after.nextUser == t.nextUser && s.after.nextTag == t.nextTag
      && (forall l :: l in s.after.links && l !in t.links ==> l.book == id && OwnsTag(t, caller, l.tag))
      && (forall n :: "tags" in body && JNum(n) in body["tags"].items && OwnsTag(t, caller, n) ==> Link(id, n) in s.after.links)
      && s.reply == Reply(Created, Ok(ViewOf(s.after, id)))
  {
    var errors := CreateErrors(body);
    if errors != [] then Step(t, Reply(BadRequest, Invalid(errors)))
    else if caller !in t.users then Step(t, Failed(ServerError, "Failed to add book"))
    else
      var id := t.nextBook;
      var added := WithBook(t, NewBook(caller, body, now));
      var after := AddedLinks(added, id, TagsToLink(t, caller, body));
      Step(after, Reply(Created, Ok(ViewOf(after, id))))
  }

  /** The tag step of `POST /`, run only for a non-empty `tags` array. */
  method LinkGivenTags(db: Bookshelf, book: Id, owner: Id, body: map<string, Json>)
    requires db.Valid() && OwnsBook(db.State(), owner, book)
    modifies db
    ensures db.Valid()
    ensures db.State() == AddedLinks(old(db.State()), book, TagsToLink(old(db.State()), owner, body))
  {
    if "tags" in body && body["tags"].JArr? && |body["tags"].items| > 0 {
      LinkOwnedTags(db, book, owner, body["tags"].items);
    } else {
      assert TagsToLink(db.State(), owner, body) == {};
      assert LinksTo(book, {}) == {};
      assert AddedLinks(db.State(), book, {}) == db.State();
    }
  }

  method CreateBook(db: Bookshelf, caller: Id, body: map<string, Json>, now: int) returns (reply: Reply<BookView>)
    requires db.Valid()
    modifies db
    ensures db.Valid()
    ensures db.State() == CreateBookSpec(old(db.State()), caller, body, now).after
    ensures reply == CreateBookSpec(old(db.State()), caller, body, now).reply
  {
    var errors := CreateErrors(body);
    if errors != [] {
      return Reply(BadRequest, Invalid(errors));
    }
    ghost var t := db.State();
    var inserted := db.RunQuery(InsertBook(NewBook(caller, body, now)));
    RanBookInsert(t, NewBook(caller, body, now), db.State(), inserted);
    if inserted.Failure? {
      return Failed(ServerError, "Failed to add book");
    }
    var id := inserted.value.lastInsertRowid;
    SameTagsSameLinks(t, db.State(), caller, body);
    LinkGivenTags(db, id, caller, body);
    CreatedBook(t, caller, body, now);
    reply := Reply(Created, Ok(ViewOf(db.State(), id)));
  }

  /** Which ids get linked depends on the tags table alone. */
  lemma SameTagsSameLinks(t: Tables, u: Tables, caller: Id, body: map<string, Json>)
    requires t.tags == u.tags
    ensures TagsToLink(t, caller, body) == TagsToLink(u, caller, body)
  {
  }

  /** The state and reply CreateBookSpec gives an accepted request. */
  lemma CreatedBook(t: Tables, caller: Id, body: map<string, Json>, now: int)
    requires Wellformed(t) && CreateErrors(body) == [] && caller in t.users
    ensures var after := AddedLinks(WithBook(t, NewBook(caller, body, now)), t.nextBook, TagsToLink(t, caller, body));
      CreateBookSpec(t, caller, body, now) == Step(after, Reply(Created, Ok(ViewOf(after, t.nextBook))))
  {
  }

  // ----------------------------------------------------------------- update

  /** The validation chains of `PUT /:id`, in their declared order. */
  function UpdateErrors(idText: string, body: map<string, Json>): (r: seq<FieldError>)
    ensures r == [] <==>
      && IsIntText(idText)
      && ("title" in body ==> NotEmpty(body["title"]))
      && ("authors" in body ==> body["authors"].JArr?)
      && ("status" in body ==> IsIn(body["status"], Statuses))
      && ("rating" in body ==> IsIntIn(body["rating"], 1, 5))
      && ("notes" in body ==> body["notes"].JStr?)
      && ("tags" in body ==> body["tags"].JArr?)
  {
    IdErrors(idText)
    + Check(body, "title", true, NotEmpty, DefaultMessage)
    + Check(body, "authors", true, IsArray, DefaultMessage)
    + Check(body, "status", true, v => IsIn(v, Statuses), DefaultMessage)
    + Check(body, "rating", true, v => IsIntIn(v, 1, 5), DefaultMessage)
    + Check(body, "notes", true, IsString, DefaultMessage)
    + Check(body, "tags", true, IsArray, DefaultMessage)
  }

  /** The columns `PUT /:id` may set, in the order it visits them. */
  const UpdatableFields: seq<string> := ["title", "status", "rating", "notes"]

  /** The column a body value sets: `title` trimmed, `rating` as an integer. */
  function SetColumn(b: Book, field: string, v: Json): Book {
    if field == "title" then b.(title := Trimmed(v))
    else if field == "status" then b.(status := ToText(v))
    else if field == "rating" then b.(rating := if IsIntText(ToText(v)) then Some(IntValue(ToText(v))) else None)
    else if field == "notes" then b.(notes := Some(ToText(v)))
    else b
  }

  /** The row after the first `n` of UpdatableFields have been applied. */
  function PatchedUpTo(b: Book, body: map<string, Json>, n: nat): Book {
    var b1 := if n > 0 && "title" in body then SetColumn(b, "title", body["title"]) else b;
    var b2 := if n > 1 && "status" in body then SetColumn(b1, "status", body["status"]) else b1;
    var b3 := if n > 2 && "rating" in body then SetColumn(b2, "rating", body["rating"]) else b2;
    if n > 3 && "notes" in body then SetColumn(b3, "notes", body["notes"]) else b3
  }

  /** Some of the first `n` of UpdatableFields is in the body. */
  predicate GivenUpTo(body: map<string, Json>, n: nat) {
    || (n > 0 && "title" in body)
    || (n > 1 && "status" in body)
    || (n > 2 && "rating" in body)
    || (n > 3 && "notes" in body)
  }

  /** The body names a column the SET list covers. */
  predicate Updates(body: map<string, Json>) {
    GivenUpTo(body, 4) || "authors" in body
  }

  /** Visiting field `i` applies its column when the body has it. */
  lemma PatchStep(b: Book, body: map<string, Json>, i: nat)
    requires i < |UpdatableFields|
    ensures var f := UpdatableFields[i];
      && PatchedUpTo(b, body, i + 1) == (if f in body then SetColumn(PatchedUpTo(b, body, i), f, body[f]) else PatchedUpTo(b, body, i))
      && (GivenUpTo(body, i + 1) <==> GivenUpTo(body, i) || f in body)
  {
    if i == 0 {
      assert UpdatableFields[i] == "title";
    } else if i == 1 {
      assert UpdatableFields[i] == "status";
    } else if i == 2 {
      assert UpdatableFields[i] == "rating";
    } else {
      assert UpdatableFields[i] == "notes";
    }
  }

  /** The row after `UPDATE books SET ...`: each of title, status, rating,
      notes and authors takes the body's value when the body has it, and
      every other column keeps its value. */
  function Patched(b: Book, body: map<string, Json>): (r: Book)
    ensures r.userId == b.userId && r.openLibraryKey == b.openLibraryKey && r.publicationYear == b.publicationYear
    ensures r.isbn13 == b.isbn13 && r.genres == b.genres && r.coverUrl == b.coverUrl && r.addedAt == b.addedAt
    ensures r.title == (if "title" in body then Trimmed(body["title"]) else b.title)
    ensures r.status == (if "status" in body then ToText(body["status"]) else b.status)
    ensures "rating" !in body ==> r.rating == b.rating
    ensures "rating" in body && body["rating"].JNum? ==> r.rating == Some(body["rating"].n)
    ensures r.notes == (if "notes" in body then Some(ToText(body["notes"])) else b.notes)
    ensures "authors" !in body ==> r.authors == b.authors
    ensures "authors" in body && body["authors"].JArr? ==> Parsed(r.authors) == body["authors"].items
    ensures !Updates(body) ==> r == b
  {
    var r := PatchedUpTo(b, body, 4);
    PatchedColumns(b, body, r);
    if "authors" in body then r.(authors := PatchedAuthors(body)) else r
  }

  /** The `authors` column a body that has `authors` sets: its array,
      encoded as JSON text. */
  function PatchedAuthors(body: map<string, Json>): (r: Option<JsonColumn>)
    requires "authors" in body
    ensures r.Some?
    ensures body["authors"].JArr? ==> Decode(r.value) == body["authors"].items
  {
    Some(Encoded(if body["authors"].JArr? then body["authors"].items else []))
  }

  /** What the four SET columns of `PUT /:id` do to the row, column by column. */
  lemma PatchedColumns(b: Book, body: map<string, Json>, r: Book)
    requires r == PatchedUpTo(b, body, 4)
    ensures r.userId == b.userId && r.openLibraryKey == b.openLibraryKey && r.publicationYear == b.publicationYear
    ensures r.isbn13 == b.isbn13 && r.genres == b.genres && r.coverUrl == b.coverUrl && r.addedAt == b.addedAt
    ensures r.authors == b.authors
    ensures r.title == (if "title" in body then Trimmed(body["title"]) else b.title)
    ensures r.status == (if "status" in body then ToText(body["status"]) else b.status)
    ensures "rating" !in body ==> r.rating == b.rating
    ensures "rating" in body && body["rating"].JNum? ==> r.rating == Some(body["rating"].n)
    ensures r.notes == (if "notes" in body then Some(ToText(body["notes"])) else b.notes)
    ensures !GivenUpTo(body, 4) ==> r == b
  {
    var b1 := if "title" in body then b.(title := Trimmed(body["title"])) else b;
    assert b1 == PatchedUpTo(b, body, 1);
    var b2 := if "status" in body then b1.(status := ToText(body["status"])) else b1;
    assert b2 == PatchedUpTo(b, body, 2) by {
      assert "status" != "title";
    }
    var b3 := if "rating" in body then SetColumn(b2, "rating", body["rating"]) else b2;
    assert b3 == PatchedUpTo(b, body, 3);
    assert r == (if "notes" in body then b3.(notes := Some(ToText(body["notes"]))) else b3) by {
      assert "notes" != "title" && "notes" != "status" && "notes" != "rating";
    }
    if "rating" in body && body["rating"].JNum? {
      IntToStringRoundTrip(body["rating"].n);
    }
  }

  /** `PUT /:id`: a rejected request, or a book the caller does not own,
      changes nothing. Otherwise only the given columns change, and when the
      body has `tags`, even [], the book's links become exactly the given ids
      the caller owns; without `tags` its links stay as they were. */
  function UpdateBookSpec(t: Tables, caller: Id, idText: string, body: map<string, Json>): (s: Step<BookView>)
    requires Wellformed(t)
    ensures Wellformed(s.after) && (OwnersAgree(t) ==> OwnersAgree(s.after))
    ensures UpdateErrors(idText, body) != [] ==> s == Step(t, Reply(BadRequest, Invalid(UpdateErrors(idText, body))))
    ensures UpdateErrors(idText, body) == [] && !OwnsBook(t, caller, IntValue(idText)) ==> s == Step(t, Failed(NotFound, "Book not found"))
    ensures UpdateErrors(idText, body) == [] && OwnsBook(t, caller, IntValue(idText)) ==>
      var id := IntValue(idText);
      && s.after.users == t.users && s.after.tags == t.tags
      && s.after.nextUser == t.nextUser && s.after.nextBook == t.nextBook && s.after.nextTag == t.nextTag
      && s.after.books == t.books[id := Patched(t.books[id], body)]
      && (forall l: Link :: l.book != id ==> (l in s.after.links <==> l in t.links))
      && ("tags" !in body ==> s.after.links == t.links)
      && ("tags" in body ==> forall n :: Link(id, n) in s.after.links <==> JNum(n) in body["tags"].items && OwnsTag(t, caller, n))
      && s.reply == Reply(OK, Ok(ViewOf(s.after, id)))
  {
    var errors := UpdateErrors(idText, body);
    if errors != [] then Step(t, Reply(BadRequest, Invalid(errors)))
    else
      var id := IntValue(idText);
      if !OwnsBook(t, caller, id) then Step(t, Failed(NotFound, "Book not found"))
      else
        var patched := ReplacedBook(t, id, Patched(t.books[id], body));
        var after :=
          if "tags" in body then AddedLinks(WithoutLinksOf(patched, id), id, OwnedTagIds(t, caller, body["tags"].items))
          else patched;
        Step(after, Reply(OK, Ok(ViewOf(after, id))))
  }

  /** The SET list of `PUT /:id`: the visit of title, status, rating and
      notes, then authors, and whether any of them was given. */
  method PatchRow(b: Book, body: map<string, Json>) returns (row: Book, anyUpdate: bool)
    ensures row == Patched(b, body)
    ensures anyUpdate <==> Updates(body)
  {
    row := b;
    anyUpdate := false;
    var i := 0;
    while i < |UpdatableFields|
      invariant 0 <= i <= |UpdatableFields|
      invariant row == PatchedUpTo(b, body, i)
      invariant anyUpdate <==> GivenUpTo(body, i)
    {
      PatchStep(b, body, i);
      var field := UpdatableFields[i];
      if field in body {
        row := SetColumn(row, field, body[field]);
        anyUpdate := true;
      }
      i := i + 1;
    }
    if "authors" in body {
      row := row.(authors := Some(Encoded(if body["authors"].JArr? then body["authors"].items else [])));
      anyUpdate := true;
    }
  }

  /** The tag replacement of `PUT /:id`: the book's links are deleted, then
      the given ids the caller owns are linked. */
  method ReplaceTags(db: Bookshelf, id: Id, caller: Id, items: seq<Json>)
    requires db.Valid() && OwnsBook(db.State(), caller, id)
    modifies db
    ensures db.Valid()
    ensures db.State() == AddedLinks(WithoutLinksOf(old(db.State()), id), id, OwnedTagIds(old(db.State()), caller, items))
  {
    ghost var t := db.State();
    var cleared := db.RunQuery(DeleteLinksOfBook(id));
    assert db.links == WithoutLinksOf(t, id).links;
    assert OwnedTagIds(db.State(), caller, items) == OwnedTagIds(t, caller, items);
    if |items| > 0 {
      LinkOwnedTags(db, id, caller, items);
    } else {
      assert LinksTo(id, OwnedTagIds(t, caller, items)) == {};
    }
  }

  /** The UPDATE of `PUT /:id`, run only when some field was given. */
  method RewriteBook(db: Bookshelf, id: Id, body: map<string, Json>)
    requires db.Valid() && id in db.books
    modifies db
    ensures db.Valid()
    ensures db.State() == ReplacedBook(old(db.State()), id, Patched(old(db.books[id]), body))
  {
    ghost var t := db.State();
    var row, anyUpdate := PatchRow(db.books[id], body);
    if anyUpdate {
      assert row.userId in t.users;
      var ignored := db.RunQuery(Statement.UpdateBook(id, row));
      RanBookUpdate(t, id, row, db.State(), ignored);
    } else {
      assert t.books[id := row] == t.books;
    }
  }

  method UpdateBook(db: Bookshelf, caller: Id, idText: string, body: map<string, Json>) returns (reply: Reply<BookView>)
    requires db.Valid()
    modifies db
    ensures db.Valid()
    ensures db.State() == UpdateBookSpec(old(db.State()), caller, idText, body).after
    ensures reply == UpdateBookSpec(old(db.State()), caller, idText, body).reply
  {
    var errors := UpdateErrors(idText, body);
    if errors != [] {
      return Reply(BadRequest, Invalid(errors));
    }
    var id := IntValue(idText);
    if !(id in db.books && db.books[id].userId == caller) {
      return Failed(NotFound, "Book not found");
    }
    ghost var t := db.State();
    RewriteBook(db, id, body);
    if "tags" in body {
      ghost var mid := db.State();
      assert OwnedTagIds(mid, caller, body["tags"].items) == OwnedTagIds(t, caller, body["tags"].items);
      ReplaceTags(db, id, caller, body["tags"].items);
    }
    reply := Reply(OK, Ok(ViewOf(db.State(), id)));
  }

  // ----------------------------------------------------------------- delete

  /** `DELETE /:id`: removes the book when the caller owns it, its links
      going with it by cascade; otherwise 404 and nothing changes. */
  function DeleteBookSpec(t: Tables, caller: Id, idText: string): (s: Step<()>)
    requires Wellformed(t)
    ensures Wellformed(s.after) && (OwnersAgree(t) ==> OwnersAgree(s.after))
    ensures !IsIntText(idText) ==> s == Step(t, Reply(BadRequest, Invalid(IdErrors(idText))))
    ensures IsIntText(idText) && !OwnsBook(t, caller, IntValue(idText)) ==> s == Step(t, Failed(NotFound, "Book not found"))
    ensures IsIntText(idText) && OwnsBook(t, caller, IntValue(idText)) ==>
      && s.reply == Reply(OK, Message("Book deleted"))
      && s.after.books == t.books - {IntValue(idText)}
      && (forall l :: l in s.after.links <==> l in t.links && l.book != IntValue(idText))
      && s.after.users == t.users && s.after.tags == t.tags
      && s.after.nextUser == t.nextUser && s.after.nextBook == t.nextBook && s.after.nextTag == t.nextTag
  {
    if !IsIntText(idText) then Step(t, Reply(BadRequest, Invalid(IdErrors(idText))))
    else
      var id := IntValue(idText);
      if OwnsBook(t, caller, id) then Step(WithoutBook(t, id), Reply(OK, Message("Book deleted")))
      else Step(t, Failed(NotFound, "Book not found"))
  }

  method DeleteBook(db: Bookshelf, caller: Id, idText: string) returns (reply: Reply<()>)
    requires db.Valid()
    modifies db
    ensures db.Valid()
    ensures db.State() == DeleteBookSpec(old(db.State()), caller, idText).after
    ensures reply == DeleteBookSpec(old(db.State()), caller, idText).reply
  {
    if !IsIntText(idText) {
      return Reply(BadRequest, Invalid(IdErrors(idText)));
    }
    var id := IntValue(idText);
    var result := db.RunQuery(DeleteOwnedBook(id, caller));
    if result.value.changes == 0 {
      return Failed(NotFound, "Book not found");
    }
    reply := Reply(OK, Message("Book deleted"));
  }
}

=== FILE: common.dfy ===
/** Failure-compatible wrappers shared by every module of the model. */
module Common {

  datatype Option<+T> = None | Some(value: T) {
    function GetOr(default: T): T {
      match this
      case Some(v) => v
      case None => default
    }
  }

  datatype Result<+R, +E> = Success(value: R) | Failure(error: E)
}

=== FILE: credentials.dfy ===
/**
  The server's credential service (server/src/services/auth.ts): which
  secret signs the session tokens, what a token carries, how one is checked
  and the options of the session cookie.

  bcrypt and jsonwebtoken are not part of this model. They are the function
  fields of `Primitives`, and what the model needs of them is stated as the
  hypotheses HashAgrees and TokensAgree, which the lemmas take as
  preconditions.
 */
module Credentials {
  import opened Common
  import opened Text

  /** The two environment variables the service reads. */
  datatype Env = Env(jwtSecret: Option<string>, nodeEnv: Option<string>)

  /** The payload of a session token, `{ id, email }`. */
  datatype Claims = Claims(id: int, email: string)

  datatype Algorithm = HS256 | HS384 | HS512

  /** The foreign functions: validator.js's isEmail and normalizeEmail,
      bcrypt's hash and compare, and jsonwebtoken's sign (payload, secret,
      lifetime in seconds) and verify (token, secret, accepted algorithms),
      where verify gives nothing for any token it rejects. */
  datatype Primitives = Primitives(
    isEmail: string -> bool,
    normalizeEmail: string -> string,
    hash: string -> string,
    compare: (string, string) -> bool,
    sign: (Claims, string, nat) -> string,
    verify: (string, string, set<Algorithm>) -> Option<Claims>)

  /** A password matches its own hash. */
  ghost predicate HashAgrees(p: Primitives) {
    forall pw :: p.compare(pw, p.hash(pw))
  }

  /** Text that can stand as a cookie value as it is: not empty, and free
      of `;`, `=` and white space. */
  predicate CookieSafe(s: string) {
    s != "" && forall i :: 0 <= i < |s| ==> s[i] != ';' && s[i] != '=' && !IsJsWhitespace(s[i])
  }

  /** A signed token is cookie-safe text (base64url parts joined by dots),
      and a token signed with HS256 under a secret verifies under that
      secret, when HS256 is accepted, to the payload it was signed with. */
  ghost predicate TokensAgree(p: Primitives) {
    && (forall c, k, life :: CookieSafe(p.sign(c, k, life)))
    && (forall c, k, life, algs :: HS256 in algs ==> p.verify(p.sign(c, k, life), k, algs) == Some(c))
  }

  const DefaultSecret: string := "bookshelf-secret-change-in-production"
  const MissingSecret: string := "JWT_SECRET environment variable is required in production"

  /** `expiresIn: '7d'`, in seconds. */
  const TokenLifetime: nat := 7 * 24 * 60 * 60

  predicate IsProduction(env: Env) {
    env.nodeEnv == Some("production")
  }

  /** JWT_SECRET is set to a non-empty text. */
  predicate SecretSet(env: Env) {
    env.jwtSecret.Some? && env.jwtSecret.value != ""
  }

  /** `getJwtSecret`: the configured secret; without one, an error in
      production and the built-in literal elsewhere. */
  function GetJwtSecret(env: Env): (r: Result<string, string>)
    ensures SecretSet(env) ==> r == Success(env.jwtSecret.value)
    ensures r.Failure? <==> !SecretSet(env) && IsProduction(env)
    ensures r.Success? ==> r.value != ""
    ensures IsProduction(env) && r.Success? ==> r.value == env.jwtSecret.value
    ensures !SecretSet(env) && !IsProduction(env) ==> r == Success(DefaultSecret)
  {
    if SecretSet(env) then Success(env.jwtSecret.value)
    else if IsProduction(env) then Failure(MissingSecret)
    else Success(DefaultSecret)
  }

  /** `generateToken`: `{ id, email }` signed for seven days, or the error
      `getJwtSecret` throws. */
  function GenerateToken(p: Primitives, env: Env, id: int, email: string): (r: Result<string, string>)
    ensures r.Failure? <==> GetJwtSecret(env).Failure?
    ensures r.Failure? ==> r.error == MissingSecret
  {
    match GetJwtSecret(env)
    case Success(k) => Success(p.sign(Claims(id, email), k, TokenLifetime))
    case Failure(e) => Failure(e)
  }

  /** `verifyToken`: the payload of a token verified under the secret with
      HS256 only; nothing for any failure, the missing secret included. */
  function VerifyToken(p: Primitives, env: Env, token: string): (r: Option<Claims>)
    ensures GetJwtSecret(env).Failure? ==> r.None?
  {
    match GetJwtSecret(env)
    case Success(k) => p.verify(token, k, {HS256})
    case Failure(_) => None
  }

  /** A token the service issues verifies back to the id and email it was
      issued for. */
  lemma TokenRoundTrip(p: Primitives, env: Env, id: int, email: string)
    requires TokensAgree(p)
    requires GenerateToken(p, env, id, email).Success?
    ensures VerifyToken(p, env, GenerateToken(p, env, id, email).value) == Some(Claims(id, email))
  {
    var k := GetJwtSecret(env).value;
    assert p.verify(p.sign(Claims(id, email), k, TokenLifetime), k, {HS256}) == Some(Claims(id, email));
  }

  /** The options of the session cookie; `maxAge` is in milliseconds. */
  datatype CookieOptions = CookieOptions(httpOnly: bool, secure: bool, sameSite: string, maxAge: nat, path: string)

  /** `cookieOptions`. */
  function CookieOptionsOf(env: Env): (o: CookieOptions)
    ensures o.httpOnly && o.sameSite == "strict" && o.path == "/"
    ensures o.secure <==> IsProduction(env)
    ensures o.maxAge == TokenLifetime * 1000
  {
    CookieOptions(true, IsProduction(env), "strict", 7 * 24 * 60 * 60 * 1000, "/")
  }
}

=== FILE: engine.dfy ===
/**
  The database the handlers talk to (server/src/config/db.ts): the
  statements they run, what each does to the tables under the schema's
  constraints, and the store object whose `RunQuery` plays `runQuery`.
 */
module Engine {
  import opened Common
  import opened Schema

  /** The data-changing statements the handlers issue, with their parameters
      already bound. Link inserts are `INSERT OR IGNORE` (SQLite) or
      `ON CONFLICT DO NOTHING` (PostgreSQL): a pair already present is skipped. */
  datatype Statement =
    | InsertUser(user: User)
    | InsertBook(book: Book)
    | InsertLink(link: Link)
    | DeleteLinksOfBook(bookId: Id)
    | UpdateBook(id: Id, book: Book)
    | DeleteOwnedBook(id: Id, owner: Id)
    | InsertTag(tag: Tag)
    | UpdateTag(id: Id, tag: Tag)
    | DeleteOwnedTag(id: Id, owner: Id)

  /** What `SELECT changes(), last_insert_rowid()` reports after a statement.
      `changes` counts only the rows the statement itself touched, not the
      rows a cascade removes. `lastInsertRowid` is the new row's id after an
      insert that adds a row, and 0 otherwise; no handler reads it after
      any other statement. */
  datatype RunResult = RunResult(changes: nat, lastInsertRowid: Id)

  datatype Outcome = Done(after: Tables, result: RunResult) | Threw(reason: string)

  const ForeignKeyFailed: string := "FOREIGN KEY constraint failed"
  const UniqueFailed: string := "UNIQUE constraint failed"

  /** The statement breaks a key, a uniqueness rule or a foreign key, so the
      engine refuses it. */
  predicate Violates(t: Tables, s: Statement) {
    match s
    case InsertUser(u) => EmailTaken(t, u.email)
    case InsertBook(b) => b.userId !in t.users
    case InsertLink(l) => l.book !in t.books || l.tag !in t.tags
    case DeleteLinksOfBook(_) => false
    case UpdateBook(id, b) => id in t.books && b.userId !in t.users
    case DeleteOwnedBook(_, _) => false
    case InsertTag(g) => g.userId !in t.users || NameTaken(t, g.userId, g.name)
    case UpdateTag(id, g) => id in t.tags && (g.userId !in t.users || NameTakenByOther(t, g.userId, g.name, id))
    case DeleteOwnedTag(_, _) => false
  }

  /** The statement keeps the owner of every row it rewrites, and a link it
      adds joins a book and a tag of one owner. */
  predicate KeepsOwners(t: Tables, s: Statement) {
    match s
    case InsertLink(l) => l.book in t.books && l.tag in t.tags ==> t.books[l.book].userId == t.tags[l.tag].userId
    case UpdateBook(id, b) => id in t.books ==> b.userId == t.books[id].userId
    case UpdateTag(id, g) => id in t.tags ==> g.userId == t.tags[id].userId
    case _ => true
  }

  /** One statement run against the tables with foreign keys switched on. */
  function Execute(t: Tables, s: Statement): (o: Outcome)
    requires Wellformed(t)
    ensures o.Threw? <==> Violates(t, s)
    ensures o.Done? ==> Wellformed(o.after)
    ensures o.Done? && OwnersAgree(t) && KeepsOwners(t, s) ==> OwnersAgree(o.after)
    ensures o.Done? && o.result.changes == 0 ==> o.after == t
    ensures o.Done? && (s.InsertUser? || s.InsertBook? || s.InsertTag?) ==> o.result.changes == 1
  {
    if s.InsertLink? || s.DeleteLinksOfBook? then ExecuteOnLinks(t, s)
    else if s.InsertTag? || s.UpdateTag? || s.DeleteOwnedTag? then ExecuteOnTags(t, s)
    else ExecuteOnBooks(t, s)
  }

  /** The statements on users and books. */
  function ExecuteOnBooks(t: Tables, s: Statement): (o: Outcome)
    requires Wellformed(t) && (s.InsertUser? || s.InsertBook? || s.UpdateBook? || s.DeleteOwnedBook?)
    ensures o.Threw? <==> Violates(t, s)
    ensures o.Done? ==> Wellformed(o.after)
    ensures o.Done? && OwnersAgree(t) && KeepsOwners(t, s) ==> OwnersAgree(o.after)
    ensures o.Done? && o.result.changes == 0 ==> o.after == t
    ensures o.Done? && (s.InsertUser? || s.InsertBook?) ==> o.result.changes == 1
  {
    match s
    case InsertUser(u) =>
      if EmailTaken(t, u.email) then Threw(UniqueFailed) else Done(WithUser(t, u), RunResult(1, t.nextUser))
    case InsertBook(b) =>
      if b.userId !in t.users then Threw(ForeignKeyFailed) else Done(WithBook(t, b), RunResult(1, t.nextBook))
    case UpdateBook(id, b) =>
      if id !in t.books then Done(t, RunResult(0, 0))
      else if b.userId !in t.users then Threw(ForeignKeyFailed)
      else Done(ReplacedBook(t, id, b), RunResult(1, 0))
    case DeleteOwnedBook(id, owner) =>
      if OwnsBook(t, owner, id) then Done(WithoutBook(t, id), RunResult(1, 0)) else Done(t, RunResult(0, 0))
  }

  /** The statements on book_tags. */
  function ExecuteOnLinks(t: Tables, s: Statement): (o: Outcome)
    requires Wellformed(t) && (s.InsertLink? || s.DeleteLinksOfBook?)
    ensures o.Threw? <==> Violates(t, s)
    ensures o.Done? ==> Wellformed(o.after)
    ensures o.Done? && OwnersAgree(t) && KeepsOwners(t, s) ==> OwnersAgree(o.after)
    ensures o.Done? && o.result.changes == 0 ==> o.after == t
  {
    match s
    case InsertLink(l) =>
      if l.book !in t.books || l.tag !in t.tags then Threw(ForeignKeyFailed)
      else if l in t.links then Done(t, RunResult(0, 0))
      else Done(WithLink(t, l), RunResult(1, 0))
    case DeleteLinksOfBook(b) =>
      var gone := set l | l in t.links && l.book == b;
      assert |gone| == 0 ==> WithoutLinksOf(t, b) == t by {
        forall l | l in t.links && l.book == b
          ensures |gone| > 0
        {
          assert l in gone;
        }
      }
      Done(WithoutLinksOf(t, b), RunResult(|gone|, 0))
  }

  /** The statements on tags. */
  function ExecuteOnTags(t: Tables, s: Statement): (o: Outcome)
    requires Wellformed(t) && (s.InsertTag? || s.UpdateTag? || s.DeleteOwnedTag?)
    ensures o.Threw? <==> Violates(t, s)
    ensures o.Done? ==> Wellformed(o.after)
    ensures o.Done? && OwnersAgree(t) && KeepsOwners(t, s) ==> OwnersAgree(o.after)
    ensures o.Done? && o.result.changes == 0 ==> o.after == t
    ensures o.Done? && s.InsertTag? ==> o.result.changes == 1
  {
    match s
    case InsertTag(g) =>
      if g.userId !in t.users then Threw(ForeignKeyFailed)
      else if NameTaken(t, g.userId, g.name) then Threw(UniqueFailed)
      else Done(WithTag(t, g), RunResult(1, t.nextTag))
    case UpdateTag(id, g) =>
      if id !in t.tags then Done(t, RunResult(0, 0))
      else if g.userId !in t.users then Threw(ForeignKeyFailed)
      else if NameTakenByOther(t, g.userId, g.name, id) then Threw(UniqueFailed)
      else Done(ReplacedTag(t, id, g), RunResult(1, 0))
    case DeleteOwnedTag(id, owner) =>
      if OwnsTag(t, owner, id) then Done(WithoutTag(t, id), RunResult(1, 0)) else Done(t, RunResult(0, 0))
  }

  /** `before` became `after` and `r` was reported by running `s`, as Execute says. */
  ghost predicate Ran(before: Tables, s: Statement, after: Tables, r: Result<RunResult, string>)
    requires Wellformed(before)
  {
    match Execute(before, s)
    case Done(t, res) => after == t && r == Success(res)
    case Threw(e) => after == before && r == Failure(e)
  }

  /** A book insert adds the row under the next id, or fails on a missing
      owner and changes nothing. */
  lemma RanBookInsert(before: Tables, b: Book, after: Tables, r: Result<RunResult, string>)
    requires Wellformed(before) && Ran(before, InsertBook(b), after, r)
    ensures b.userId in before.users ==> after == WithBook(before, b) && r == Success(RunResult(1, before.nextBook))
    ensures b.userId !in before.users ==> after == before && r == Failure(ForeignKeyFailed)
  {
  }

  /** A user insert with a free email adds the row under the next id. */
  lemma RanUserInsert(before: Tables, u: User, after: Tables, r: Result<RunResult, string>)
    requires Wellformed(before) && Ran(before, InsertUser(u), after, r)
    requires !EmailTaken(before, u.email)
    ensures after == WithUser(before, u) && r == Success(RunResult(1, before.nextUser))
  {
  }

  /** A link between an existing book and tag is present afterwards, and
      nothing else changes. */
  lemma RanLinkInsert(before: Tables, l: Link, after: Tables, r: Result<RunResult, string>)
    requires Wellformed(before) && Ran(before, InsertLink(l), after, r)
    requires l.book in before.books && l.tag in before.tags
    ensures after == before.(links := before.links + {l})
  {
    if l in before.links {
      assert before.links + {l} == before.links;
    }
  }

  /** An update of a book row whose owner exists rewrites that row. */
  lemma RanBookUpdate(before: Tables, id: Id, b: Book, after: Tables, r: Result<RunResult, string>)
    requires Wellformed(before) && Ran(before, UpdateBook(id, b), after, r)
    requires id in before.books && b.userId in before.users
    ensures after == ReplacedBook(before, id, b)
  {
  }

  /** An update of a tag row that keeps every constraint rewrites that row. */
  lemma RanTagUpdate(before: Tables, id: Id, g: Tag, after: Tables, r: Result<RunResult, string>)
    requires Wellformed(before) && Ran(before, UpdateTag(id, g), after, r)
    requires id in before.tags && g.userId in before.users && !NameTakenByOther(before, g.userId, g.name, id)
    ensures after == ReplacedTag(before, id, g)
  {
  }

  /** The database connection: one field per table and per id counter. */
  class Bookshelf {
    var users: map<Id, User>
    var books: map<Id, Book>
    var tags: map<Id, Tag>
    var links: set<Link>
    var nextUser: Id
    var nextBook: Id
    var nextTag: Id

    function State(): Tables
      reads this
    {
      Tables(users, books, tags, links, nextUser, nextBook, nextTag)
    }

    ghost predicate Valid()
      reads this
    {
      Wellformed(State())
    }

    /** A freshly created database: empty tables, counters at 1. */
    constructor ()
      ensures State() == EmptyTables && Valid()
    {
      users, books, tags, links := map[], map[], map[], {};
      nextUser, nextBook, nextTag := 1, 1, 1;
    }

    /** `runQuery`: runs one statement and reports the changed-row count and
        the new row's id; a refused statement throws and changes nothing. */
    method RunQuery(s: Statement) returns (r: Result<RunResult, string>)
      requires Valid()
      modifies this
      ensures Valid()
      ensures Ran(old(State()), s, State(), r)
    {
      match s
      case InsertUser(u) => r := RunInsertUser(u);
      case InsertBook(b) => r := RunInsertBook(b);
      case InsertLink(l) => r := RunInsertLink(l);
      case DeleteLinksOfBook(b) => r := RunDeleteLinksOfBook(b);
      case UpdateBook(id, b) => r := RunUpdateBook(id, b);
      case DeleteOwnedBook(id, owner) => r := RunDeleteOwnedBook(id, owner);
      case InsertTag(g) => r := RunInsertTag(g);
      case UpdateTag(id, g) => r := RunUpdateTag(id, g);
      case DeleteOwnedTag(id, owner) => r := RunDeleteOwnedTag(id, owner);
    }

    method RunInsertUser(u: User) returns (r: Result<RunResult, string>)
      requires Valid()
      modifies this
      ensures Valid() && Ran(old(State()), InsertUser(u), State(), r)
    {
      if exists id :: id in users && users[id].email == u.email {
        r := Failure(UniqueFailed);
      } else {
        r := Success(RunResult(1, nextUser));
        users := users[nextUser := u];
        nextUser := nextUser + 1;
      }
    }

    method RunInsertBook(b: Book) returns (r: Result<RunResult, string>)
      requires Valid()
      modifies this
      ensures Valid() && Ran(old(State()), InsertBook(b), State(), r)
    {
      if b.userId !in users {
        r := Failure(ForeignKeyFailed);
      } else {
        r := Success(RunResult(1, nextBook));
        books := books[nextBook := b];
        nextBook := nextBook + 1;
      }
    }

    method RunInsertLink(l: Link) returns (r: Result<RunResult, string>)
      requires Valid()
      modifies this
      ensures Valid() && Ran(old(State()), InsertLink(l), State(), r)
    {
      if l.book !in books || l.tag !in tags {
        r := Failure(ForeignKeyFailed);
      } else if l in links {
        r := Success(RunResult(0, 0));
      } else {
        links := links + {l};
        r := Success(RunResult(1, 0));
      }
    }

    method RunDeleteLinksOfBook(b: Id) returns (r: Result<RunResult, string>)
      requires Valid()
      modifies this
      ensures Valid() && Ran(old(State()), DeleteLinksOfBook(b), State(), r)
    {
      var gone := set l | l in links && l.book == b;
      links := links - gone;
      r := Success(RunResult(|gone|, 0));
    }

    method RunUpdateBook(id: Id, b: Book) returns (r: Result<RunResult, string>)
      requires Valid()
      modifies this
      ensures Valid() && Ran(old(State()), UpdateBook(id, b), State(), r)
    {
      if id !in books {
        r := Success(RunResult(0, 0));
      } else if b.userId !in users {
        r := Failure(ForeignKeyFailed);
      } else {
        books := books[id := b];
        r := Success(RunResult(1, 0));
      }
    }

    method RunDeleteOwnedBook(id: Id, owner: Id) returns (r: Result<RunResult, string>)
      requires Valid()
      modifies this
      ensures Valid() && Ran(old(State()), DeleteOwnedBook(id, owner), State(), r)
    {
      if id in books && books[id].userId == owner {
        books := books - {id};
        links := set l | l in links && l.book != id;
        r := Success(RunResult(1, 0));
      } else {
        r := Success(RunResult(0, 0));
      }
    }

    method RunInsertTag(g: Tag) returns (r: Result<RunResult, string>)
      requires Valid()
      modifies this
      ensures Valid() && Ran(old(State()), InsertTag(g), State(), r)
    {
      if g.userId !in users {
        r := Failure(ForeignKeyFailed);
      } else if exists id :: id in tags && tags[id].userId == g.userId && tags[id].name == g.name {
        r := Failure(UniqueFailed);
      } else {
        r := Success(RunResult(1, nextTag));
        tags := tags[nextTag := g];
        nextTag := nextTag + 1;
      }
    }

    method RunUpdateTag(id: Id, g: Tag) returns (r: Result<RunResult, string>)
      requires Valid()
      modifies this
      ensures Valid() && Ran(old(State()), UpdateTag(id, g), State(), r)
    {
      if id !in tags {
        r := Success(RunResult(0, 0));
      } else if g.userId !in users {
        r := Failure(ForeignKeyFailed);
      } else if exists k :: k in tags && k != id && tags[k].userId == g.userId && tags[k].name == g.name {
        r := Failure(UniqueFailed);
      } else {
        tags := tags[id := g];
        r := Success(RunResult(1, 0));
      }
    }

    method RunDeleteOwnedTag(id: Id, owner: Id) returns (r: Result<RunResult, string>)
      requires Valid()
      modifies this
      ensures Valid() && Ran(old(State()), DeleteOwnedTag(id, owner), State(), r)
    {
      if id in tags && tags[id].userId == owner {
        tags := tags - {id};
        links := set l | l in links && l.tag != id;
        r := Success(RunResult(1, 0));
      } else {
        r := Success(RunResult(0, 0));
      }
    }
  }
}

=== FILE: errors.dfy ===
/**
  The last two middlewares of the Express server
  (server/src/middleware/errorHandler.ts): errors that reach the error
  handler become a status and `{error}`, and requests no route matched get
  404.
 */
module Errors {
  import opened Common
  import opened Http

  /** An error with an optional `statusCode`. */
  datatype AppError = AppError(message: string, statusCode: Option<int>)

  const InternalError: string := "Internal server error"
  const NotFoundMessage: string := "Not found"

  /** `err.statusCode || 500`: a missing or zero code counts as 500. */
  function StatusOf(err: AppError): (s: int)
    ensures err.statusCode.Some? && err.statusCode.value != 0 ==> s == err.statusCode.value
    ensures err.statusCode.None? || err.statusCode.value == 0 ==> s == ServerError
    ensures s != 0
  {
    if err.statusCode.Some? && err.statusCode.value != 0 then err.statusCode.value else ServerError
  }

  /** `errorHandler`: at 500, whatever the code or the message, the reply
      is the fixed text, so internal messages never leak; at any other
      status the message is sent. */
  function ErrorHandler(err: AppError): (r: Reply<()>)
    ensures r.status == StatusOf(err)
    ensures r.status == ServerError ==> r.body == Error(InternalError)
    ensures r.status != ServerError ==> r.body == Error(err.message)
  {
    var status := StatusOf(err);
    Reply(status, Error(if status == ServerError then InternalError else err.message))
  }

  /** `notFoundHandler`: every unmatched request. */
  function NotFoundHandler(): (r: Reply<()>)
    ensures r == Failed(NotFound, NotFoundMessage)
  {
    Failed(NotFound, NotFoundMessage)
  }

  /** Only the code decides whether the message is shown: two errors with
      the same code get the same reply when that code means 500. */
  lemma MessageHiddenAtServerError(a: AppError, b: AppError)
    requires StatusOf(a) == ServerError && a.statusCode == b.statusCode
    ensures ErrorHandler(a) == ErrorHandler(b)
  {
  }
}

=== FILE: http.dfy ===
/**
  Requests and replies as the handlers see them: a status code and a JSON
  body of one of the shapes the routes send.
 */
module Http {
  import opened Schema

  /** One entry of express-validator's error array: the field and its message. */
  datatype FieldError = FieldError(field: string, msg: string)

  /** The JSON bodies the handlers send: a resource, `{error}`, `{message}`,
      `{errors}` after failed validation, or `{error, errors}` where the
      account routes join the messages into one text. */
  datatype Body<T> =
    | Ok(value: T)
    | Error(error: string)
    | Message(message: string)
    | Invalid(errors: seq<FieldError>)
    | Summary(error: string, errors: seq<FieldError>)

  datatype Reply<T> = Reply(status: int, body: Body<T>)

  /** What one request did: the tables afterwards and the reply sent. */
  datatype Step<T> = Step(after: Tables, reply: Reply<T>)

  const OK: int := 200
  const Created: int := 201
  const BadRequest: int := 400
  const Unauthorized: int := 401
  const NotFound: int := 404
  const MethodNotAllowed: int := 405
  const TooManyRequests: int := 429
  const ServerError: int := 500

  function Failed<T>(status: int, error: string): Reply<T> {
    Reply(status, Error(error))
  }

  /** The request methods the serverless dispatchers route on. */
  const Get: string := "GET"
  const Post: string := "POST"
  const MethodNotAllowedMessage: string := "Method not allowed"

  /** What a serverless dispatcher answered: the reply of the list handler,
      of the create handler, or a refusal (the gate's 401 or the 405). */
  datatype Routed<L, C> = ToList(listed: Reply<L>) | ToCreate(created: Reply<C>) | Refused(refused: Reply<()>)
}

=== FILE: json.dfy ===
/**
  JSON values of request bodies and the JSON-typed columns `authors` and
  `genres`, with the text forms the databases compare LIKE patterns against.
 */
module Json {
  import opened Text

  /** A JSON value as it arrives in a request body. Numbers are integers. */
  datatype Json = JNull | JBool(b: bool) | JNum(n: int) | JStr(s: string) | JArr(items: seq<Json>)

  /** JavaScript truthiness, which `x || default` and `if (x)` test. */
  predicate Truthy(v: Json) {
    match v
    case JNull => false
    case JBool(b) => b
    case JNum(n) => n != 0
    case JStr(s) => s != ""
    case JArr(_) => true
  }

  /** What a JSON-typed column holds: the serialised text of an array.
      Encoding (JSON.stringify, or the jsonb input of PostgreSQL) and
      decoding (JSON.parse, or the driver reading jsonb) are the two
      directions of this pair, so decoding gives back what was encoded. */
  datatype JsonColumn = Encoded(items: seq<Json>)

  function Decode(c: JsonColumn): seq<Json> {
    c.items
  }

  /** The two text renderings a JSON array column is matched in: the text
      JSON.stringify writes (SQLite keeps it as TEXT) and the text
      PostgreSQL prints for `jsonb::text`, which puts a space after commas. */
  datatype TextStyle = Compact | Jsonb

  function Separator(st: TextStyle): string {
    if st == Compact then "," else ", "
  }

  function HexDigit(d: nat): char
    requires d < 16
  {
    if d < 10 then DigitChar(d) else ('a' as int + d - 10) as char
  }

  /** How one character of a string is written inside JSON quotes. */
  function EscapeChar(c: char): string {
    if c == '"' then "\\\""
    else if c == '\\' then "\\\\"
    else if c == '\U{8}' then "\\b"
    else if c == '\U{C}' then "\\f"
    else if c == '\n' then "\\n"
    else if c == '\r' then "\\r"
    else if c == '\t' then "\\t"
    else if (c as int) < 0x20 then "\\u00" + [HexDigit(c as int / 16), HexDigit(c as int % 16)]
    else [c]
  }

  function EscapeString(s: string): string {
    if s == [] then [] else EscapeChar(s[0]) + EscapeString(s[1..])
  }

  function JoinWith(parts: seq<string>, sep: string): string {
    if parts == [] then []
    else if |parts| == 1 then parts[0]
    else parts[0] + sep + JoinWith(parts[1..], sep)
  }

  /** The JSON text of a value. */
  function Stringify(v: Json, st: TextStyle): string
    decreases v
  {
    match v
    case JNull => "null"
    case JBool(b) => if b then "true" else "false"
    case JNum(n) => IntToString(n)
    case JStr(s) => "\"" + EscapeString(s) + "\""
    case JArr(items) =>
      "[" + JoinWith(seq(|items|, i requires 0 <= i < |items| => Stringify(items[i], st)), Separator(st)) + "]"
  }

  /** The text a LIKE or ILIKE pattern is matched against for a JSON column. */
  function ColumnText(c: JsonColumn, st: TextStyle): string {
    Stringify(JArr(c.items), st)
  }
}

=== FILE: like.dfy ===
/**
  The LIKE and ILIKE pattern matching the book listings filter with. `%`
  matches any run of characters and `_` any one character; ASCII letters
  match regardless of case. SQLite's LIKE has no escape character unless
  the query names one; PostgreSQL's ILIKE escapes with a backslash.
 */
module Like {
  import opened Common
  import opened Text

  datatype Dialect = SqliteLike | PostgresIlike

  /** The escape character the dialect uses when the query names none. */
  function EscapeOf(d: Dialect): Option<char> {
    if d == SqliteLike then None else Some('\\')
  }

  predicate SameFold(a: char, b: char) {
    FoldAscii(a) == FoldAscii(b)
  }

  /** Does text `t` match pattern `p`? */
  function Matches(p: string, t: string, esc: Option<char>): bool
    decreases |p| + |t|
  {
    if p == [] then t == []
    else if esc == Some(p[0]) then
      |p| >= 2 && t != [] && SameFold(p[1], t[0]) && Matches(p[2..], t[1..], esc)
    else if p[0] == '%' then
      Matches(p[1..], t, esc) || (t != [] && Matches(p, t[1..], esc))
    else if p[0] == '_' then
      t != [] && Matches(p[1..], t[1..], esc)
    else
      t != [] && SameFold(p[0], t[0]) && Matches(p[1..], t[1..], esc)
  }

  /** The search term both listings build from the query text `q`: `%q%`. */
  function SearchTerm(q: string): string {
    "%" + q + "%"
  }

  /** `q` holds no character the dialect treats specially. */
  predicate Plain(q: string, d: Dialect) {
    forall i :: 0 <= i < |q| ==> q[i] != '%' && q[i] != '_' && Some(q[i]) != EscapeOf(d)
  }

  predicate FoldEq(a: string, b: string) {
    |a| == |b| && forall i :: 0 <= i < |a| ==> SameFold(a[i], b[i])
  }

  /** `q` occurs in `t` at position `i`, ignoring the case of ASCII letters. */
  predicate OccursAt(t: string, q: string, i: nat) {
    i + |q| <= |t| && FoldEq(q, t[i..i + |q|])
  }

  /** `t` holds `q` somewhere, ignoring the case of ASCII letters. */
  ghost predicate ContainsFold(t: string, q: string) {
    exists i: nat :: OccursAt(t, q, i)
  }

  lemma {:induction false} PercentMatchesAll(t: string, d: Dialect)
    ensures Matches("%", t, EscapeOf(d))
  {
    if t != [] {
      PercentMatchesAll(t[1..], d);
    }
  }

  /** A plain text followed by `%` matches exactly the texts it begins, up to case. */
  lemma {:induction false} PrefixPattern(q: string, t: string, d: Dialect)
    requires Plain(q, d)
    ensures Matches(q + "%", t, EscapeOf(d)) <==> |q| <= |t| && FoldEq(q, t[..|q|])
  {
    if q == [] {
      assert q + "%" == "%";
      PercentMatchesAll(t, d);
    } else {
      assert (q + "%")[1..] == q[1..] + "%";
      if t != [] {
        PrefixPattern(q[1..], t[1..], d);
        if |q| <= |t| {
          assert t[1..][..|q| - 1] == t[..|q|][1..];
          if FoldEq(q, t[..|q|]) {
            assert FoldEq(q[1..], t[1..][..|q| - 1]);
          }
          if SameFold(q[0], t[0]) && FoldEq(q[1..], t[1..][..|q| - 1]) {
            forall i | 0 <= i < |q| ensures SameFold(q[i], t[..|q|][i]) {
              if i > 0 {
                assert q[i] == q[1..][i - 1];
              }
            }
          }
        }
      }
    }
  }

  /** A leading `%` lets the rest of the pattern match any suffix of the text. */
  lemma {:induction false} LeadingPercent(r: string, t: string, d: Dialect)
    ensures Matches("%" + r, t, EscapeOf(d)) <==> exists i :: 0 <= i <= |t| && Matches(r, t[i..], EscapeOf(d))
  {
    var p := "%" + r;
    assert p[1..] == r;
    assert t[0..] == t;
    if t != [] {
      LeadingPercent(r, t[1..], d);
      if exists i :: 0 <= i <= |t| && Matches(r, t[i..], EscapeOf(d)) {
        var i :| 0 <= i <= |t| && Matches(r, t[i..], EscapeOf(d));
        if i > 0 {
          assert t[1..][i - 1..] == t[i..];
        }
      }
      if exists i :: 0 <= i <= |t| - 1 && Matches(r, t[1..][i..], EscapeOf(d)) {
        var i :| 0 <= i <= |t| - 1 && Matches(r, t[1..][i..], EscapeOf(d));
        assert t[1..][i..] == t[i + 1..];
      }
    }
  }

  /** For a query without special characters, `LIKE '%q%'` (and `ILIKE`)
      is case-insensitive substring search. */
  lemma SearchTermMeansContains(q: string, t: string, d: Dialect)
    requires Plain(q, d)
    ensures Matches(SearchTerm(q), t, EscapeOf(d)) <==> ContainsFold(t, q)
  {
    assert SearchTerm(q) == "%" + (q + "%");
    LeadingPercent(q + "%", t, d);
    if Matches(SearchTerm(q), t, EscapeOf(d)) {
      var i :| 0 <= i <= |t| && Matches(q + "%", t[i..], EscapeOf(d));
      PrefixPattern(q, t[i..], d);
      assert t[i..][..|q|] == t[i..i + |q|];
      assert OccursAt(t, q, i);
    }
    if ContainsFold(t, q) {
      var i: nat :| OccursAt(t, q, i);
      PrefixPattern(q, t[i..], d);
      assert t[i..][..|q|] == t[i..i + |q|];
    }
  }
}

=== FILE: open_library.dfy ===
/**
  The Open Library client (api/lib/openLibrary.ts): the mapping of a search
  document to the record the app shows, the cleaning of an ISBN before it
  goes into the query, and the outcomes of the two searches. The HTTP
  request itself and URL encoding are parameters.
 */
module OpenLibrary {
  import opened Common
  import opened Text

  /** A document of `search.json`, with the fields the app asks for; an
      absent field is None. */
  datatype Work = Work(
    key: string,
    title: string,
    authorName: Option<seq<string>>,
    firstPublishYear: Option<int>,
    isbn: Option<seq<string>>,
    subject: Option<seq<string>>,
    coverI: Option<int>)

  datatype SearchResult = SearchResult(
    key: string,
    title: string,
    authors: seq<string>,
    publicationYear: Option<int>,
    isbn: Option<string>,
    genres: seq<string>,
    coverUrl: Option<string>)

  /** What a request returns: whether the status is 2xx, the status, and the
      documents of the JSON body. */
  datatype Response = Response(ok: bool, status: int, docs: seq<Work>)

  const BaseUrl: string := "https://openlibrary.org"
  const CoverBase: string := "https://covers.openlibrary.org/b/id/"
  const Fields: string := "&fields=key,title,author_name,first_publish_year,isbn,subject,cover_i"
  const MaxGenres: nat := 5
  const DefaultLimit: nat := 20

  // ------------------------------------------------------------------ mapper

  /** The cover image of a truthy `cover_i`, in the medium size. */
  function CoverUrl(coverI: Option<int>): (r: Option<string>)
    ensures r.Some? <==> coverI.Some? && coverI.value != 0
    ensures r.Some? ==> r.value == CoverBase + IntToString(coverI.value) + "-M.jpg"
  {
    if coverI.Some? && coverI.value != 0 then Some(CoverBase + IntToString(coverI.value) + "-M.jpg") else None
  }

  /** `work.isbn?.[0] || null`: the first listed ISBN unless it is missing
      or empty. */
  function FirstIsbn(isbn: Option<seq<string>>): (r: Option<string>)
    ensures r.Some? <==> isbn.Some? && |isbn.value| > 0 && isbn.value[0] != ""
    ensures r.Some? ==> r.value == isbn.value[0]
  {
    if isbn.Some? && |isbn.value| > 0 && isbn.value[0] != "" then Some(isbn.value[0]) else None
  }

  /** `mapWorkToSearchResult`. */
  function MapWork(w: Work): (r: SearchResult)
    ensures r.key == w.key && r.title == w.title
    ensures r.authors == (if w.authorName.Some? then w.authorName.value else [])
    ensures r.publicationYear.Some? <==> w.firstPublishYear.Some? && w.firstPublishYear.value != 0
    ensures r.publicationYear.Some? ==> r.publicationYear == w.firstPublishYear
    ensures r.isbn == FirstIsbn(w.isbn) && r.coverUrl == CoverUrl(w.coverI)
    ensures w.subject.None? ==> r.genres == []
    ensures w.subject.Some? ==> |r.genres| == Min(|w.subject.value|, MaxGenres) && r.genres <= w.subject.value
  {
    var subjects := w.subject.GetOr([]);
    SearchResult(
      w.key, w.title, w.authorName.GetOr([]),
      if w.firstPublishYear.Some? && w.firstPublishYear.value != 0 then w.firstPublishYear else None,
      FirstIsbn(w.isbn),
      subjects[..Min(|subjects|, MaxGenres)],
      CoverUrl(w.coverI))
  }

  function Min(a: nat, b: nat): nat {
    if a <= b then a else b
  }

  // -------------------------------------------------------------------- ISBN

  /** A character `/[-\s]/` matches. */
  predicate Separates(c: char) {
    c == '-' || IsJsWhitespace(c)
  }

  /** `isbn.replace(/[-\s]/g, '')`: the characters of `s` in order, without
      hyphens and white space. */
  function CleanIsbn(s: string): (r: string)
    ensures |r| <= |s|
    ensures forall i :: 0 <= i < |r| ==> !Separates(r[i])
    ensures (forall i :: 0 <= i < |s| ==> !Separates(s[i])) ==> r == s
  {
    if s == [] then []
    else if Separates(s[0]) then CleanIsbn(s[1..])
    else [s[0]] + CleanIsbn(s[1..])
  }

  /** Cleaning works piece by piece, so separators can sit anywhere. */
  lemma {:induction false} CleanIsbnAppend(a: string, b: string)
    ensures CleanIsbn(a + b) == CleanIsbn(a) + CleanIsbn(b)
  {
    if a == [] {
      assert a + b == b;
    } else {
      assert (a + b)[0] == a[0] && (a + b)[1..] == a[1..] + b;
      CleanIsbnAppend(a[1..], b);
    }
  }

  // ---------------------------------------------------------------- searches

  /** The error both searches throw on a status outside 2xx. */
  function ApiError(status: int): string {
    "Open Library API error: " + IntToString(status)
  }

  function SearchUrl(query: string, encode: string -> string, limit: nat): string {
    BaseUrl + "/search.json?q=" + encode(query) + "&limit=" + NatToString(limit) + Fields
  }

  function IsbnUrl(isbn: string): string {
    BaseUrl + "/search.json?isbn=" + CleanIsbn(isbn) + "&limit=1" + Fields
  }

  /** `searchBooks`: the error for a failed request, else one mapped
      result per document, in document order. */
  function SearchBooks(query: string, encode: string -> string, fetch: string -> Response, limit: nat): (r: Result<seq<SearchResult>, string>)
    ensures !fetch(SearchUrl(query, encode, limit)).ok <==> r.Failure?
    ensures r.Failure? ==> r.error == ApiError(fetch(SearchUrl(query, encode, limit)).status)
    ensures r.Success? ==>
      var docs := fetch(SearchUrl(query, encode, limit)).docs;
      |r.value| == |docs| && forall i :: 0 <= i < |docs| ==> r.value[i] == MapWork(docs[i])
  {
    var response := fetch(SearchUrl(query, encode, limit));
    if !response.ok then Failure(ApiError(response.status))
    else Success(seq(|response.docs|, i requires 0 <= i < |response.docs| => MapWork(response.docs[i])))
  }

  /** `searchBooks(query)` with the default limit, as the search route calls
      it: the request asks for at most 20 documents. */
  function SearchWithDefaultLimit(query: string, encode: string -> string, fetch: string -> Response): (r: Result<seq<SearchResult>, string>)
    ensures var url := BaseUrl + "/search.json?q=" + encode(query) + "&limit=20" + Fields;
      && (r.Failure? <==> !fetch(url).ok)
      && (r.Failure? ==> r.error == ApiError(fetch(url).status))
      && (r.Success? ==> |r.value| == |fetch(url).docs|)
      && (r.Success? ==> forall i :: 0 <= i < |r.value| ==> r.value[i] == MapWork(fetch(url).docs[i]))
  {
    assert NatToString(DefaultLimit) == "20" by {
      assert NatToString(DefaultLimit) == NatToString(2) + [DigitChar(0)];
      assert NatToString(2) == [DigitChar(2)];
    }
    assert SearchUrl(query, encode, DefaultLimit) == BaseUrl + "/search.json?q=" + encode(query) + "&limit=20" + Fields;
    SearchBooks(query, encode, fetch, DefaultLimit)
  }

  /** `searchByISBN`: the error for a failed request, nothing when no
      document came back, else the mapping of the first one. */
  function SearchByIsbn(isbn: string, fetch: string -> Response): (r: Result<Option<SearchResult>, string>)
    ensures !fetch(IsbnUrl(isbn)).ok <==> r.Failure?
    ensures r.Failure? ==> r.error == ApiError(fetch(IsbnUrl(isbn)).status)
    ensures r.Success? ==> (r.value.None? <==> fetch(IsbnUrl(isbn)).docs == [])
    ensures r.Success? && r.value.Some? ==> r.value.value == MapWork(fetch(IsbnUrl(isbn)).docs[0])
  {
    var response := fetch(IsbnUrl(isbn));
    if !response.ok then Failure(ApiError(response.status))
    else if |response.docs| == 0 then Success(None)
    else Success(Some(MapWork(response.docs[0])))
  }

  /** Hyphens and white space in an ISBN do not matter: an ISBN and its
      spelling with separators inserted between any two parts ask the same
      question and get the same answer. */
  lemma SeparatorsIgnored(a: string, b: string, sep: string, fetch: string -> Response)
    requires forall i :: 0 <= i < |sep| ==> Separates(sep[i])
    ensures SearchByIsbn(a + sep + b, fetch) == SearchByIsbn(a + b, fetch)
  {
    CleanIsbnAppend(a + sep, b);
    CleanIsbnAppend(a, sep);
    CleanIsbnAppend(a, b);
    assert CleanIsbn(sep) == [] by {
      SeparatorsOnly(sep);
    }
    assert CleanIsbn(a + sep) == CleanIsbn(a);
  }

  /** A text made only of separators cleans to nothing. */
  lemma {:induction false} SeparatorsOnly(s: string)
    requires forall i :: 0 <= i < |s| ==> Separates(s[i])
    ensures CleanIsbn(s) == []
  {
    if s != [] {
      SeparatorsOnly(s[1..]);
    }
  }
}

=== FILE: rate_limit.dfy ===
/**
  The fixed-window rate limiter of the serverless functions
  (api/lib/rateLimit.ts): one entry per client key holding the number of
  requests in the current window and the time the window ends, kept in a
  map the limiter updates in place. The clock is a parameter.
 */
module RateLimit {
  import opened Common
  import opened Text
  import opened Http

  datatype Entry = Entry(count: nat, resetAt: int)

  /** Fifteen minutes, in milliseconds. */
  const WindowMs: int := 15 * 60 * 1000
  const MaxRequests: nat := 10
  /** The store is swept only when it holds more entries than this. */
  const SweepThreshold: nat := 10000
  const TooManyAttempts: string := "Too many attempts, please try again later"

  // -------------------------------------------------------------- client key

  /** `getClientIP`: the first comma-separated entry of X-Forwarded-For,
      trimmed; without that header X-Real-IP, or "unknown" when that is
      missing or empty. */
  function ClientKey(forwarded: Option<string>, realIp: Option<string>): (r: string)
    ensures forwarded.Some? ==> ',' !in r && Trim(r) == r
    ensures forwarded.Some? && ',' !in forwarded.value ==> r == Trim(forwarded.value)
    ensures forwarded.None? && realIp.Some? && realIp.value != "" ==> r == realIp.value
    ensures forwarded.None? && (realIp.None? || realIp.value == "") ==> r == "unknown"
  {
    if forwarded.Some? then
      var first := Split(forwarded.value, ',')[0];
      assert ',' !in forwarded.value ==> first == forwarded.value by {
        if ',' !in forwarded.value {
          SplitWithoutSeparator(forwarded.value, ',');
        }
      }
      TrimIdempotent(first);
      Trim(first)
    else if realIp.Some? && realIp.value != "" then realIp.value
    else "unknown"
  }

  /** The text before the first separator is the first piece. */
  lemma FirstPiece(a: string, rest: string, sep: char)
    requires sep !in a
    ensures Split(a + [sep] + rest, sep)[0] == a
  {
    var s := a + [sep] + rest;
    assert s[..|a|] == a && s[|a|] == sep;
  }

  /** With a proxy chain `client, proxy1, ...` the key is the client entry,
      trimmed, whatever follows it and whatever X-Real-IP says. */
  lemma FirstForwardedEntryWins(client: string, rest: string, realIp: Option<string>)
    requires ',' !in client
    ensures ClientKey(Some(client + "," + rest), realIp) == Trim(client)
  {
    FirstPiece(client, rest, ',');
  }

  // ------------------------------------------------------------------ window

  /** The request starts a new window: no entry, or its window has ended. A
      request at exactly `resetAt` still belongs to the old window. */
  predicate Fresh(store: map<string, Entry>, key: string, now: int) {
    key !in store || now > store[key].resetAt
  }

  /** The entries a sweep keeps: those whose window has not ended. */
  function Swept(store: map<string, Entry>, now: int): (r: map<string, Entry>)
    ensures forall k :: k in r <==> k in store && now <= store[k].resetAt
    ensures forall k :: k in r ==> r[k] == store[k]
  {
    map k | k in store && now <= store[k].resetAt :: store[k]
  }

  /** The store once the sweep has run, if it runs. */
  function Cleaned(store: map<string, Entry>, now: int): map<string, Entry> {
    if |store| > SweepThreshold then Swept(store, now) else store
  }

  /** The new store and whether the request is turned away. */
  datatype Decision = Decision(store: map<string, Entry>, limited: bool)

  /** `checkRateLimit` for one key at one time. A fresh request opens a
      window of one request and passes; any other request is counted,
      whether it passes or not, and is turned away once the count exceeds
      the maximum. Besides the sweep, only the key's own entry changes, and
      the sweep removes only entries whose window has ended. */
  function Decide(store: map<string, Entry>, key: string, now: int): (d: Decision)
    ensures key in d.store
    ensures Fresh(store, key, now) ==> d.store[key] == Entry(1, now + WindowMs) && !d.limited
    ensures !Fresh(store, key, now) ==>
      && d.store[key] == Entry(store[key].count + 1, store[key].resetAt)
      && (d.limited <==> store[key].count + 1 > MaxRequests)
    ensures forall k :: k != key && k in d.store ==> k in store && d.store[k] == store[k]
    ensures forall k :: k != key && k in store && (|store| <= SweepThreshold || now <= store[k].resetAt) ==> k in d.store
  {
    var s := Cleaned(store, now);
    if key !in s || now > s[key].resetAt then Decision(s[key := Entry(1, now + WindowMs)], false)
    else
      var count := s[key].count + 1;
      Decision(s[key := Entry(count, s[key].resetAt)], count > MaxRequests)
  }

  // ------------------------------------------------------------------- class

  /** The module-level `store` map. */
  class RateLimiter {
    var store: map<string, Entry>

    constructor ()
      ensures store == map[]
    {
      store := map[];
    }

    /** The cleaning loop: every entry whose window has ended is deleted. */
    method Sweep(now: int)
      modifies this
      ensures store == Swept(old(store), now)
    {
      ghost var s0 := store;
      var keys := store.Keys;
      while keys != {}
        invariant keys <= s0.Keys
        invariant forall k :: k in store <==> k in s0 && (k in keys || now <= s0[k].resetAt)
        invariant forall k :: k in store ==> store[k] == s0[k]
        decreases |keys|
      {
        var k :| k in keys;
        if now > store[k].resetAt {
          store := store - {k};
        }
        keys := keys - {k};
      }
      assert store == Swept(s0, now);
    }

    /** `checkRateLimit`: true, with the 429 reply, when the request is
        turned away. */
    method CheckRateLimit(forwarded: Option<string>, realIp: Option<string>, now: int) returns (limited: bool, reply: Option<Reply<()>>)
      modifies this
      ensures store == Decide(old(store), ClientKey(forwarded, realIp), now).store
      ensures limited == Decide(old(store), ClientKey(forwarded, realIp), now).limited
      ensures limited ==> reply == Some(Failed(TooManyRequests, TooManyAttempts))
      ensures !limited ==> reply == None
    {
      var key := ClientKey(forwarded, realIp);
      limited := Count(key, now);
      reply := if limited then Some(Failed(TooManyRequests, TooManyAttempts)) else None;
    }

    /** The sweep, then the update of the key's entry. */
    method Count(key: string, now: int) returns (limited: bool)
      modifies this
      ensures store == Decide(old(store), key, now).store
      ensures limited == Decide(old(store), key, now).limited
    {
      if |store| > SweepThreshold {
        Sweep(now);
      }
      if key !in store || now > store[key].resetAt {
        store := store[key := Entry(1, now + WindowMs)];
        return false;
      }
      var entry := store[key];
      store := store[key := Entry(entry.count + 1, entry.resetAt)];
      limited := entry.count + 1 > MaxRequests;
    }
  }

  // ---------------------------------------------------------------- windows

  /** A run of requests from one key: the store afterwards and, per request,
      whether it was turned away. */
  function Run(store: map<string, Entry>, key: string, times: seq<int>): (r: (map<string, Entry>, seq<bool>))
    ensures |r.1| == |times|
    decreases |times|
  {
    if times == [] then (store, [])
    else
      var d := Decide(store, key, times[0]);
      var rest := Run(d.store, key, times[1..]);
      (rest.0, [d.limited] + rest.1)
  }

  /** Inside an open window every request adds one to the count, and the
      i-th of them is turned away exactly when the count then exceeds the
      maximum. */
  lemma {:induction false} CountsWithinWindow(store: map<string, Entry>, key: string, times: seq<int>)
    requires key in store
    requires forall i :: 0 <= i < |times| ==> times[i] <= store[key].resetAt
    ensures var r := Run(store, key, times);
      && key in r.0 && r.0[key] == Entry(store[key].count + |times|, store[key].resetAt)
      && forall i :: 0 <= i < |times| ==> (r.1[i] <==> store[key].count + i + 1 > MaxRequests)
  {
    if times != [] {
      var d := Decide(store, key, times[0]);
      CountsWithinWindow(d.store, key, times[1..]);
      var r := Run(store, key, times);
      var rest := Run(d.store, key, times[1..]);
      assert r.1 == [d.limited] + rest.1;
      forall i | 1 <= i < |times|
        ensures r.1[i] <==> store[key].count + i + 1 > MaxRequests
      {
        assert r.1[i] == rest.1[i - 1];
      }
    }
  }

  /** A window admits exactly its first ten requests: when a request opens
      a window and the following ones arrive before it ends, the i-th is
      turned away exactly when i >= 10. */
  lemma AtMostMaxPerWindow(store: map<string, Entry>, key: string, times: seq<int>)
    requires |times| >= 1 && Fresh(store, key, times[0])
    requires forall i :: 1 <= i < |times| ==> times[i] <= times[0] + WindowMs
    ensures forall i :: 0 <= i < |times| ==> (Run(store, key, times).1[i] <==> i >= MaxRequests)
  {
    var d := Decide(store, key, times[0]);
    var r := Run(store, key, times);
    var rest := Run(d.store, key, times[1..]);
    CountsWithinWindow(d.store, key, times[1..]);
    assert r.1 == [d.limited] + rest.1;
    forall i | 1 <= i < |times|
      ensures r.1[i] <==> i >= MaxRequests
    {
      assert r.1[i] == rest.1[i - 1];
    }
  }
}

=== FILE: rows.dfy ===
/**
  The row-reading helpers of server/src/config/db.ts (`getOne`, `getAll`)
  and the `ORDER BY` both databases apply to a result.
 */
module Rows {
  import opened Common

  /** The object built by assigning each column name its value in turn: a
      name that occurs twice ends up with its last value. */
  function RowOf<V>(columns: seq<string>, values: seq<V>): (row: map<string, V>)
    requires |values| == |columns|
    ensures forall c :: c in row <==> c in columns
  {
    if columns == [] then map[]
    else
      var n := |columns| - 1;
      var prev := RowOf(columns[..n], values[..n]);
      assert columns == columns[..n] + [columns[n]];
      prev[columns[n] := values[n]]
  }

  /** One more column on the right overrides what the prefix assigned. */
  lemma RowOfSnoc<V>(columns: seq<string>, values: seq<V>, i: int)
    requires |values| == |columns| && 0 <= i < |columns|
    ensures RowOf(columns[..i + 1], values[..i + 1]) == RowOf(columns[..i], values[..i])[columns[i] := values[i]]
  {
    assert columns[..i + 1][..i] == columns[..i];
    assert values[..i + 1][..i] == values[..i];
  }

  /** A column that does not occur again later keeps its own value. */
  lemma {:induction false} RowOfLastWins<V>(columns: seq<string>, values: seq<V>, i: int)
    requires |values| == |columns| && 0 <= i < |columns| && columns[i] !in columns[i + 1..]
    ensures columns[i] in RowOf(columns, values) && RowOf(columns, values)[columns[i]] == values[i]
  {
    var n := |columns| - 1;
    if i < n {
      assert columns[n] == columns[i + 1..][n - i - 1];
      assert columns[..n][i + 1..] == columns[i + 1..n];
      assert columns[..n][i] == columns[i] && values[..n][i] == values[i];
      RowOfLastWins(columns[..n], values[..n], i);
    }
  }

  /** `getAll`: steps the cursor to its end, turning every row into an object
      in the order the cursor returns them. */
  method GetAll<V>(columns: seq<string>, cursor: seq<seq<V>>) returns (results: seq<map<string, V>>)
    requires forall k :: 0 <= k < |cursor| ==> |cursor[k]| == |columns|
    ensures |results| == |cursor|
    ensures forall k :: 0 <= k < |cursor| ==> results[k] == RowOf(columns, cursor[k])
  {
    results := [];
    var i := 0;
    while i < |cursor|
      invariant 0 <= i <= |cursor|
      invariant |results| == i
      invariant forall k :: 0 <= k < i ==> results[k] == RowOf(columns, cursor[k])
    {
      results := results + [RowOf(columns, cursor[i])];
      i := i + 1;
    }
  }

  /** `getOne`: the first row as an object, or nothing when the cursor is empty. */
  function GetOne<V>(columns: seq<string>, cursor: seq<seq<V>>): (r: Option<map<string, V>>)
    requires forall k :: 0 <= k < |cursor| ==> |cursor[k]| == |columns|
    ensures r.None? <==> cursor == []
    ensures r.Some? ==> r.value == RowOf(columns, cursor[0])
  {
    if cursor == [] then None else Some(RowOf(columns, cursor[0]))
  }

  /** `leq` is a total preorder on the keys of `keys`. */
  ghost predicate TotalOn<I, K>(keys: map<I, K>, leq: (K, K) -> bool) {
    && (forall a, b :: a in keys && b in keys ==> leq(keys[a], keys[b]) || leq(keys[b], keys[a]))
    && (forall a, b, c {:trigger leq(keys[a], keys[b]), leq(keys[b], keys[c])} :: a in keys && b in keys && c in keys && leq(keys[a], keys[b]) && leq(keys[b], keys[c]) ==> leq(keys[a], keys[c]))
  }

  /** `ids` lists every row of `keys` exactly once, each key `leq` the later ones. */
  ghost predicate OrderedBy<I, K>(ids: seq<I>, keys: map<I, K>, leq: (K, K) -> bool) {
    && (forall i :: 0 <= i < |ids| ==> ids[i] in keys)
    && (forall id :: id in keys ==> id in ids)
    && (forall i, j :: 0 <= i < j < |ids| ==> ids[i] != ids[j])
    && (forall i, j :: 0 <= i < j < |ids| ==> leq(keys[ids[i]], keys[ids[j]]))
  }

  /** A row of `rest` whose key is `leq` that of every other row of `rest`. */
  method Least<I, K>(rest: set<I>, keys: map<I, K>, leq: (K, K) -> bool) returns (m: I)
    requires rest != {} && rest <= keys.Keys && TotalOn(keys, leq)
    ensures m in rest && forall r :: r in rest ==> leq(keys[m], keys[r])
  {
    m :| m in rest;
    var scan := rest - {m};
    while scan != {}
      invariant scan <= rest && m in rest
      invariant forall r :: r in rest - scan ==> leq(keys[m], keys[r])
      decreases |scan|
    {
      var x :| x in scan;
      if !leq(keys[m], keys[x]) {
        m := x;
      }
      scan := scan - {x};
    }
  }

  /** `ids` is an ordered, repetition-free prefix of the rows of `keys`, and
      `rest` holds the rows still to come, none of them ordered before a row
      already placed. */
  ghost predicate Placed<I, K>(ids: seq<I>, rest: set<I>, keys: map<I, K>, leq: (K, K) -> bool) {
    && rest <= keys.Keys
    && (forall i :: 0 <= i < |ids| ==> ids[i] in keys && ids[i] !in rest)
    && (forall id :: id in keys ==> id in ids || id in rest)
    && (forall i, j :: 0 <= i < j < |ids| ==> ids[i] != ids[j])
    && (forall i, j :: 0 <= i < j < |ids| ==> leq(keys[ids[i]], keys[ids[j]]))
    && (forall i, r :: 0 <= i < |ids| && r in rest ==> leq(keys[ids[i]], keys[r]))
  }

  /** Moving a least row of `rest` to the end of `ids` keeps them placed. */
  lemma AppendLeast<I, K>(ids: seq<I>, rest: set<I>, m: I, keys: map<I, K>, leq: (K, K) -> bool)
    requires Placed(ids, rest, keys, leq)
    requires m in rest && forall r :: r in rest ==> leq(keys[m], keys[r])
    ensures Placed(ids + [m], rest - {m}, keys, leq)
  {
    var ids' := ids + [m];
    forall i, j | 0 <= i < j < |ids'|
      ensures ids'[i] != ids'[j] && leq(keys[ids'[i]], keys[ids'[j]])
    {
      if j == |ids| {
        assert ids'[j] == m && ids'[i] == ids[i];
      } else {
        assert ids'[i] == ids[i] && ids'[j] == ids[j];
      }
    }
    forall id | id in keys
      ensures id in ids' || id in rest - {m}
    {
      if id == m { assert ids'[|ids|] == m; }
      else if id in ids { var k :| 0 <= k < |ids| && ids[k] == id; assert ids'[k] == id; }
    }
  }

  /** `ORDER BY`: the rows of `keys` in `leq` order; rows whose keys are equal
      come in an order the database chooses. */
  method OrderBy<I, K>(keys: map<I, K>, leq: (K, K) -> bool) returns (ids: seq<I>)
    requires TotalOn(keys, leq)
    ensures OrderedBy(ids, keys, leq)
  {
    ids := [];
    var rest := keys.Keys;
    while rest != {}
      invariant Placed(ids, rest, keys, leq)
      decreases |rest|
    {
      var m := Least(rest, keys, leq);
      AppendLeast(ids, rest, m, keys, leq);
      ids := ids + [m];
      rest := rest - {m};
    }
  }
}

=== FILE: schema.dfy ===
/**
  The relational schema `initDatabase` creates (server/src/config/db.ts):
  the rows of users, books, tags and book_tags, the defaults, and the keys,
  uniqueness constraints and cascading foreign keys as predicates over the
  tables.
 */
module Schema {
  import opened Common
  import opened Json

  /** An INTEGER PRIMARY KEY AUTOINCREMENT value. */
  type Id = int

  datatype User = User(email: string, passwordHash: string)

  datatype Book = Book(
    userId: Id,
    openLibraryKey: Option<string>,
    title: string,
    authors: Option<JsonColumn>,
    publicationYear: Option<int>,
    isbn13: Option<string>,
    genres: Option<JsonColumn>,
    coverUrl: Option<string>,
    status: string,
    rating: Option<int>,
    notes: Option<string>,
    addedAt: int)

  datatype Tag = Tag(userId: Id, name: string, color: string)

  /** A book_tags row. Its primary key is the whole pair, so the table is a set. */
  datatype Link = Link(book: Id, tag: Id)

  /** The four tables and the next value of each AUTOINCREMENT counter. */
  datatype Tables = Tables(
    users: map<Id, User>,
    books: map<Id, Book>,
    tags: map<Id, Tag>,
    links: set<Link>,
    nextUser: Id,
    nextBook: Id,
    nextTag: Id)

  /** The column defaults of books.status and tags.color. */
  const DefaultStatus: string := "unread"
  const DefaultColor: string := "#6366f1"

  /** The reading states the server's validators accept. */
  const Statuses: set<string> := {"unread", "in_progress", "completed"}

  const EmptyTables: Tables := Tables(map[], map[], map[], {}, 1, 1, 1)

  /** AUTOINCREMENT never hands out an id twice: every id in use is below the counter. */
  ghost predicate IdsIssued(t: Tables) {
    && (forall id :: id in t.users ==> id < t.nextUser)
    && (forall id :: id in t.books ==> id < t.nextBook)
    && (forall id :: id in t.tags ==> id < t.nextTag)
  }

  /** users.email is UNIQUE. */
  ghost predicate EmailsUnique(t: Tables) {
    forall a, b :: a in t.users && b in t.users && t.users[a].email == t.users[b].email ==> a == b
  }

  /** books.user_id and tags.user_id reference users(id). */
  ghost predicate OwnersExist(t: Tables) {
    && (forall id :: id in t.books ==> t.books[id].userId in t.users)
    && (forall id :: id in t.tags ==> t.tags[id].userId in t.users)
  }

  /** UNIQUE(user_id, name) on tags: a user never has two tags with one name. */
  ghost predicate TagNamesUnique(t: Tables) {
    forall a, b :: a in t.tags && b in t.tags && t.tags[a].userId == t.tags[b].userId && t.tags[a].name == t.tags[b].name ==> a == b
  }

  /** book_tags.book_id and book_tags.tag_id reference books(id) and tags(id). */
  ghost predicate LinksResolve(t: Tables) {
    forall l :: l in t.links ==> l.book in t.books && l.tag in t.tags
  }

  /** Everything the schema itself enforces. */
  ghost predicate Wellformed(t: Tables) {
    IdsIssued(t) && EmailsUnique(t) && OwnersExist(t) && TagNamesUnique(t) && LinksResolve(t)
  }

  /** What the schema does not enforce but the server's handlers keep: a
      link joins a book and a tag of the same owner. */
  ghost predicate OwnersAgree(t: Tables) {
    forall l :: l in t.links && l.book in t.books && l.tag in t.tags ==> t.books[l.book].userId == t.tags[l.tag].userId
  }

  /** The store as the server keeps it. */
  ghost predicate Consistent(t: Tables) {
    Wellformed(t) && OwnersAgree(t)
  }

  /** A tag of `owner` is called `name`. */
  predicate NameTaken(t: Tables, owner: Id, name: string) {
    exists id :: id in t.tags && t.tags[id].userId == owner && t.tags[id].name == name
  }

  /** A tag of `owner` other than `except` is called `name`. */
  predicate NameTakenByOther(t: Tables, owner: Id, name: string, except: Id) {
    exists id :: id in t.tags && id != except && t.tags[id].userId == owner && t.tags[id].name == name
  }

  /** A user is registered under `email`. */
  predicate EmailTaken(t: Tables, email: string) {
    exists id :: id in t.users && t.users[id].email == email
  }

  /** The book `id` exists and belongs to `owner`. */
  predicate OwnsBook(t: Tables, owner: Id, id: Id) {
    id in t.books && t.books[id].userId == owner
  }

  /** The tag `id` exists and belongs to `owner`. */
  predicate OwnsTag(t: Tables, owner: Id, id: Id) {
    id in t.tags && t.tags[id].userId == owner
  }

  /** Inserting a user row under the next id. */
  function WithUser(t: Tables, u: User): (r: Tables)
    requires Wellformed(t) && !EmailTaken(t, u.email)
    ensures Wellformed(r) && (OwnersAgree(t) ==> OwnersAgree(r))
    ensures t.nextUser !in t.users
    ensures r == t.(users := t.users[t.nextUser := u], nextUser := t.nextUser + 1)
  {
    t.(users := t.users[t.nextUser := u], nextUser := t.nextUser + 1)
  }

  /** Inserting a book row under the next id. */
  function WithBook(t: Tables, b: Book): (r: Tables)
    requires Wellformed(t) && b.userId in t.users
    ensures Wellformed(r) && (OwnersAgree(t) ==> OwnersAgree(r))
    ensures t.nextBook !in t.books
    ensures r == t.(books := t.books[t.nextBook := b], nextBook := t.nextBook + 1)
  {
    t.(books := t.books[t.nextBook := b], nextBook := t.nextBook + 1)
  }

  /** Rewriting the book row `id`. */
  function ReplacedBook(t: Tables, id: Id, b: Book): (r: Tables)
    requires Wellformed(t) && id in t.books && b.userId in t.users
    ensures Wellformed(r)
    ensures OwnersAgree(t) && b.userId == t.books[id].userId ==> OwnersAgree(r)
    ensures r == t.(books := t.books[id := b])
  {
    t.(books := t.books[id := b])
  }

  /** Inserting a book_tags row. */
  function WithLink(t: Tables, l: Link): (r: Tables)
    requires Wellformed(t) && l.book in t.books && l.tag in t.tags
    ensures Wellformed(r)
    ensures OwnersAgree(t) && t.books[l.book].userId == t.tags[l.tag].userId ==> OwnersAgree(r)
    ensures r == t.(links := t.links + {l})
  {
    t.(links := t.links + {l})
  }

  /** Deleting the book_tags rows of book `id`. */
  function WithoutLinksOf(t: Tables, id: Id): (r: Tables)
    requires Wellformed(t)
    ensures Wellformed(r) && (OwnersAgree(t) ==> OwnersAgree(r))
    ensures r == t.(links := set l | l in t.links && l.book != id)
    ensures (forall l :: l in t.links ==> l.book != id) ==> r == t
  {
    t.(links := set l | l in t.links && l.book != id)
  }

  /** Inserting a tag row under the next id. */
  function WithTag(t: Tables, g: Tag): (r: Tables)
    requires Wellformed(t) && g.userId in t.users && !NameTaken(t, g.userId, g.name)
    ensures Wellformed(r) && (OwnersAgree(t) ==> OwnersAgree(r))
    ensures t.nextTag !in t.tags
    ensures r == t.(tags := t.tags[t.nextTag := g], nextTag := t.nextTag + 1)
  {
    t.(tags := t.tags[t.nextTag := g], nextTag := t.nextTag + 1)
  }

  /** Rewriting the tag row `id`. */
  function ReplacedTag(t: Tables, id: Id, g: Tag): (r: Tables)
    requires Wellformed(t) && id in t.tags && g.userId in t.users && !NameTakenByOther(t, g.userId, g.name, id)
    ensures Wellformed(r)
    ensures OwnersAgree(t) && g.userId == t.tags[id].userId ==> OwnersAgree(r)
    ensures r == t.(tags := t.tags[id := g])
  {
    t.(tags := t.tags[id := g])
  }

  /** A tag's own name is not taken by any other tag of its owner. */
  lemma OwnNameFree(t: Tables, id: Id)
    requires Wellformed(t) && id in t.tags
    ensures !NameTakenByOther(t, t.tags[id].userId, t.tags[id].name, id)
  {
    assert TagNamesUnique(t);
  }

  /** Deleting a book row: ON DELETE CASCADE removes its book_tags rows. */
  function WithoutBook(t: Tables, id: Id): (r: Tables)
    requires Wellformed(t)
    ensures Wellformed(r) && (OwnersAgree(t) ==> OwnersAgree(r))
    ensures id !in r.books && r.books == t.books - {id}
    ensures forall l :: l in r.links <==> l in t.links && l.book != id
    ensures r.users == t.users && r.tags == t.tags
  {
    t.(books := t.books - {id}, links := set l | l in t.links && l.book != id)
  }

  /** Deleting a tag row: ON DELETE CASCADE removes its book_tags rows. */
  function WithoutTag(t: Tables, id: Id): (r: Tables)
    requires Wellformed(t)
    ensures Wellformed(r) && (OwnersAgree(t) ==> OwnersAgree(r))
    ensures id !in r.tags && r.tags == t.tags - {id}
    ensures forall l :: l in r.links <==> l in t.links && l.tag != id
    ensures r.users == t.users && r.books == t.books
  {
    t.(tags := t.tags - {id}, links := set l | l in t.links && l.tag != id)
  }

  /** Deleting a tag row on a connection where `foreign_keys` is off, as the
      server's connection is once `saveDatabase` has reopened it: the row
      goes, and its book_tags rows stay behind, pointing at nothing. */
  function WithoutTagNoCascade(t: Tables, id: Id): (r: Tables)
    ensures id !in r.tags && r.tags == t.tags - {id}
    ensures id in t.tags && (exists l :: l in t.links && l.tag == id) ==> !LinksResolve(r)
    ensures r.links == t.links && r.users == t.users && r.books == t.books
  {
    t.(tags := t.tags - {id})
  }

  /** Deleting a user row: ON DELETE CASCADE removes the user's books and
      tags, and through them every book_tags row that names one of them. */
  function WithoutUser(t: Tables, uid: Id): (r: Tables)
    requires Wellformed(t)
    ensures Wellformed(r) && (OwnersAgree(t) ==> OwnersAgree(r))
    ensures r.users == t.users - {uid}
    ensures forall id :: id in r.books <==> id in t.books && t.books[id].userId != uid
    ensures forall id :: id in r.tags <==> id in t.tags && t.tags[id].userId != uid
    ensures forall l :: l in r.links <==> l in t.links && l.book in r.books && l.tag in r.tags
  {
    var books := map id | id in t.books && t.books[id].userId != uid :: t.books[id];
    var tags := map id | id in t.tags && t.tags[id].userId != uid :: t.tags[id];
    t.(users := t.users - {uid}, books := books, tags := tags,
       links := set l | l in t.links && l.book in books && l.tag in tags)
  }

  /** One row of `SELECT t.id, t.name, t.color FROM tags t JOIN book_tags bt ...`. */
  datatype TagView = TagView(id: Id, name: string, color: string)

  /** The tags joined to a book through book_tags. */
  function LinkedTags(t: Tables, book: Id): (r: set<TagView>)
    ensures forall v :: v in r <==> Link(book, v.id) in t.links && v.id in t.tags && v.name == t.tags[v.id].name && v.color == t.tags[v.id].color
  {
    set l | l in t.links && l.book == book && l.tag in t.tags :: TagView(l.tag, t.tags[l.tag].name, t.tags[l.tag].color)
  }

  /** A full tags row, as `SELECT *` returns it. */
  datatype TagRecord = TagRecord(id: Id, userId: Id, name: string, color: string)

  function RecordOf(t: Tables, id: Id): TagRecord
    requires id in t.tags
  {
    TagRecord(id, t.tags[id].userId, t.tags[id].name, t.tags[id].color)
  }
}

=== FILE: serverless_accounts.dfy ===
/**
  The serverless account handlers (api/auth/register.ts, api/auth/login.ts).
  They check the body by hand instead of with validation chains, do not
  normalise the email, sign tokens with the secret that falls back to a
  literal in every environment, and write the session cookie as a
  Set-Cookie header.
 */
module ServerlessAccounts {
  import opened Common
  import opened Text
  import opened Json
  import opened Schema
  import opened Engine
  import opened Http
  import opened Validate
  import opened Credentials
  import opened Session
  import ServerlessAuth
  import AuthRoutes

  /** The tables afterwards, the reply and the Set-Cookie header, if any. */
  datatype AccountStep = AccountStep(after: Tables, reply: Reply<AuthRoutes.Account>, setCookie: Option<string>)

  const CredentialsRequired: string := "Email and password required"

  /** `password.length < 8`: UTF-16 units of a text, elements of an array;
      any other value has no length, and the comparison is false. */
  predicate ShortPassword(v: Json) {
    match v
    case JStr(s) => Utf16Length(s) < 8
    case JArr(items) => |items| < 8
    case _ => false
  }

  /** The email as the driver sends it. */
  function EmailText(body: map<string, Json>): string {
    ToText(Field(body, "email"))
  }

  /** The Set-Cookie header of a new session, as `setCookie` writes it:
      the token under `auth_token`, with the cookie options' Max-Age of
      604800000, the token's lifetime in milliseconds where the header
      wants seconds. */
  function SessionHeader(env: Env, token: string): (r: string)
    ensures ServerlessAuth.SessionCookie + "=" + token + ";" <= r
    ensures r == ServerlessAuth.SetCookieText(CookieOptionsOf(env), ServerlessAuth.SessionCookie, token, 1000 * TokenLifetime)
  {
    ServerlessAuth.SetCookieAsWritten(env, ServerlessAuth.SessionCookie, token)
  }

  // --------------------------------------------------------------- register

  /** `POST /api/auth/register`: 405 for any other method, 400 for a falsy
      email or password or a short password, 400 for a registered email,
      500 for a password bcrypt refuses; otherwise the user is stored with
      the hash of the password, signed in, and answered with 201. Only the
      last case changes the tables. */
  function RegisterSpec(p: Primitives, env: Env, t: Tables, httpMethod: string, body: map<string, Json>): (s: AccountStep)
    requires Wellformed(t)
    ensures Wellformed(s.after) && (OwnersAgree(t) ==> OwnersAgree(s.after))
    ensures httpMethod != Post ==> s == AccountStep(t, Failed(MethodNotAllowed, MethodNotAllowedMessage), None)
    ensures httpMethod == Post && !(Truthy(Field(body, "email")) && Truthy(Field(body, "password"))) ==>
      s == AccountStep(t, Failed(BadRequest, CredentialsRequired), None)
    ensures httpMethod == Post && Truthy(Field(body, "email")) && Truthy(Field(body, "password")) && ShortPassword(Field(body, "password")) ==>
      s == AccountStep(t, Failed(BadRequest, AuthRoutes.PasswordMessage), None)
    ensures (httpMethod == Post && Truthy(Field(body, "email")) && Truthy(Field(body, "password"))
      && !ShortPassword(Field(body, "password")) && EmailTaken(t, EmailText(body))) ==>
      s == AccountStep(t, Failed(BadRequest, AuthRoutes.EmailRegistered), None)
    ensures (httpMethod == Post && Truthy(Field(body, "email")) && Truthy(Field(body, "password"))
      && !ShortPassword(Field(body, "password")) && !EmailTaken(t, EmailText(body)) && !Field(body, "password").JStr?) ==>
      s == AccountStep(t, Failed(ServerError, AuthRoutes.RegistrationFailed), None)
    ensures s.after != t <==> s.reply.status == Created
    ensures s.reply.status == Created <==>
      && httpMethod == Post && Truthy(Field(body, "email")) && Field(body, "password").JStr?
      && !ShortPassword(Field(body, "password")) && !EmailTaken(t, EmailText(body))
    ensures s.reply.status == Created ==>
      var id := t.nextUser;
      && id !in t.users
      && s.after == t.(users := t.users[id := User(EmailText(body), p.hash(Field(body, "password").s))], nextUser := id + 1)
      && s.reply == Reply(Created, Ok(AuthRoutes.Account(id, EmailText(body))))
      && s.setCookie == Some(SessionHeader(env, ServerlessAuth.GenerateToken(p, env, id, EmailText(body))))
  {
    var email := Field(body, "email");
    var password := Field(body, "password");
    if httpMethod != Post then AccountStep(t, Failed(MethodNotAllowed, MethodNotAllowedMessage), None)
    else if !Truthy(email) || !Truthy(password) then AccountStep(t, Failed(BadRequest, CredentialsRequired), None)
    else if ShortPassword(password) then AccountStep(t, Failed(BadRequest, AuthRoutes.PasswordMessage), None)
    else if EmailTaken(t, EmailText(body)) then AccountStep(t, Failed(BadRequest, AuthRoutes.EmailRegistered), None)
    else if !password.JStr? then AccountStep(t, Failed(ServerError, AuthRoutes.RegistrationFailed), None)
    else
      var id := t.nextUser;
      var token := ServerlessAuth.GenerateToken(p, env, id, EmailText(body));
      AccountStep(WithUser(t, User(EmailText(body), p.hash(password.s))),
                  Reply(Created, Ok(AuthRoutes.Account(id, EmailText(body)))),
                  Some(SessionHeader(env, token)))
  }

  method Register(p: Primitives, env: Env, db: Bookshelf, httpMethod: string, body: map<string, Json>)
    returns (reply: Reply<AuthRoutes.Account>, setCookie: Option<string>)
    requires db.Valid()
    modifies db
    ensures db.Valid()
    ensures db.State() == RegisterSpec(p, env, old(db.State()), httpMethod, body).after
    ensures reply == RegisterSpec(p, env, old(db.State()), httpMethod, body).reply
    ensures setCookie == RegisterSpec(p, env, old(db.State()), httpMethod, body).setCookie
  {
    if httpMethod != Post {
      return Failed(MethodNotAllowed, MethodNotAllowedMessage), None;
    }
    var email := Field(body, "email");
    var password := Field(body, "password");
    if !Truthy(email) || !Truthy(password) {
      return Failed(BadRequest, CredentialsRequired), None;
    }
    if ShortPassword(password) {
      return Failed(BadRequest, AuthRoutes.PasswordMessage), None;
    }
    var text := ToText(email);
    if exists id :: id in db.users && db.users[id].email == text {
      return Failed(BadRequest, AuthRoutes.EmailRegistered), None;
    }
    if !password.JStr? {
      return Failed(ServerError, AuthRoutes.RegistrationFailed), None;
    }
    var passwordHash := p.hash(password.s);
    ghost var t := db.State();
    var result := db.RunQuery(InsertUser(User(text, passwordHash)));
    RanUserInsert(t, User(text, passwordHash), db.State(), result);
    var id := result.value.lastInsertRowid;
    var token := ServerlessAuth.GenerateToken(p, env, id, text);
    setCookie := Some(SessionHeader(env, token));
    reply := Reply(Created, Ok(AuthRoutes.Account(id, text)));
  }

  // ------------------------------------------------------------------ login

  /** `POST /api/auth/login`: 405 for any other method, 400 for a falsy
      email or password, the same 401 for an unknown email and a wrong
      password, 500 for a password bcrypt refuses; a match is signed in and
      answered with the stored id and email. Nothing in the store changes. */
  function Login(p: Primitives, env: Env, t: Tables, httpMethod: string, body: map<string, Json>): (r: (Reply<AuthRoutes.Account>, Option<string>))
    requires Wellformed(t)
    ensures httpMethod != Post ==> r == (Failed(MethodNotAllowed, MethodNotAllowedMessage), None)
    ensures httpMethod == Post && !(Truthy(Field(body, "email")) && Truthy(Field(body, "password"))) ==>
      r == (Failed(BadRequest, CredentialsRequired), None)
    ensures httpMethod == Post && Truthy(Field(body, "email")) && Truthy(Field(body, "password")) && !EmailTaken(t, EmailText(body)) ==>
      r == (Failed(Unauthorized, AuthRoutes.InvalidCredentials), None)
    ensures (httpMethod == Post && Truthy(Field(body, "email")) && Field(body, "password").JStr? && Field(body, "password").s != ""
      && EmailTaken(t, EmailText(body))
      && !p.compare(Field(body, "password").s, t.users[AuthRoutes.UserWithEmail(t, EmailText(body)).value].passwordHash)) ==>
      r == (Failed(Unauthorized, AuthRoutes.InvalidCredentials), None)
    ensures (httpMethod == Post && Truthy(Field(body, "email")) && Truthy(Field(body, "password"))
      && EmailTaken(t, EmailText(body)) && !Field(body, "password").JStr?) ==>
      r == (Failed(ServerError, AuthRoutes.LoginFailed), None)
    ensures r.1.Some? <==> r.0.status == OK
    ensures r.0.status == OK <==>
      && httpMethod == Post && Truthy(Field(body, "email")) && Field(body, "password").JStr? && Field(body, "password").s != ""
      && EmailTaken(t, EmailText(body))
      && p.compare(Field(body, "password").s, t.users[AuthRoutes.UserWithEmail(t, EmailText(body)).value].passwordHash)
    ensures r.0.status == OK ==>
      var id := AuthRoutes.UserWithEmail(t, EmailText(body)).value;
      && r.0 == Reply(OK, Ok(AuthRoutes.Account(id, EmailText(body))))
      && r.1 == Some(SessionHeader(env, ServerlessAuth.GenerateToken(p, env, id, EmailText(body))))
  {
    var password := Field(body, "password");
    if httpMethod != Post then (Failed(MethodNotAllowed, MethodNotAllowedMessage), None)
    else if !Truthy(Field(body, "email")) || !Truthy(password) then (Failed(BadRequest, CredentialsRequired), None)
    else match AuthRoutes.UserWithEmail(t, EmailText(body))
      case None => (Failed(Unauthorized, AuthRoutes.InvalidCredentials), None)
      case Some(id) =>
        if !password.JStr? then (Failed(ServerError, AuthRoutes.LoginFailed), None)
        else if !p.compare(password.s, t.users[id].passwordHash) then (Failed(Unauthorized, AuthRoutes.InvalidCredentials), None)
        else
          var token := ServerlessAuth.GenerateToken(p, env, id, t.users[id].email);
          (Reply(OK, Ok(AuthRoutes.Account(id, t.users[id].email))), Some(SessionHeader(env, token)))
  }

  // ---------------------------------------------------------------- lemmas

  /** Someone who has just registered can log in with the same body, and is
      given the id registration reported. */
  lemma RegisteredUserCanLogIn(p: Primitives, env: Env, t: Tables, body: map<string, Json>)
    requires HashAgrees(p) && Wellformed(t)
    requires RegisterSpec(p, env, t, Post, body).reply.status == Created
    ensures Login(p, env, RegisterSpec(p, env, t, Post, body).after, Post, body).0
      == Reply(OK, Ok(AuthRoutes.Account(t.nextUser, EmailText(body))))
  {
    var after := RegisterSpec(p, env, t, Post, body).after;
    var pw := Field(body, "password").s;
    assert after.users[t.nextUser] == User(EmailText(body), p.hash(pw));
    assert AuthRoutes.UserWithEmail(after, EmailText(body)) == Some(t.nextUser) by {
      assert EmailsUnique(after);
    }
    assert p.compare(pw, p.hash(pw));
  }

  /** An email can be registered once: the same request again is refused
      with 400 and changes nothing. */
  lemma EmailRegisteredOnce(p: Primitives, env: Env, t: Tables, body: map<string, Json>)
    requires Wellformed(t)
    requires RegisterSpec(p, env, t, Post, body).reply.status == Created
    ensures var after := RegisterSpec(p, env, t, Post, body).after;
      RegisterSpec(p, env, after, Post, body) == AccountStep(after, Failed(BadRequest, AuthRoutes.EmailRegistered), None)
  {
    var after := RegisterSpec(p, env, t, Post, body).after;
    assert after.users[t.nextUser].email == EmailText(body);
  }

  /** The session a login starts gets through `withAuth`: the cookie the
      browser sends back under the Set-Cookie header admits the account the
      reply names. */
  lemma LoginSessionAdmits(p: Primitives, env: Env, t: Tables, body: map<string, Json>)
    requires TokensAgree(p) && Wellformed(t)
    requires Login(p, env, t, Post, body).0.status == OK
    ensures var id := AuthRoutes.UserWithEmail(t, EmailText(body)).value;
      var token := ServerlessAuth.GenerateToken(p, env, id, EmailText(body));
      && Login(p, env, t, Post, body).1 == Some(SessionHeader(env, token))
      && ServerlessAuth.Admission(p, env, Some(ServerlessAuth.SessionCookie + "=" + token)) == Admit(Claims(id, EmailText(body)))
  {
    var id := AuthRoutes.UserWithEmail(t, EmailText(body)).value;
    ServerlessAuth.SessionCookieAdmits(p, env, id, EmailText(body));
  }
}

=== FILE: serverless_auth.dfy ===
/**
  The serverless variant's session helpers (api/lib/auth.ts): its secret
  and token functions, the hand-written Cookie-header parser and gate of
  `withAuth`, and the hand-written Set-Cookie strings.
 */
module ServerlessAuth {
  import opened Common
  import opened Text
  import opened Rows
  import opened Http
  import opened Credentials
  import opened Session

  /** `process.env.JWT_SECRET || literal`: the literal stands in whenever the
      variable is unset or empty, production included. */
  function Secret(env: Env): (k: string)
    ensures k != ""
    ensures SecretSet(env) ==> k == env.jwtSecret.value
    ensures !SecretSet(env) ==> k == DefaultSecret
  {
    if SecretSet(env) then env.jwtSecret.value else DefaultSecret
  }

  /** The algorithms jsonwebtoken accepts by default for a text secret. */
  const DefaultAlgorithms: set<Algorithm> := {HS256, HS384, HS512}

  /** `generateToken`: `{ id, email }` signed for seven days; it never fails.
      With JWT_SECRET set, it is the very token the server issues, and a
      token can always stand as a cookie value. */
  function GenerateToken(p: Primitives, env: Env, id: int, email: string): (r: string)
    ensures SecretSet(env) ==> Credentials.GenerateToken(p, env, id, email) == Success(r)
    ensures TokensAgree(p) ==> CookieSafe(r)
  {
    p.sign(Claims(id, email), Secret(env), TokenLifetime)
  }

  /** `verifyToken`: the payload, or nothing when verification fails. Any
      token signed under this variant's secret, whatever its lifetime,
      verifies to the payload it was signed with. */
  function VerifyToken(p: Primitives, env: Env, token: string): (r: Option<Claims>)
    ensures TokensAgree(p) ==> forall c, life :: token == p.sign(c, Secret(env), life) ==> r == Some(c)
  {
    assert HS256 in DefaultAlgorithms;
    p.verify(token, Secret(env), DefaultAlgorithms)
  }

  /** A token this variant issues verifies back to its id and email, in
      every environment. */
  lemma TokenRoundTrip(p: Primitives, env: Env, id: int, email: string)
    requires TokensAgree(p)
    ensures VerifyToken(p, env, GenerateToken(p, env, id, email)) == Some(Claims(id, email))
  {
    assert HS256 in DefaultAlgorithms;
  }

  // ---------------------------------------------------------------- cookies

  /** The name of one `;`-separated piece: the text before its first `=`,
      once trimmed. */
  function PieceName(piece: string): string {
    Split(Trim(piece), '=')[0]
  }

  /** The value of one piece: the text between its first and second `=`,
      nothing when it has no `=`. */
  function PieceValue(piece: string): Option<string> {
    var parts := Split(Trim(piece), '=');
    if |parts| > 1 then Some(parts[1]) else None
  }

  function Names(pieces: seq<string>): (r: seq<string>)
    ensures |r| == |pieces| && forall i :: 0 <= i < |pieces| ==> r[i] == PieceName(pieces[i])
  {
    seq(|pieces|, i requires 0 <= i < |pieces| => PieceName(pieces[i]))
  }

  function Values(pieces: seq<string>): (r: seq<Option<string>>)
    ensures |r| == |pieces| && forall i :: 0 <= i < |pieces| ==> r[i] == PieceValue(pieces[i])
  {
    seq(|pieces|, i requires 0 <= i < |pieces| => PieceValue(pieces[i]))
  }

  /** The `cookies` record `withAuth` builds: each piece of a non-empty
      header assigns its value to its name in turn, so a later repeat of a
      name wins; an absent or empty header gives no cookies. */
  function CookiesOf(header: Option<string>): (m: map<string, Option<string>>)
    ensures header.None? || header.value == "" ==> m == map[]
  {
    if header.Some? && header.value != "" then
      var pieces := Split(header.value, ';');
      RowOf(Names(pieces), Values(pieces))
    else map[]
  }

  /** A piece whose name does not come again later sets that cookie. */
  lemma LastPieceWins(pieces: seq<string>, i: int)
    requires 0 <= i < |pieces|
    requires forall j :: i < j < |pieces| ==> PieceName(pieces[j]) != PieceName(pieces[i])
    ensures PieceName(pieces[i]) in RowOf(Names(pieces), Values(pieces))
    ensures RowOf(Names(pieces), Values(pieces))[PieceName(pieces[i])] == PieceValue(pieces[i])
  {
    var names := Names(pieces);
    assert names[i] !in names[i + 1..] by {
      forall j | i < j < |names|
        ensures names[j] != names[i]
      {
        assert names[j] == PieceName(pieces[j]);
      }
    }
    RowOfLastWins(names, Values(pieces), i);
  }

  /** The parsing loop of `withAuth`: `cookieHeader.split(';').forEach(...)`. */
  method ParseCookies(header: Option<string>) returns (cookies: map<string, Option<string>>)
    ensures cookies == CookiesOf(header)
  {
    cookies := map[];
    if header.Some? && header.value != "" {
      cookies := AssignPieces(Split(header.value, ';'));
    }
  }

  /** The body of that loop, piece by piece: each assigns its value to its
      name, overriding an earlier piece of the same name. */
  method AssignPieces(pieces: seq<string>) returns (cookies: map<string, Option<string>>)
    ensures cookies == RowOf(Names(pieces), Values(pieces))
  {
    cookies := map[];
    ghost var names := Names(pieces);
    ghost var values := Values(pieces);
    var i := 0;
    while i < |pieces|
      invariant 0 <= i <= |pieces|
      invariant cookies == RowOf(names[..i], values[..i])
    {
      var name := PieceName(pieces[i]);
      var value := PieceValue(pieces[i]);
      RowOfSnoc(names, values, i);
      cookies := cookies[name := value];
      i := i + 1;
    }
    assert names[..i] == names && values[..i] == values;
  }

  /** The name of the session cookie. */
  const SessionCookie: string := "auth_token"

  /** `cookies.auth_token`: nothing when no piece is called `auth_token` or
      when that piece has no `=`. */
  function TokenOf(cookies: map<string, Option<string>>): Option<string> {
    if SessionCookie in cookies then cookies[SessionCookie] else None
  }

  /** The decision `withAuth` takes for a Cookie header: no header is
      refused as unauthenticated, and a request is admitted only with an
      `auth_token` cookie whose value verifies, as the user it names. */
  function Admission(p: Primitives, env: Env, header: Option<string>): (g: Gate)
    ensures header.None? ==> g == Deny(AuthenticationRequired)
    ensures g.Admit? ==>
      && SessionCookie in CookiesOf(header) && CookiesOf(header)[SessionCookie].Some?
      && VerifyToken(p, env, CookiesOf(header)[SessionCookie].value) == Some(g.user)
  {
    Decide(TokenOf(CookiesOf(header)), t => VerifyToken(p, env, t))
  }

  /** `withAuth`: a 401 response without calling the handler, or the
      verified payload recorded as the user and the handler called once. */
  method WithAuth(p: Primitives, env: Env, header: Option<string>, ex: Exchange)
    modifies ex
    ensures match Admission(p, env, header)
      case Deny(msg) => ex.response == Some(Failed(Unauthorized, msg)) && ex.handlerCalls == old(ex.handlerCalls) && ex.user == old(ex.user)
      case Admit(c) => ex.user == Some(c) && ex.handlerCalls == old(ex.handlerCalls) + 1 && ex.response == old(ex.response)
  {
    var cookies := ParseCookies(header);
    var token := TokenOf(cookies);
    Guard(p, env, token, ex);
  }

  /** The checks `withAuth` makes on the token it found. */
  method Guard(p: Primitives, env: Env, token: Option<string>, ex: Exchange)
    modifies ex
    ensures match Decide(token, t => VerifyToken(p, env, t))
      case Deny(msg) => ex.response == Some(Failed(Unauthorized, msg)) && ex.handlerCalls == old(ex.handlerCalls) && ex.user == old(ex.user)
      case Admit(c) => ex.user == Some(c) && ex.handlerCalls == old(ex.handlerCalls) + 1 && ex.response == old(ex.response)
  {
    if token.None? || token.value == "" {
      ex.response := Some(Failed(Unauthorized, AuthenticationRequired));
      return;
    }
    var decoded := VerifyToken(p, env, token.value);
    if decoded.None? {
      ex.response := Some(Failed(Unauthorized, InvalidOrExpired));
      return;
    }
    ex.user := decoded;
    ex.handlerCalls := ex.handlerCalls + 1;
  }

  /** The piece `name=value` names `name` and carries `value`. */
  lemma PairPiece(name: string, value: string)
    requires name != [] && !IsJsWhitespace(name[0]) && '=' !in name && '=' !in value
    requires value == [] || !IsJsWhitespace(value[|value| - 1])
    ensures PieceName(name + "=" + value) == name
    ensures PieceValue(name + "=" + value) == Some(value)
  {
    var h := name + "=" + value;
    assert h == name + ['='] + value;
    assert h[0] == name[0];
    assert h[|h| - 1] == if value == [] then '=' else value[|value| - 1];
    TrimKeeps(h);
    SplitPair(name, value, '=');
  }

  /** A header made of one piece sets exactly that piece's cookie. */
  lemma SinglePiece(h: string)
    requires h != "" && ';' !in h
    ensures CookiesOf(Some(h)) == map[PieceName(h) := PieceValue(h)]
  {
    SplitWithoutSeparator(h, ';');
    assert Names([h]) == [PieceName(h)];
    assert Values([h]) == [PieceValue(h)];
    assert [PieceName(h)][..0] == [];
  }

  /** A header of the single pair `name=value` sets exactly that cookie. */
  lemma SinglePair(name: string, value: string)
    requires CookieSafe(name) && CookieSafe(value)
    ensures CookiesOf(Some(name + "=" + value)) == map[name := Some(value)]
  {
    var h := name + "=" + value;
    assert ';' !in h by {
      forall k | 0 <= k < |h|
        ensures h[k] != ';'
      {
        if k < |name| { assert h[k] == name[k]; }
        else if k > |name| { assert h[k] == value[k - |name| - 1]; }
      }
    }
    PairPiece(name, value);
    SinglePiece(h);
  }

  /** The session cookie a browser sends back admits the user the token was
      issued for. */
  lemma SessionCookieAdmits(p: Primitives, env: Env, id: int, email: string)
    requires TokensAgree(p)
    ensures Admission(p, env, Some(SessionCookie + "=" + GenerateToken(p, env, id, email))) == Admit(Claims(id, email))
  {
    var token := GenerateToken(p, env, id, email);
    assert CookieSafe(token);
    assert CookieSafe(SessionCookie);
    SinglePair(SessionCookie, token);
    TokenRoundTrip(p, env, id, email);
  }

  // ------------------------------------------------------------- Set-Cookie

  /** The Set-Cookie text `setCookie` builds from the cookie options and a
      Max-Age in seconds. Only with `secure` does `Secure;` appear; without
      it two spaces separate `HttpOnly;` and `SameSite`. */
  function SetCookieText(o: CookieOptions, name: string, value: string, maxAge: nat): (r: string)
    ensures name + "=" + value + ";" <= r
  {
    name + "=" + value + "; Path=" + o.path + "; Max-Age=" + NatToString(maxAge) + "; HttpOnly; "
    + (if o.secure then "Secure;" else "") + " SameSite=" + o.sameSite
  }

  /** `setCookie` as written: Max-Age is given `cookieOptions.maxAge`, a
      number of milliseconds. */
  function SetCookieAsWritten(env: Env, name: string, value: string): (r: string)
    ensures r == SetCookieText(CookieOptionsOf(env), name, value, 1000 * TokenLifetime)
    ensures name + "=" + value + ";" <= r
  {
    SetCookieText(CookieOptionsOf(env), name, value, CookieOptionsOf(env).maxAge)
  }

  /** As written, the browser is told to keep the session cookie for
      604800000 seconds (7000 days), a thousand times the token's lifetime. */
  lemma AsWrittenMaxAgeIsMilliseconds(env: Env, name: string, value: string)
    ensures SetCookieAsWritten(env, name, value) == SetCookieText(CookieOptionsOf(env), name, value, 604800000)
    ensures 604800000 == 1000 * TokenLifetime
  {
  }

  /** `setCookie` with Max-Age in seconds, as Express's `res.cookie` writes
      the same options: the cookie lives exactly as long as the token. */
  function SetCookie(env: Env, name: string, value: string): (r: string)
    ensures r == SetCookieText(CookieOptionsOf(env), name, value, TokenLifetime)
    ensures name + "=" + value + ";" <= r
  {
    var o := CookieOptionsOf(env);
    SetCookieText(o, name, value, o.maxAge / 1000)
  }

  /** `clearCookie`: the cookie with an empty value and Max-Age 0. */
  function ClearCookie(name: string): (r: string)
    ensures name + "=;" <= r
  {
    name + "=; Path=/; Max-Age=0"
  }

  /** A session cookie emptied by `clearCookie` no longer gets past the gate. */
  lemma ClearedCookieDenies(p: Primitives, env: Env)
    ensures Admission(p, env, Some(SessionCookie + "=")) == Deny(AuthenticationRequired)
  {
    EmptyPiece(SessionCookie);
    SinglePiece(SessionCookie + "=");
  }

  /** The piece `name=` names `name` and carries the empty value. */
  lemma EmptyPiece(name: string)
    requires name != [] && !IsJsWhitespace(name[0]) && '=' !in name && ';' !in name
    ensures ';' !in name + "="
    ensures PieceName(name + "=") == name && PieceValue(name + "=") == Some("")
  {
    PairPiece(name, "");
    assert name + "=" + "" == name + "=";
  }
}

=== FILE: serverless_books.dfy ===
/**
  The serverless book collection (api/books/index.ts): the filtered listing
  with each book's tags, the insert of a new book with its tag links, and
  the dispatcher behind `withAuth`. Unlike the server's routes, nothing
  here validates the body, and the tag ids given to a new book are linked
  without asking who owns the tags.
 */
module ServerlessBooks {
  import opened Common
  import opened Text
  import opened Json
  import opened Like
  import opened Schema
  import opened Engine
  import opened Rows
  import opened Http
  import opened Credentials
  import opened Session
  import ServerlessAuth
  import BookRoutes

  /** The fields `addBook` reads from the body, typed as BookInput declares
      them; a missing field is None. */
  datatype BookInput = BookInput(
    title: Option<string>,
    authors: Option<seq<Json>>,
    openLibraryKey: Option<string>,
    publicationYear: Option<int>,
    isbn13: Option<string>,
    genres: Option<seq<Json>>,
    coverUrl: Option<string>,
    status: Option<string>,
    rating: Option<int>,
    notes: Option<string>,
    tags: Option<seq<int>>)

  /** A book as these handlers return it: the row as stored, and its tags. */
  datatype BookRecord = BookRecord(id: Id, book: Book, tags: set<TagView>)

  function BookRecordOf(t: Tables, id: Id): (r: BookRecord)
    requires id in t.books
    ensures r.id == id && r.book == t.books[id] && r.tags == LinkedTags(t, id)
  {
    BookRecord(id, t.books[id], LinkedTags(t, id))
  }

  const TitleRequired: string := "Title is required"
  const FetchFailed: string := "Failed to fetch books"
  const AddFailed: string := "Failed to add book"

  // ---------------------------------------------------------------- listing

  /** A query parameter that is present and not empty, so `if (x)` holds. */
  predicate Given(o: Option<string>) {
    o.Some? && o.value != ""
  }

  /** The range of a PostgreSQL INTEGER column; a value outside it makes
      the statement fail ("value out of range for type integer"). */
  predicate IsInt4(n: int) {
    -0x8000_0000 <= n < 0x8000_0000
  }

  /** `Number(tag)` reaches the database as an integer that `bt.tag_id`, an
      INTEGER column, can be compared with. */
  predicate TagUsable(query: BookRoutes.ListQuery) {
    Given(query.tag) ==> IsIntText(query.tag.value) && IsInt4(IntValue(query.tag.value))
  }

  /** `ILIKE '%q%'` against the title or the text of the jsonb authors
      column; a NULL authors column matches nothing. */
  predicate SearchMatches(b: Book, q: string) {
    || Matches(SearchTerm(q), b.title, EscapeOf(PostgresIlike))
    || (b.authors.Some? && Matches(SearchTerm(q), ColumnText(b.authors.value, Jsonb), EscapeOf(PostgresIlike)))
  }

  /** The WHERE clause: the caller's book, then each filter that is given.
      The status is compared as given, whatever it is. */
  predicate Selected(t: Tables, caller: Id, query: BookRoutes.ListQuery, id: Id)
    requires TagUsable(query)
  {
    && OwnsBook(t, caller, id)
    && (Given(query.status) ==> t.books[id].status == query.status.value)
    && (Given(query.tag) ==> Link(id, IntValue(query.tag.value)) in t.links)
    && (Given(query.q) ==> SearchMatches(t.books[id], query.q.value))
  }

  /** `records` holds each selected book once with its tags, newest first. */
  ghost predicate Listing(t: Tables, caller: Id, query: BookRoutes.ListQuery, records: seq<BookRecord>)
    requires TagUsable(query)
  {
    && (forall k :: 0 <= k < |records| ==> records[k].id in t.books && Selected(t, caller, query, records[k].id) && records[k] == BookRecordOf(t, records[k].id))
    && (forall id :: id in t.books && Selected(t, caller, query, id) ==> exists k :: 0 <= k < |records| && records[k].id == id)
    && (forall i, j :: 0 <= i < j < |records| ==> records[i].id != records[j].id)
    && (forall i, j :: 0 <= i < j < |records| ==> records[i].book.addedAt >= records[j].book.addedAt)
  }

  /** The per-book tag queries: each selected row with its tags, in order. */
  method WithTags(t: Tables, caller: Id, query: BookRoutes.ListQuery, ids: seq<Id>, keys: map<Id, int>, leq: (int, int) -> bool)
    returns (records: seq<BookRecord>)
    requires TagUsable(query)
    requires keys == map id | id in t.books && Selected(t, caller, query, id) :: t.books[id].addedAt
    requires OrderedBy(ids, keys, leq) && forall a, b :: leq(a, b) <==> a >= b
    ensures Listing(t, caller, query, records)
  {
    records := [];
    var i := 0;
    while i < |ids|
      invariant 0 <= i <= |ids| && |records| == i
      invariant forall k :: 0 <= k < i ==> records[k].id == ids[k] && ids[k] in keys && records[k] == BookRecordOf(t, ids[k])
    {
      records := records + [BookRecordOf(t, ids[i])];
      i := i + 1;
    }
    forall id | id in t.books && Selected(t, caller, query, id)
      ensures exists k :: 0 <= k < |records| && records[k].id == id
    {
      assert id in keys;
      var k :| 0 <= k < |ids| && ids[k] == id;
      assert records[k].id == id;
    }
    forall i, j | 0 <= i < j < |records|
      ensures records[i].book.addedAt >= records[j].book.addedAt
    {
      assert leq(keys[ids[i]], keys[ids[j]]);
    }
  }

  /** `getBooks`: a tag that is not an integer, or one outside the INTEGER
      range, makes the query fail with 500; otherwise 200 with exactly the selected books, newest first.
      There is no 400: an unknown status just selects nothing of that
      status. */
  method GetBooks(db: Bookshelf, caller: Id, query: BookRoutes.ListQuery) returns (reply: Reply<seq<BookRecord>>)
    requires db.Valid()
    ensures !TagUsable(query) ==> reply == Failed(ServerError, FetchFailed)
    ensures TagUsable(query) ==> reply.status == OK && reply.body.Ok? && Listing(db.State(), caller, query, reply.body.value)
  {
    if Given(query.tag) && !(IsIntText(query.tag.value) && IsInt4(IntValue(query.tag.value))) {
      return Failed(ServerError, FetchFailed);
    }
    var t := db.State();
    var keys := map id | id in t.books && Selected(t, caller, query, id) :: t.books[id].addedAt;
    var newestFirst := (a: int, b: int) => a >= b;
    var ids := OrderBy(keys, newestFirst);
    var records := WithTags(t, caller, query, ids, keys, newestFirst);
    reply := Reply(OK, Ok(records));
  }

  /** For a search text without `%`, `_` or `\`, the `q` filter keeps
      exactly the books whose title or authors text contains it, ignoring
      case. */
  lemma SearchIsContainment(b: Book, q: string)
    requires Plain(q, PostgresIlike)
    ensures SearchMatches(b, q) <==> ContainsFold(b.title, q) || (b.authors.Some? && ContainsFold(ColumnText(b.authors.value, Jsonb), q))
  {
    SearchTermMeansContains(q, b.title, PostgresIlike);
    if b.authors.Some? {
      SearchTermMeansContains(q, ColumnText(b.authors.value, Jsonb), PostgresIlike);
    }
  }

  // ----------------------------------------------------------------- create

  /** `!title` is false. */
  predicate TitleGiven(input: BookInput) {
    input.title.Some? && input.title.value != ""
  }

  /** `x || null` for a text column. */
  function TextOrNull(o: Option<string>): (r: Option<string>)
    ensures r.Some? <==> o.Some? && o.value != ""
    ensures r.Some? ==> r == o
  {
    if o.Some? && o.value != "" then o else None
  }

  /** `x || null` for an integer column: 0 is stored as NULL. */
  function IntOrNull(o: Option<int>): (r: Option<int>)
    ensures r.Some? <==> o.Some? && o.value != 0
    ensures r.Some? ==> r == o
  {
    if o.Some? && o.value != 0 then o else None
  }

  /** The row `addBook` inserts. */
  function NewRow(caller: Id, input: BookInput, now: int): (b: Book)
    requires TitleGiven(input)
    ensures b.userId == caller && b.title == input.title.value && b.addedAt == now
    ensures b.authors.Some? && Decode(b.authors.value) == (if input.authors.Some? then input.authors.value else [])
    ensures b.genres.Some? && Decode(b.genres.value) == (if input.genres.Some? then input.genres.value else [])
    ensures b.status == (if input.status.Some? && input.status.value != "" then input.status.value else DefaultStatus)
    ensures b.rating == IntOrNull(input.rating) && b.notes == TextOrNull(input.notes)
    ensures b.openLibraryKey == TextOrNull(input.openLibraryKey) && b.publicationYear == IntOrNull(input.publicationYear)
    ensures b.isbn13 == TextOrNull(input.isbn13) && b.coverUrl == TextOrNull(input.coverUrl)
  {
    Book(caller, TextOrNull(input.openLibraryKey), input.title.value,
         Some(Encoded(input.authors.GetOr([]))), IntOrNull(input.publicationYear), TextOrNull(input.isbn13),
         Some(Encoded(input.genres.GetOr([]))), TextOrNull(input.coverUrl),
         if input.status.Some? && input.status.value != "" then input.status.value else DefaultStatus,
         IntOrNull(input.rating), TextOrNull(input.notes), now)
  }

  /** The INTEGER columns `publication_year` and `rating` can hold what the
      body gives for them. */
  predicate IntsFit(input: BookInput) {
    && (input.publicationYear.Some? ==> IsInt4(input.publicationYear.value))
    && (input.rating.Some? ==> IsInt4(input.rating.value))
  }

  /** The ids the tag loop runs over: a non-empty `tags` array, else none. */
  function TagIds(input: BookInput): seq<int> {
    if input.tags.Some? && |input.tags.value| > 0 then input.tags.value else []
  }

  /** How many ids, from the front, name an existing tag: the loop's inserts
      succeed up to there, and the insert of the next id violates the
      foreign key. */
  function LinkablePrefix(tags: map<Id, Tag>, ids: seq<int>): (n: nat)
    ensures n <= |ids|
    ensures forall k :: 0 <= k < n ==> ids[k] in tags
    ensures n < |ids| ==> ids[n] !in tags
  {
    if ids == [] || ids[0] !in tags then 0
    else 1 + LinkablePrefix(tags, ids[1..])
  }

  function Elements(ids: seq<int>): (r: set<Id>)
    ensures forall x :: x in r <==> x in ids
  {
    set x | x in ids
  }

  /** `addBook`: a missing or empty title gives 400 and changes nothing; a
      caller whose user row is gone, or a publication year or rating outside
      the INTEGER range, gives 500 and stores nothing. Otherwise the book is stored
      and linked to the given tag ids in order, whoever owns the tags. An
      id that names no tag stops the loop with 500, and the book and the
      links made so far stay. */
  function AddBookSpec(t: Tables, caller: Id, input: BookInput, now: int): (s: Step<BookRecord>)
    requires Wellformed(t)
    ensures Wellformed(s.after)
    ensures !TitleGiven(input) ==> s == Step(t, Failed(BadRequest, TitleRequired))
    ensures TitleGiven(input) && caller !in t.users ==> s == Step(t, Failed(ServerError, AddFailed))
    ensures TitleGiven(input) && !IntsFit(input) ==> s == Step(t, Failed(ServerError, AddFailed))
    ensures TitleGiven(input) && caller in t.users && IntsFit(input) ==>
      var id := t.nextBook;
      var n := LinkablePrefix(t.tags, TagIds(input));
      && id !in t.books
      && s.after.books == t.books[id := NewRow(caller, input, now)]
      && s.after.users == t.users && s.after.tags == t.tags
      && s.after.nextBook == id + 1 && s.after.nextUser == t.nextUser && s.after.nextTag == t.nextTag
      && (forall l :: l in s.after.links <==> l in t.links || (l.book == id && l.tag in TagIds(input)[..n]))
      && (n == |TagIds(input)| ==> s.reply == Reply(Created, Ok(BookRecordOf(s.after, id))))
      && (n < |TagIds(input)| ==> s.reply == Failed(ServerError, AddFailed))
  {
    if !TitleGiven(input) then Step(t, Failed(BadRequest, TitleRequired))
    else if caller !in t.users || !IntsFit(input) then Step(t, Failed(ServerError, AddFailed))
    else
      var id := t.nextBook;
      var added := WithBook(t, NewRow(caller, input, now));
      var ids := TagIds(input);
      var n := LinkablePrefix(t.tags, ids);
      var after := BookRoutes.AddedLinks(added, id, Elements(ids[..n]));
      if n == |ids| then Step(after, Reply(Created, Ok(BookRecordOf(after, id))))
      else Step(after, Failed(ServerError, AddFailed))
  }

  method AddBook(db: Bookshelf, caller: Id, input: BookInput, now: int) returns (reply: Reply<BookRecord>)
    requires db.Valid()
    modifies db
    ensures db.Valid()
    ensures db.State() == AddBookSpec(old(db.State()), caller, input, now).after
    ensures reply == AddBookSpec(old(db.State()), caller, input, now).reply
  {
    if !TitleGiven(input) {
      return Failed(BadRequest, TitleRequired);
    }
    if !IntsFit(input) {
      // PostgreSQL refuses the INSERT, and nothing is stored.
      return Failed(ServerError, AddFailed);
    }
    ghost var t := db.State();
    var inserted := db.RunQuery(InsertBook(NewRow(caller, input, now)));
    RanBookInsert(t, NewRow(caller, input, now), db.State(), inserted);
    if inserted.Failure? {
      return Failed(ServerError, AddFailed);
    }
    var id := inserted.value.lastInsertRowid;
    var linked := LinkEach(db, id, TagIds(input));
    if !linked {
      return Failed(ServerError, AddFailed);
    }
    reply := Reply(Created, Ok(BookRecordOf(db.State(), id)));
  }

  /** The tag loop of `addBook`: `INSERT ... ON CONFLICT DO NOTHING` for
      each id in turn, until one fails. */
  method LinkEach(db: Bookshelf, book: Id, ids: seq<int>) returns (ok: bool)
    requires db.Valid() && book in db.books
    modifies db
    ensures db.Valid()
    ensures ok <==> LinkablePrefix(old(db.tags), ids) == |ids|
    ensures db.State() == BookRoutes.AddedLinks(old(db.State()), book, Elements(ids[..LinkablePrefix(old(db.tags), ids)]))
  {
    ghost var t := db.State();
    var i := 0;
    while i < |ids|
      invariant 0 <= i <= |ids| && db.Valid()
      invariant forall k :: 0 <= k < i ==> ids[k] in t.tags
      invariant db.State() == t.(links := t.links + BookRoutes.LinksTo(book, Elements(ids[..i])))
    {
      ghost var before := db.State();
      var r := db.RunQuery(InsertLink(Link(book, ids[i])));
      if r.Failure? {
        assert ids[i] !in t.tags;
        PrefixEndsAt(t.tags, ids, i);
        return false;
      }
      RanLinkInsert(before, Link(book, ids[i]), db.State(), r);
      LinksToNext(book, ids, i);
      i := i + 1;
    }
    assert ids[..|ids|] == ids;
    ok := true;
  }

  /** The links to the first i + 1 ids are those to the first i and one more. */
  lemma LinksToNext(book: Id, ids: seq<int>, i: nat)
    requires i < |ids|
    ensures BookRoutes.LinksTo(book, Elements(ids[..i + 1])) == BookRoutes.LinksTo(book, Elements(ids[..i])) + {Link(book, ids[i])}
  {
    assert ids[..i + 1] == ids[..i] + [ids[i]];
  }

  /** The linkable prefix ends at the first id that names no tag. */
  lemma {:induction false} PrefixEndsAt(tags: map<Id, Tag>, ids: seq<int>, i: nat)
    requires i < |ids| && ids[i] !in tags
    requires forall k :: 0 <= k < i ==> ids[k] in tags
    ensures LinkablePrefix(tags, ids) == i
  {
    if i > 0 {
      PrefixEndsAt(tags, ids[1..], i - 1);
    }
  }

  // ---------------------------------------------------------------- lemmas

  /** The serverless create does not keep owners in agreement: a book linked
      to another user's tag is created with 201. */
  lemma ForeignTagIsLinked(t: Tables, caller: Id, input: BookInput, now: int, g: Id)
    requires Wellformed(t) && caller in t.users && TitleGiven(input) && IntsFit(input)
    requires input.tags == Some([g]) && g in t.tags && t.tags[g].userId != caller
    ensures AddBookSpec(t, caller, input, now).reply.status == Created
    ensures !OwnersAgree(AddBookSpec(t, caller, input, now).after)
  {
    var s := AddBookSpec(t, caller, input, now);
    assert LinkablePrefix(t.tags, [g]) == 1;
    assert [g][..1] == [g];
    assert Link(t.nextBook, g) in s.after.links;
  }

  /** An id that names no tag answers 500 but leaves the new book stored. */
  lemma MissingTagLeavesBook(t: Tables, caller: Id, input: BookInput, now: int, k: int)
    requires Wellformed(t) && caller in t.users && TitleGiven(input) && IntsFit(input)
    requires input.tags.Some? && 0 <= k < |input.tags.value| && input.tags.value[k] !in t.tags
    ensures var s := AddBookSpec(t, caller, input, now);
      s.reply == Failed(ServerError, AddFailed) && t.nextBook in s.after.books && t.nextBook !in t.books
  {
    assert LinkablePrefix(t.tags, TagIds(input)) <= k;
  }

  // ------------------------------------------------------------- dispatcher

  /** The exported handler: `withAuth` first, then GET lists, POST adds and
      any other method gets 405. Only an admitted POST can change the
      tables. */
  method Handle(p: Primitives, env: Env, db: Bookshelf, header: Option<string>, httpMethod: string,
                query: BookRoutes.ListQuery, input: BookInput, now: int)
    returns (r: Routed<seq<BookRecord>, BookRecord>)
    requires db.Valid()
    modifies db
    ensures db.Valid()
    ensures match ServerlessAuth.Admission(p, env, header)
      case Deny(msg) => r == Refused(Failed(Unauthorized, msg)) && db.State() == old(db.State())
      case Admit(c) =>
        && (httpMethod == Get ==>
              && r.ToList? && db.State() == old(db.State())
              && (!TagUsable(query) ==> r.listed == Failed(ServerError, FetchFailed))
              && (TagUsable(query) ==> r.listed.status == OK && r.listed.body.Ok? && Listing(db.State(), c.id, query, r.listed.body.value)))
        && (httpMethod == Post ==>
              && r == ToCreate(AddBookSpec(old(db.State()), c.id, input, now).reply)
              && db.State() == AddBookSpec(old(db.State()), c.id, input, now).after)
        && (httpMethod != Get && httpMethod != Post ==> r == Refused(Failed(MethodNotAllowed, MethodNotAllowedMessage)) && db.State() == old(db.State()))
  {
    var ex := new Exchange();
    ServerlessAuth.WithAuth(p, env, header, ex);
    if ex.handlerCalls == 0 {
      return Refused(ex.response.value);
    }
    var caller := ex.user.value.id;
    if httpMethod == Get {
      var listed := GetBooks(db, caller, query);
      r := ToList(listed);
    } else if httpMethod == Post {
      var added := AddBook(db, caller, input, now);
      r := ToCreate(added);
    } else {
      r := Refused(Failed(MethodNotAllowed, MethodNotAllowedMessage));
    }
  }
}

=== FILE: serverless_tags.dfy ===
/**
  The serverless tag collection (api/tags/index.ts): listing in the
  database's collation, creation without the server's validation chains,
  and the dispatcher behind `withAuth`.
 */
module ServerlessTags {
  import opened Common
  import opened Schema
  import opened Engine
  import opened Rows
  import opened Http
  import opened Credentials
  import opened Session
  import ServerlessAuth
  import TagRoutes

  /** The fields `createTag` reads from the body; a missing field is None. */
  datatype TagInput = TagInput(name: Option<string>, color: Option<string>)

  const TagNameRequired: string := "Tag name required"

  /** `ORDER BY name` sorts in the database's collation, which is not part
      of this model; all it is taken to be is a total preorder on texts. */
  ghost predicate Collation(collate: (string, string) -> bool) {
    && (forall a, b :: collate(a, b) || collate(b, a))
    && (forall a, b, c :: collate(a, b) && collate(b, c) ==> collate(a, c))
  }

  /** `records` holds each tag of `owner` once, as its full row, in the
      collation's order of names. */
  ghost predicate CollatedListing(t: Tables, owner: Id, records: seq<TagRecord>, collate: (string, string) -> bool) {
    && (forall k :: 0 <= k < |records| ==> OwnsTag(t, owner, records[k].id) && records[k] == RecordOf(t, records[k].id))
    && (forall id :: OwnsTag(t, owner, id) ==> exists k :: 0 <= k < |records| && records[k].id == id)
    && (forall i, j :: 0 <= i < j < |records| ==> records[i].id != records[j].id)
    && (forall i, j :: 0 <= i < j < |records| ==> collate(records[i].name, records[j].name))
  }

  /** `getTags`: exactly the caller's tags, ordered by name. */
  method GetTags(db: Bookshelf, caller: Id, collate: (string, string) -> bool) returns (reply: Reply<seq<TagRecord>>)
    requires db.Valid() && Collation(collate)
    ensures reply.status == OK && reply.body.Ok? && CollatedListing(db.State(), caller, reply.body.value, collate)
  {
    var t := db.State();
    var keys := map id | id in t.tags && OwnsTag(t, caller, id) :: t.tags[id].name;
    var ids := OrderBy(keys, collate);
    var records := TagRoutes.RecordsOf(t, caller, ids, keys, collate);
    reply := Reply(OK, Ok(records));
  }

  /** `color || '#6366f1'`. */
  function ColorOr(color: Option<string>): (c: string)
    ensures color.Some? && color.value != "" ==> c == color.value
    ensures color.None? || color.value == "" ==> c == DefaultColor
  {
    if color.Some? && color.value != "" then color.value else DefaultColor
  }

  /** `createTag`: a missing or empty name gives 400 and changes nothing;
      otherwise the name is used exactly as given (no trimming, no length or
      colour check) and the store step is the server's: 400 when the caller
      already has that name, else the new row with 201. */
  function CreateTagSpec(t: Tables, caller: Id, input: TagInput): (s: Step<TagRecord>)
    requires Wellformed(t)
    ensures Wellformed(s.after) && (OwnersAgree(t) ==> OwnersAgree(s.after))
    ensures input.name.None? || input.name.value == "" ==> s == Step(t, Failed(BadRequest, TagNameRequired))
    ensures input.name.Some? && input.name.value != "" ==> s == TagRoutes.InsertTagSpec(t, caller, input.name.value, ColorOr(input.color))
  {
    if input.name.None? || input.name.value == "" then Step(t, Failed(BadRequest, TagNameRequired))
    else TagRoutes.InsertTagSpec(t, caller, input.name.value, ColorOr(input.color))
  }

  method CreateTag(db: Bookshelf, caller: Id, input: TagInput) returns (reply: Reply<TagRecord>)
    requires db.Valid()
    modifies db
    ensures db.Valid()
    ensures db.State() == CreateTagSpec(old(db.State()), caller, input).after
    ensures reply == CreateTagSpec(old(db.State()), caller, input).reply
  {
    if input.name.None? || input.name.value == "" {
      return Failed(BadRequest, TagNameRequired);
    }
    reply := TagRoutes.InsertNewTag(db, caller, input.name.value, ColorOr(input.color));
  }

  /** The exported handler: `withAuth` first, then GET lists, POST creates
      and any other method gets 405. Only an admitted POST can change the
      tables. */
  method Handle(p: Primitives, env: Env, db: Bookshelf, header: Option<string>, httpMethod: string, input: TagInput, collate: (string, string) -> bool)
    returns (r: Routed<seq<TagRecord>, TagRecord>)
    requires db.Valid() && Collation(collate)
    modifies db
    ensures db.Valid()
    ensures match ServerlessAuth.Admission(p, env, header)
      case Deny(msg) => r == Refused(Failed(Unauthorized, msg)) && db.State() == old(db.State())
      case Admit(c) =>
        && (httpMethod == Get ==>
              && r.ToList? && r.listed.status == OK && r.listed.body.Ok?
              && CollatedListing(db.State(), c.id, r.listed.body.value, collate) && db.State() == old(db.State()))
        && (httpMethod == Post ==>
              && r == ToCreate(CreateTagSpec(old(db.State()), c.id, input).reply)
              && db.State() == CreateTagSpec(old(db.State()), c.id, input).after)
        && (httpMethod != Get && httpMethod != Post ==> r == Refused(Failed(MethodNotAllowed, MethodNotAllowedMessage)) && db.State() == old(db.State()))
  {
    var ex := new Exchange();
    ServerlessAuth.WithAuth(p, env, header, ex);
    if ex.handlerCalls == 0 {
      return Refused(ex.response.value);
    }
    var caller := ex.user.value.id;
    if httpMethod == Get {
      var listed := GetTags(db, caller, collate);
      r := ToList(listed);
    } else if httpMethod == Post {
      var created := CreateTag(db, caller, input);
      r := ToCreate(created);
    } else {
      r := Refused(Failed(MethodNotAllowed, MethodNotAllowedMessage));
    }
  }

  /** Creating the same name twice: the second request is refused and
      changes nothing, whatever colour it asks for. */
  lemma CreateTwiceRefused(t: Tables, caller: Id, input: TagInput, again: TagInput)
    requires Wellformed(t)
    requires CreateTagSpec(t, caller, input).reply.status == Created
    requires again.name == input.name
    ensures var after := CreateTagSpec(t, caller, input).after;
      CreateTagSpec(after, caller, again) == Step(after, Failed(BadRequest, "Tag already exists"))
  {
    var after := CreateTagSpec(t, caller, input).after;
    assert after.tags[t.nextTag].name == input.name.value;
  }
}

=== FILE: session.dfy ===
/**
  The session gate of the Express server (server/src/middleware/auth.ts):
  it reads the `auth_token` cookie, verifies it, and either answers 401 or
  records the caller on the request and passes the request on. The same
  decision is taken by the serverless `withAuth`.
 */
module Session {
  import opened Common
  import opened Http
  import opened Credentials

  const AuthenticationRequired: string := "Authentication required"
  const InvalidOrExpired: string := "Invalid or expired token"

  /** What the gate decides: turn the request away with a message, or let it
      through as the user the token names. */
  datatype Gate = Deny(error: string) | Admit(user: Claims)

  /** The decision for the token found in the cookies, if any: a missing or
      empty token and a token that fails verification are turned away with
      different messages; a verified token admits its payload. */
  function Decide(token: Option<string>, verify: string -> Option<Claims>): (g: Gate)
    ensures g.Admit? <==> token.Some? && token.value != "" && verify(token.value).Some?
    ensures token.None? || token.value == "" ==> g == Deny(AuthenticationRequired)
    ensures token.Some? && token.value != "" && verify(token.value).None? ==> g == Deny(InvalidOrExpired)
    ensures g.Admit? ==> Some(g.user) == verify(token.value)
  {
    if token.None? || token.value == "" then Deny(AuthenticationRequired)
    else match verify(token.value)
      case None => Deny(InvalidOrExpired)
      case Some(c) => Admit(c)
  }

  /** One request and its response as a gate sees them: the user it
      records on the request, the response it sends, and how often it has
      passed the request on (`next()`, or the wrapped handler). */
  class Exchange {
    var user: Option<Claims>
    var response: Option<Reply<()>>
    var handlerCalls: nat

    /** A request that has been through no middleware yet. */
    constructor ()
      ensures user == None && response == None && handlerCalls == 0
    {
      user, response, handlerCalls := None, None, 0;
    }
  }

  /** The value of the `auth_token` entry of the parsed cookies. */
  function CookieToken(cookies: map<string, string>): (r: Option<string>)
    ensures r.Some? <==> "auth_token" in cookies
  {
    if "auth_token" in cookies then Some(cookies["auth_token"]) else None
  }

  /** `authMiddleware`: every call ends in exactly one of a 401 response,
      with `next` not called and no user recorded, or the verified payload
      recorded as the user and `next` called once. */
  method AuthMiddleware(p: Primitives, env: Env, cookies: map<string, string>, ex: Exchange)
    modifies ex
    ensures var g := Decide(CookieToken(cookies), t => VerifyToken(p, env, t));
      match g
      case Deny(msg) => ex.response == Some(Failed(Unauthorized, msg)) && ex.handlerCalls == old(ex.handlerCalls) && ex.user == old(ex.user)
      case Admit(c) => ex.user == Some(c) && ex.handlerCalls == old(ex.handlerCalls) + 1 && ex.response == old(ex.response)
  {
    var token := CookieToken(cookies);
    if token.None? || token.value == "" {
      ex.response := Some(Failed(Unauthorized, AuthenticationRequired));
      return;
    }
    var decoded := VerifyToken(p, env, token.value);
    if decoded.None? {
      ex.response := Some(Failed(Unauthorized, InvalidOrExpired));
      return;
    }
    ex.user := decoded;
    ex.handlerCalls := ex.handlerCalls + 1;
  }

  /** In production without JWT_SECRET no request gets past the gate. */
  lemma NoSecretAdmitsNobody(p: Primitives, env: Env, cookies: map<string, string>)
    requires IsProduction(env) && !SecretSet(env)
    ensures Decide(CookieToken(cookies), t => VerifyToken(p, env, t)).Deny?
  {
  }

  /** A cookie holding a token the service issued admits the user it was
      issued for. */
  lemma IssuedTokenAdmits(p: Primitives, env: Env, id: int, email: string, cookies: map<string, string>)
    requires TokensAgree(p)
    requires GenerateToken(p, env, id, email).Success?
    requires "auth_token" in cookies && cookies["auth_token"] == GenerateToken(p, env, id, email).value
    ensures Decide(CookieToken(cookies), t => VerifyToken(p, env, t)) == Admit(Claims(id, email))
  {
    TokenRoundTrip(p, env, id, email);
    var k := GetJwtSecret(env).value;
    assert cookies["auth_token"] == p.sign(Claims(id, email), k, TokenLifetime);
  }
}

=== FILE: tag_routes.dfy ===
/**
  The tag handlers of the Express server (server/src/routes/tags.ts). As for
  books, each mutating handler has a specification function giving the
  tables afterwards and the reply, and a method that runs the statements.
 */
module TagRoutes {
  import opened Common
  import opened Text
  import opened Json
  import opened Schema
  import opened Engine
  import opened Rows
  import opened Http
  import opened Validate

  const MaxNameLength: nat := 50

  // ---------------------------------------------------------------- listing

  /** The code-point order of names is a total preorder, so ORDER BY name
      has a result. */
  lemma NameOrderTotal(keys: map<Id, string>)
    ensures TotalOn(keys, LexLeq)
  {
    forall a, b | a in keys && b in keys
      ensures LexLeq(keys[a], keys[b]) || LexLeq(keys[b], keys[a])
    {
      LexLeqTotal(keys[a], keys[b]);
    }
    forall a, b, c | a in keys && b in keys && c in keys && LexLeq(keys[a], keys[b]) && LexLeq(keys[b], keys[c])
      ensures LexLeq(keys[a], keys[c])
    {
      LexLeqTransitive(keys[a], keys[b], keys[c]);
    }
  }

  /** `records` holds each tag of `owner` once, as its full row, in name order. */
  ghost predicate TagListing(t: Tables, owner: Id, records: seq<TagRecord>) {
    && (forall k :: 0 <= k < |records| ==> OwnsTag(t, owner, records[k].id) && records[k] == RecordOf(t, records[k].id))
    && (forall id :: OwnsTag(t, owner, id) ==> exists k :: 0 <= k < |records| && records[k].id == id)
    && (forall i, j :: 0 <= i < j < |records| ==> records[i].id != records[j].id)
    && (forall i, j :: 0 <= i < j < |records| ==> LexLeq(records[i].name, records[j].name))
  }

  /** The tags of `owner` as records in the order `ids` gives. */
  method RecordsOf(t: Tables, owner: Id, ids: seq<Id>, keys: map<Id, string>, leq: (string, string) -> bool) returns (records: seq<TagRecord>)
    requires keys == map id | id in t.tags && OwnsTag(t, owner, id) :: t.tags[id].name
    requires OrderedBy(ids, keys, leq)
    ensures |records| == |ids|
    ensures forall k :: 0 <= k < |records| ==> records[k].id == ids[k] && OwnsTag(t, owner, ids[k]) && records[k] == RecordOf(t, ids[k])
    ensures forall id :: OwnsTag(t, owner, id) ==> exists k :: 0 <= k < |records| && records[k].id == id
    ensures forall i, j :: 0 <= i < j < |records| ==> records[i].id != records[j].id
    ensures forall i, j :: 0 <= i < j < |records| ==> leq(records[i].name, records[j].name)
  {
    records := [];
    var i := 0;
    while i < |ids|
      invariant 0 <= i <= |ids| && |records| == i
      invariant forall k :: 0 <= k < i ==> records[k].id == ids[k] && OwnsTag(t, owner, ids[k]) && records[k] == RecordOf(t, ids[k])
    {
      assert ids[i] in keys;
      records := records + [RecordOf(t, ids[i])];
      i := i + 1;
    }
    forall id | OwnsTag(t, owner, id)
      ensures exists k :: 0 <= k < |records| && records[k].id == id
    {
      assert id in keys;
      var k :| 0 <= k < |ids| && ids[k] == id;
      assert records[k].id == id;
    }
    forall i, j | 0 <= i < j < |records|
      ensures leq(records[i].name, records[j].name)
    {
      assert records[i].name == keys[ids[i]] && records[j].name == keys[ids[j]];
    }
  }

  /** `GET /`: exactly the caller's tags, ordered by name. */
  method ListTags(db: Bookshelf, caller: Id) returns (reply: Reply<seq<TagRecord>>)
    requires db.Valid()
    ensures reply.status == OK && reply.body.Ok? && TagListing(db.State(), caller, reply.body.value)
  {
    var t := db.State();
    var keys := map id | id in t.tags && OwnsTag(t, caller, id) :: t.tags[id].name;
    NameOrderTotal(keys);
    var ids := OrderBy(keys, LexLeq);
    var records := RecordsOf(t, caller, ids, keys, LexLeq);
    reply := Reply(OK, Ok(records));
  }

  // ----------------------------------------------------------------- checks

  /** `isLength({ max: 50 })` after `trim()`. */
  predicate ShortName(v: Json) {
    Each(v, ShortText)
  }

  predicate ShortText(s: string) {
    Length(Trim(s)) <= MaxNameLength
  }

  /** `matches(/^#[0-9A-Fa-f]{6}$/)`. */
  predicate HexColor(v: Json) {
    Each(v, IsHexColor)
  }

  /** The validation chains of `POST /`: one error per failed validator, the
      emptiness test seeing the name before it is trimmed. */
  function CreateTagErrors(body: map<string, Json>): (r: seq<FieldError>)
    ensures r == [] <==> NotEmpty(Field(body, "name")) && ShortName(Field(body, "name")) && ("color" in body ==> HexColor(body["color"]))
  {
    Check(body, "name", false, NotEmpty, DefaultMessage)
    + Check(body, "name", false, ShortName, DefaultMessage)
    + Check(body, "color", true, HexColor, DefaultMessage)
  }

  /** The validation chains of `PUT /:id`. */
  function UpdateTagErrors(idText: string, body: map<string, Json>): (r: seq<FieldError>)
    ensures r == [] <==>
      && IsIntText(idText)
      && ("name" in body ==> NotEmpty(body["name"]) && ShortName(body["name"]))
      && ("color" in body ==> HexColor(body["color"]))
  {
    IdErrors(idText)
    + Check(body, "name", true, NotEmpty, DefaultMessage)
    + Check(body, "name", true, ShortName, DefaultMessage)
    + Check(body, "color", true, HexColor, DefaultMessage)
  }

  /** The name after `trim()`. */
  function NameOf(body: map<string, Json>): string {
    Trimmed(Field(body, "name"))
  }

  /** `color || '#6366f1'`. */
  function ColorOf(body: map<string, Json>): (c: string)
    ensures "color" !in body ==> c == DefaultColor
    ensures "color" in body && body["color"].JStr? && IsHexColor(body["color"].s) ==> c == body["color"].s
  {
    if "color" in body && Truthy(body["color"]) then ToText(body["color"]) else DefaultColor
  }

  // ----------------------------------------------------------------- create

  /** The store part of `POST /`: a name the caller already uses gives 400
      and changes nothing (only the caller's own tags can clash); otherwise
      the tag is added and returned with 201. A caller whose user row is
      gone makes the insert fail: 500. */
  function InsertTagSpec(t: Tables, caller: Id, name: string, color: string): (s: Step<TagRecord>)
    requires Wellformed(t)
    ensures Wellformed(s.after) && (OwnersAgree(t) ==> OwnersAgree(s.after))
    ensures NameTaken(t, caller, name) ==> s == Step(t, Failed(BadRequest, "Tag already exists"))
    ensures !NameTaken(t, caller, name) && caller !in t.users ==> s == Step(t, Failed(ServerError, "Failed to create tag"))
    ensures !NameTaken(t, caller, name) && caller in t.users ==>
      var id := t.nextTag;
      && id !in t.tags
      && s.after.tags == t.tags[id := Tag(caller, name, color)]
      && s.after.users == t.users && s.after.books == t.books && s.after.links == t.links
      && s.after.nextTag == id + 1 && s.after.nextUser == t.nextUser && s.after.nextBook == t.nextBook
      && s.reply == Reply(Created, Ok(TagRecord(id, caller, name, color)))
  {
    if NameTaken(t, caller, name) then Step(t, Failed(BadRequest, "Tag already exists"))
    else if caller !in t.users then Step(t, Failed(ServerError, "Failed to create tag"))
    else
      var after := WithTag(t, Tag(caller, name, color));
      Step(after, Reply(Created, Ok(RecordOf(after, t.nextTag))))
  }

  /** The existence check, the insert and the re-read of the new row. */
  method InsertNewTag(db: Bookshelf, caller: Id, name: string, color: string) returns (reply: Reply<TagRecord>)
    requires db.Valid()
    modifies db
    ensures db.Valid()
    ensures db.State() == InsertTagSpec(old(db.State()), caller, name, color).after
    ensures reply == InsertTagSpec(old(db.State()), caller, name, color).reply
  {
    if NameTaken(db.State(), caller, name) {
      return Failed(BadRequest, "Tag already exists");
    }
    var inserted := db.RunQuery(InsertTag(Tag(caller, name, color)));
    if inserted.Failure? {
      return Failed(ServerError, "Failed to create tag");
    }
    reply := Reply(Created, Ok(RecordOf(db.State(), inserted.value.lastInsertRowid)));
  }

  /** `POST /`: a rejected body changes nothing; otherwise the tag is added
      under the trimmed name with the given colour or the default one,
      unless the caller already has a tag of that name. */
  function CreateTagSpec(t: Tables, caller: Id, body: map<string, Json>): (s: Step<TagRecord>)
    requires Wellformed(t)
    ensures Wellformed(s.after) && (OwnersAgree(t) ==> OwnersAgree(s.after))
    ensures CreateTagErrors(body) != [] ==> s == Step(t, Reply(BadRequest, Invalid(CreateTagErrors(body))))
    ensures CreateTagErrors(body) == [] ==> s == InsertTagSpec(t, caller, NameOf(body), ColorOf(body))
  {
    var errors := CreateTagErrors(body);
    if errors != [] then Step(t, Reply(BadRequest, Invalid(errors)))
    else InsertTagSpec(t, caller, NameOf(body), ColorOf(body))
  }

  method CreateTag(db: Bookshelf, caller: Id, body: map<string, Json>) returns (reply: Reply<TagRecord>)
    requires db.Valid()
    modifies db
    ensures db.Valid()
    ensures db.State() == CreateTagSpec(old(db.State()), caller, body).after
    ensures reply == CreateTagSpec(old(db.State()), caller, body).reply
  {
    var errors := CreateTagErrors(body);
    if errors != [] {
      return Reply(BadRequest, Invalid(errors));
    }
    reply := InsertNewTag(db, caller, NameOf(body), ColorOf(body));
  }

  // ----------------------------------------------------------------- update

  /** The row after `UPDATE tags SET ...`: name and colour take the body's
      values when given; the owner never changes. */
  function Renamed(g: Tag, body: map<string, Json>): (r: Tag)
    ensures r.userId == g.userId
    ensures r.name == (if "name" in body then NameOf(body) else g.name)
    ensures r.color == (if "color" in body then ToText(body["color"]) else g.color)
    ensures "name" !in body && "color" !in body ==> r == g
  {
    var named := if "name" in body then g.(name := NameOf(body)) else g;
    if "color" in body then named.(color := ToText(body["color"])) else named
  }

  /** The store part of `PUT /:id`: a tag the caller does not own gives 404
      and a new name that another of the caller's tags has gives 400, both
      changing nothing; otherwise only the given name and colour change. */
  function RewriteTagSpec(t: Tables, caller: Id, id: Id, body: map<string, Json>): (s: Step<TagRecord>)
    requires Wellformed(t)
    ensures Wellformed(s.after) && (OwnersAgree(t) ==> OwnersAgree(s.after))
    ensures !OwnsTag(t, caller, id) ==> s == Step(t, Failed(NotFound, "Tag not found"))
    ensures OwnsTag(t, caller, id) && "name" in body && NameTakenByOther(t, caller, NameOf(body), id) ==>
      s == Step(t, Failed(BadRequest, "Tag name already exists"))
    ensures OwnsTag(t, caller, id) && !("name" in body && NameTakenByOther(t, caller, NameOf(body), id)) ==>
      && s.after == t.(tags := t.tags[id := Renamed(t.tags[id], body)])
      && s.reply == Reply(OK, Ok(RecordOf(s.after, id)))
  {
    if !OwnsTag(t, caller, id) then Step(t, Failed(NotFound, "Tag not found"))
    else if "name" in body && NameTakenByOther(t, caller, NameOf(body), id) then
      Step(t, Failed(BadRequest, "Tag name already exists"))
    else
      var after := ReplacedTag(t, id, Renamed(t.tags[id], body));
      Step(after, Reply(OK, Ok(RecordOf(after, id))))
  }

  /** The ownership and name checks, the SET list built from the given
      fields, the update when there is one and the re-read of the row. */
  method RewriteTag(db: Bookshelf, caller: Id, id: Id, body: map<string, Json>) returns (reply: Reply<TagRecord>)
    requires db.Valid()
    modifies db
    ensures db.Valid()
    ensures db.State() == RewriteTagSpec(old(db.State()), caller, id, body).after
    ensures reply == RewriteTagSpec(old(db.State()), caller, id, body).reply
  {
    ghost var t := db.State();
    if !(id in db.tags && db.tags[id].userId == caller) {
      return Failed(NotFound, "Tag not found");
    }
    if "name" in body && NameTakenByOther(db.State(), caller, NameOf(body), id) {
      return Failed(BadRequest, "Tag name already exists");
    }
    var row := db.tags[id];
    var anyUpdate := false;
    if "name" in body {
      row := row.(name := NameOf(body));
      anyUpdate := true;
    }
    if "color" in body {
      row := row.(color := ToText(body["color"]));
      anyUpdate := true;
    }
    assert row == Renamed(t.tags[id], body);
    if anyUpdate {
      if "name" !in body {
        OwnNameFree(t, id);
      }
      assert row.userId in t.users;
      var ignored := db.RunQuery(Statement.UpdateTag(id, row));
      RanTagUpdate(t, id, row, db.State(), ignored);
    } else {
      assert t.tags[id := row] == t.tags;
    }
    reply := Reply(OK, Ok(RecordOf(db.State(), id)));
  }

  /** `PUT /:id`: a rejected request changes nothing; otherwise the tag is
      rewritten as RewriteTagSpec says. */
  function UpdateTagSpec(t: Tables, caller: Id, idText: string, body: map<string, Json>): (s: Step<TagRecord>)
    requires Wellformed(t)
    ensures Wellformed(s.after) && (OwnersAgree(t) ==> OwnersAgree(s.after))
    ensures UpdateTagErrors(idText, body) != [] ==> s == Step(t, Reply(BadRequest, Invalid(UpdateTagErrors(idText, body))))
    ensures UpdateTagErrors(idText, body) == [] ==> s == RewriteTagSpec(t, caller, IntValue(idText), body)
  {
    var errors := UpdateTagErrors(idText, body);
    if errors != [] then Step(t, Reply(BadRequest, Invalid(errors)))
    else RewriteTagSpec(t, caller, IntValue(idText), body)
  }

  /** Giving a tag its own current name is never a clash: the name check
      leaves the tag itself out. */
  lemma KeepingNameIsAllowed(t: Tables, caller: Id, id: Id, body: map<string, Json>)
    requires Wellformed(t) && OwnsTag(t, caller, id)
    requires "name" in body && NameOf(body) == t.tags[id].name
    ensures RewriteTagSpec(t, caller, id, body).reply.status == OK
  {
    OwnNameFree(t, id);
  }

  method UpdateTag(db: Bookshelf, caller: Id, idText: string, body: map<string, Json>) returns (reply: Reply<TagRecord>)
    requires db.Valid()
    modifies db
    ensures db.Valid()
    ensures db.State() == UpdateTagSpec(old(db.State()), caller, idText, body).after
    ensures reply == UpdateTagSpec(old(db.State()), caller, idText, body).reply
  {
    var errors := UpdateTagErrors(idText, body);
    if errors != [] {
      return Reply(BadRequest, Invalid(errors));
    }
    reply := RewriteTag(db, caller, IntValue(idText), body);
  }

  // ----------------------------------------------------------------- delete

  /** `DELETE /:id`: removes the tag when the caller owns it, its links
      going with it by cascade; otherwise 404 and nothing changes. */
  function DeleteTagSpec(t: Tables, caller: Id, idText: string): (s: Step<()>)
    requires Wellformed(t)
    ensures Wellformed(s.after) && (OwnersAgree(t) ==> OwnersAgree(s.after))
    ensures !IsIntText(idText) ==> s == Step(t, Reply(BadRequest, Invalid(IdErrors(idText))))
    ensures IsIntText(idText) && !OwnsTag(t, caller, IntValue(idText)) ==> s == Step(t, Failed(NotFound, "Tag not found"))
    ensures IsIntText(idText) && OwnsTag(t, caller, IntValue(idText)) ==>
      && s.reply == Reply(OK, Message("Tag deleted"))
      && s.after.tags == t.tags - {IntValue(idText)}
      && (forall l :: l in s.after.links <==> l in t.links && l.tag != IntValue(idText))
      && s.after.users == t.users && s.after.books == t.books
      && s.after.nextUser == t.nextUser && s.after.nextBook == t.nextBook && s.after.nextTag == t.nextTag
  {
    if !IsIntText(idText) then Step(t, Reply(BadRequest, Invalid(IdErrors(idText))))
    else
      var id := IntValue(idText);
      if OwnsTag(t, caller, id) then Step(WithoutTag(t, id), Reply(OK, Message("Tag deleted")))
      else Step(t, Failed(NotFound, "Tag not found"))
  }

  method DeleteTag(db: Bookshelf, caller: Id, idText: string) returns (reply: Reply<()>)
    requires db.Valid()
    modifies db
    ensures db.Valid()
    ensures db.State() == DeleteTagSpec(old(db.State()), caller, idText).after
    ensures reply == DeleteTagSpec(old(db.State()), caller, idText).reply
  {
    if !IsIntText(idText) {
      return Reply(BadRequest, Invalid(IdErrors(idText)));
    }
    var id := IntValue(idText);
    var result := db.RunQuery(DeleteOwnedTag(id, caller));
    if result.value.changes == 0 {
      return Failed(NotFound, "Tag not found");
    }
    reply := Reply(OK, Message("Tag deleted"));
  }
}

=== FILE: text.dfy ===
/**
  String operations of the JavaScript runtime and of validator.js that the
  handlers rely on: trimming, splitting on one character, integer texts,
  the code-point order SQLite sorts text by, ASCII case folding and the
  UTF-16 length JavaScript reports.
 */
module Text {

  /** White space as ECMAScript's String.prototype.trim and the regular
      expression class \s see it: the WhiteSpace and LineTerminator code points. */
  predicate IsJsWhitespace(c: char) {
    || c == '\t' || c == '\n' || c == '\U{B}' || c == '\U{C}' || c == '\r' || c == ' '
    || c == '\U{A0}' || c == '\U{1680}' || ('\U{2000}' <= c <= '\U{200A}')
    || c == '\U{2028}' || c == '\U{2029}' || c == '\U{202F}' || c == '\U{205F}'
    || c == '\U{3000}' || c == '\U{FEFF}'
  }

  /** Drops the leading white space: the result is a suffix of `s` that does
      not start with white space, and everything dropped was white space. */
  function TrimStart(s: string): (r: string)
    ensures |r| <= |s| && r == s[|s| - |r|..]
    ensures r == [] || !IsJsWhitespace(r[0])
    ensures forall i :: 0 <= i < |s| - |r| ==> IsJsWhitespace(s[i])
  {
    if s != [] && IsJsWhitespace(s[0]) then TrimStart(s[1..]) else s
  }

  /** Drops the trailing white space: the result is a prefix of `s` that does
      not end with white space, and everything dropped was white space. */
  function TrimEnd(s: string): (r: string)
    ensures |r| <= |s| && r == s[..|r|]
    ensures r == [] || !IsJsWhitespace(r[|r| - 1])
    ensures forall i :: |r| <= i < |s| ==> IsJsWhitespace(s[i])
  {
    if s != [] && IsJsWhitespace(s[|s| - 1]) then TrimEnd(s[..|s| - 1]) else s
  }

  /** How many white-space characters String.prototype.trim removes in front. */
  function LeadingSpace(s: string): (k: nat)
    ensures k <= |s|
  {
    |s| - |TrimStart(s)|
  }

  /** String.prototype.trim: the slice of `s` left once the white space at
      both ends is gone. */
  function Trim(s: string): (r: string)
    ensures LeadingSpace(s) + |r| <= |s|
    ensures r == s[LeadingSpace(s)..LeadingSpace(s) + |r|]
    ensures r == [] || (!IsJsWhitespace(r[0]) && !IsJsWhitespace(r[|r| - 1]))
    ensures forall i :: 0 <= i < LeadingSpace(s) ==> IsJsWhitespace(s[i])
    ensures forall i :: LeadingSpace(s) + |r| <= i < |s| ==> IsJsWhitespace(s[i])
  {
    TrimEnd(TrimStart(s))
  }

  /** Trimming twice trims nothing more. */
  lemma TrimIdempotent(s: string)
    ensures Trim(Trim(s)) == Trim(s)
  {
    var r := Trim(s);
    assert TrimStart(r) == r;
    assert TrimEnd(r) == r;
  }

  /** The inverse of Split: the pieces glued back with the separator. */
  function Join(parts: seq<string>, sep: char): string
    requires |parts| >= 1
  {
    if |parts| == 1 then parts[0] else parts[0] + [sep] + Join(parts[1..], sep)
  }

  /** String.prototype.split with a one-character separator: the pieces
      contain no separator, joining them back gives `s`, and the first piece
      is the text before the first separator. */
  function Split(s: string, sep: char): (r: seq<string>)
    ensures |r| >= 1
    ensures forall i :: 0 <= i < |r| ==> sep !in r[i]
    ensures Join(r, sep) == s
    ensures |r[0]| <= |s| && r[0] == s[..|r[0]|]
    ensures |r[0]| < |s| ==> s[|r[0]|] == sep
  {
    if s == [] then [[]]
    else
      var rest := Split(s[1..], sep);
      if s[0] == sep then
        assert ([[]] + rest)[1..] == rest;
        [[]] + rest
      else
        var r := [[s[0]] + rest[0]] + rest[1..];
        assert r[1..] == rest[1..];
        assert |rest| > 1 ==> Join(rest, sep) == rest[0] + [sep] + Join(rest[1..], sep);
        r
  }

  /** A text without the separator is one piece. */
  lemma {:induction false} SplitWithoutSeparator(s: string, sep: char)
    requires sep !in s
    ensures Split(s, sep) == [s]
  {
    if s != [] {
      SplitWithoutSeparator(s[1..], sep);
      assert s == [s[0]] + s[1..];
    }
  }

  /** Two separator-free texts joined by the separator split back into them. */
  lemma {:induction false} SplitPair(a: string, b: string, sep: char)
    requires sep !in a && sep !in b
    ensures Split(a + [sep] + b, sep) == [a, b]
  {
    var s := a + [sep] + b;
    if a == [] {
      assert s[1..] == b;
      SplitWithoutSeparator(b, sep);
    } else {
      assert s[1..] == a[1..] + [sep] + b;
      SplitPair(a[1..], b, sep);
      assert a == [a[0]] + a[1..];
    }
  }

  /** A text that starts and ends with no white space is left as it is by trim. */
  lemma TrimKeeps(s: string)
    requires s == [] || (!IsJsWhitespace(s[0]) && !IsJsWhitespace(s[|s| - 1]))
    ensures Trim(s) == s
  {
    assert TrimStart(s) == s;
  }

  predicate IsDigit(c: char) {
    '0' <= c <= '9'
  }

  function DigitValue(c: char): nat
    requires IsDigit(c)
  {
    c as int - '0' as int
  }

  function DigitChar(d: nat): (c: char)
    requires d < 10
    ensures IsDigit(c) && DigitValue(c) == d
  {
    ('0' as int + d) as char
  }

  predicate AllDigits(s: string) {
    forall i :: 0 <= i < |s| ==> IsDigit(s[i])
  }

  /** The value of a string of decimal digits. */
  function DigitsValue(s: string): nat
    requires AllDigits(s)
  {
    if s == [] then 0 else DigitsValue(s[..|s| - 1]) * 10 + DigitValue(s[|s| - 1])
  }

  /** The decimal text JavaScript prints for a non-negative integer: digits
      only, and no leading zero unless the number is 0. */
  function NatToString(n: nat): (s: string)
    ensures |s| >= 1 && AllDigits(s)
    ensures |s| > 1 ==> s[0] != '0'
  {
    if n < 10 then [DigitChar(n)] else NatToString(n / 10) + [DigitChar(n % 10)]
  }

  /** The decimal text JavaScript prints for an integer. */
  function IntToString(n: int): string {
    if n < 0 then "-" + NatToString(-n) else NatToString(n)
  }

  /** The integer texts validator.js's isInt accepts with its default
      options (`^[-+]?[0-9]+$`). */
  predicate IsIntText(s: string) {
    if |s| > 0 && (s[0] == '+' || s[0] == '-') then |s| > 1 && AllDigits(s[1..])
    else |s| > 0 && AllDigits(s)
  }

  /** The number JavaScript's Number() gives such a text. */
  function IntValue(s: string): int
    requires IsIntText(s)
  {
    if s[0] == '-' then -(DigitsValue(s[1..]) as int)
    else if s[0] == '+' then DigitsValue(s[1..])
    else DigitsValue(s)
  }

  lemma {:induction false} NatToStringRoundTrip(n: nat)
    ensures DigitsValue(NatToString(n)) == n
  {
    var s := NatToString(n);
    if n >= 10 {
      NatToStringRoundTrip(n / 10);
      assert s[..|s| - 1] == NatToString(n / 10);
    }
  }

  /** Reading back the text of an integer gives the integer. */
  lemma IntToStringRoundTrip(n: int)
    ensures IsIntText(IntToString(n)) && IntValue(IntToString(n)) == n
  {
    if n < 0 {
      NatToStringRoundTrip(-n);
      assert IntToString(n)[1..] == NatToString(-n);
    } else {
      NatToStringRoundTrip(n);
    }
  }

  /** Code-point lexicographic order on strings. It is the order SQLite's
      default BINARY collation gives UTF-8 text. */
  predicate LexLeq(a: string, b: string) {
    a == [] || (b != [] && (a[0] < b[0] || (a[0] == b[0] && LexLeq(a[1..], b[1..]))))
  }

  lemma {:induction false} LexLeqTotal(a: string, b: string)
    ensures LexLeq(a, b) || LexLeq(b, a)
  {
    if a != [] && b != [] && a[0] == b[0] {
      LexLeqTotal(a[1..], b[1..]);
    }
  }

  lemma {:induction false} LexLeqTransitive(a: string, b: string, c: string)
    requires LexLeq(a, b) && LexLeq(b, c)
    ensures LexLeq(a, c)
  {
    if a != [] && a[0] == b[0] && b[0] == c[0] {
      LexLeqTransitive(a[1..], b[1..], c[1..]);
    }
  }

  lemma {:induction false} LexLeqAntisymmetric(a: string, b: string)
    requires LexLeq(a, b) && LexLeq(b, a)
    ensures a == b
  {
    if a != [] && b != [] {
      LexLeqAntisymmetric(a[1..], b[1..]);
      assert a == [a[0]] + a[1..];
      assert b == [b[0]] + b[1..];
    }
  }

  /** ASCII case folding: SQLite's LIKE ignores the case of ASCII letters only. */
  function FoldAscii(c: char): (d: char)
    ensures 'A' <= c <= 'Z' ==> 'a' <= d <= 'z' && d as int == c as int + 32
    ensures !('A' <= c <= 'Z') ==> d == c
  {
    if 'A' <= c <= 'Z' then (c as int + 32) as char else c
  }

  /** The `length` JavaScript reports for a string: UTF-16 code units, so a
      code point above U+FFFF counts twice. */
  function Utf16Length(s: string): (n: nat)
    ensures |s| <= n <= 2 * |s|
  {
    if s == [] then 0 else (if s[0] as int > 0xFFFF then 2 else 1) + Utf16Length(s[1..])
  }
}

=== FILE: validate.dfy ===
/**
  The express-validator checks and sanitizers the server routes declare, and
  the validator.js predicates beneath them. A standard validator sees the
  value converted to text, and when the value is an array it checks every
  element on its own.
 */
module Validate {
  import opened Common
  import opened Text
  import opened Json
  import opened Http

  /** The message of a check that declares none. */
  const DefaultMessage: string := "Invalid value"

  /** The text a validator sees: null and a missing field become "", an array
      its elements' texts joined with commas. */
  function ToText(v: Json): string
    decreases v
  {
    match v
    case JNull => ""
    case JBool(b) => if b then "true" else "false"
    case JNum(n) => IntToString(n)
    case JStr(s) => s
    case JArr(items) => JoinWith(seq(|items|, i requires 0 <= i < |items| => ToText(items[i])), ",")
  }

  /** A standard validator `ok` accepts the value: every element of an array,
      or the value itself. */
  predicate Each(v: Json, ok: string -> bool) {
    match v
    case JArr(items) => forall i :: 0 <= i < |items| ==> ok(ToText(items[i]))
    case _ => ok(ToText(v))
  }

  /** The value of a body field; a missing field reads as null. */
  function Field(body: map<string, Json>, f: string): Json {
    if f in body then body[f] else JNull
  }

  /** One validation chain: [] when it passes, its error otherwise. An
      `optional()` chain passes when the field is missing. */
  function Check(body: map<string, Json>, f: string, optional: bool, ok: Json -> bool, msg: string): (r: seq<FieldError>)
    ensures r == [] || r == [FieldError(f, msg)]
    ensures r == [] <==> (optional && f !in body) || ok(Field(body, f))
  {
    if optional && f !in body then []
    else if ok(Field(body, f)) then []
    else [FieldError(f, msg)]
  }

  /** `notEmpty()`. */
  predicate NotEmpty(v: Json) {
    Each(v, s => s != [])
  }

  /** `isArray()`. */
  predicate IsArray(v: Json) {
    v.JArr?
  }

  /** `isString()`. */
  predicate IsString(v: Json) {
    v.JStr?
  }

  /** `isInt()`. */
  predicate IsInt(v: Json) {
    Each(v, IsIntText)
  }

  /** `isInt({ min: lo, max: hi })`. */
  predicate IsIntIn(v: Json, lo: int, hi: int) {
    Each(v, s => IsIntText(s) && lo <= IntValue(s) <= hi)
  }

  /** `isIn(values)`. */
  predicate IsIn(v: Json, values: set<string>) {
    Each(v, s => s in values)
  }

  /** The length validator.js's isLength measures: code points, not counting
      the variation selectors U+FE0E and U+FE0F. */
  function Length(s: string): (n: nat)
    ensures n <= |s|
  {
    if s == [] then 0 else (if s[0] == '\U{FE0E}' || s[0] == '\U{FE0F}' then 0 else 1) + Length(s[1..])
  }

  predicate IsHexDigit(c: char) {
    IsDigit(c) || 'a' <= c <= 'f' || 'A' <= c <= 'F'
  }

  /** `/^#[0-9A-Fa-f]{6}$/`. */
  predicate IsHexColor(s: string) {
    |s| == 7 && s[0] == '#' && forall i :: 1 <= i < 7 ==> IsHexDigit(s[i])
  }

  /** The `trim()` sanitizer: the field's text with the white space at both ends removed. */
  function Trimmed(v: Json): string {
    Trim(ToText(v))
  }

  /** The text bound into a TEXT column for `x || null`: nothing for a falsy value. */
  function TextOrNull(body: map<string, Json>, f: string): (r: Option<string>)
    ensures r.None? <==> f !in body || !Truthy(body[f])
    ensures f in body && body[f].JStr? && body[f].s != "" ==> r == Some(body[f].s)
  {
    if f in body && Truthy(body[f]) then Some(ToText(body[f])) else None
  }

  /** The integer an INTEGER column keeps for `x || null`: nothing for a falsy
      value, else the value the integer text denotes. */
  function IntOrNull(body: map<string, Json>, f: string): (r: Option<int>)
    ensures f !in body || !Truthy(body[f]) ==> r.None?
    ensures f in body && body[f].JNum? && body[f].n != 0 ==> r == Some(body[f].n)
  {
    var v := Field(body, f);
    assert v.JNum? ==> IsIntText(ToText(v)) && IntValue(ToText(v)) == v.n by {
      if v.JNum? {
        IntToStringRoundTrip(v.n);
      }
    }
    if f in body && Truthy(v) && IsIntText(ToText(v)) then Some(IntValue(ToText(v))) else None
  }

  /** A JSON array column written with JSON.stringify when the field is an
      array, and NULL when it is missing. */
  function ArrayOrNull(body: map<string, Json>, f: string): (r: Option<JsonColumn>)
    ensures r.Some? <==> f in body && body[f].JArr?
    ensures r.Some? ==> Decode(r.value) == body[f].items
  {
    if f in body && body[f].JArr? then Some(Encoded(body[f].items)) else None
  }

  /** The error of `param('id').isInt()`. */
  function IdErrors(idText: string): (r: seq<FieldError>)
    ensures r == [] <==> IsIntText(idText)
  {
    if IsIntText(idText) then [] else [FieldError("id", DefaultMessage)]
  }

  /** The integer a path parameter names once `isInt()` has accepted it. */
  function PathId(text: string): (r: Option<int>)
    ensures r.Some? <==> IsIntText(text)
  {
    if IsIntText(text) then Some(IntValue(text)) else None
  }

  /** Reading a number's text back gives the number, so a path built from an
      id names that id. */
  lemma PathIdOfNumber(n: int)
    ensures PathId(IntToString(n)) == Some(n)
  {
    IntToStringRoundTrip(n);
  }
}
